=== FILE: README.md ===
# injectStar in Dafny

injectStar is an artificial-star test for the HSC pipeline (hscPipe). It
injects point sources into coadd patches on a fixed grid. It writes the job
scripts that re-run detection and measurement. It exports the pipeline's
detections per filter. Then it crossmatches them with the injected stars to
measure completeness. This project models the logic of those steps as pure
functions over immutable sequences, records and strings, and proves what
they compute.

| module | file | models |
|---|---|---|
| `Numbers`, `Errors`, `Text`, `Paths` | numbers.dfy, errors.dfy, text.dfy, paths.dfy | The shared pieces. Real arithmetic facts. The exceptions the scripts can raise, as a `Result` type. Python's `str` methods and file-line iteration. The `os.path` functions on clean paths, without `.`, `..` or empty components. |
| `Catalogs` | catalogs.dfy | The injected-star and detected-source rows; the detected row's fields are the six output columns `id, ra, dec, mag, mag_err, flag`, in that order. The `input_{f}_{magstring}.txt` and `output_{f}_{magstring}.csv` paths. |
| `Crossmatch` | crossmatch.dfy | `spatial_preselect` and the exact separation test. The per-star match decision, the per-filter count, the ratio and its error. |
| `MatchesTable` | matches_table.dfy | The five columns per filter. The record dictionary, and the record built from it. The three branches that save `matches.csv`. |
| `CrossmatchRun` | crossmatch_run.dfy | `main` of `crossmatch.py`: magnitudes from the run key, the loop over filters in configuration order, and the saved table. |
| `OutputCatalog` | output_catalog.dfy | `outputCatalog.py`: the patch loop, the `flux > 0` row mask, the `mag` and `mag_err` formulas, and one file per filter. |
| `InjectGrid` | inject_grid.dfy | The geometry of `injectStar_ver4.py`. The 300-pixel grid and tiles. Stamp padding. The fake mask plane and the 5x5 mask block. The catalog rows of the injected stars. |
| `SetupFile` | setup_file.dfy | `read_setuphsc` and the template that `make_setuphsc` writes. |
| `BashActions` | bash_actions.dfy | The job-script builders of `utils/bash_actions.py`. The script text is a `string` the builders append to. A configuration section is a `map`. |
| `FilterJoin` | filter_join.dfy | `join_filter`: the filter values of a configuration section in sorted key order, joined with `^`. |

Some dependencies are not part of the model and enter as parameters:

- `angular_distance`, `np.sqrt`, `np.log10` and the float parsing of the run key are function-valued parameters. The laws a proof relies on are predicates in its `requires`.
  - `SepAtLeastDecOffset`: the separation in arcseconds is at least 3600 times the declination offset.
  - `SepAtMostPlanar`: the separation is at most the planar distance.
  - `SepAtLeastRaOffset`: along a parallel, an arc of up to one degree of RA is at least a lower bound of `cos(dec)` times its RA offset.
  - `SqrtLaws`: the square root is non-negative and squares back.
  - `Log10Increasing`: `log10` is increasing.
- File contents are maps from paths to parsed rows (`CrossmatchRun.Disk`), so a missing path is a `FileNotFound`.
- The butler and `os.listdir` are functions of the data id (`OutputCatalog.Store`).
- A PSF stamp is known only by its shape, or by `None` where `computeImage` raises `InvalidParameterError`.
- The WCS is a function from pixel to sky coordinates.

The crossmatch limits (`Crossmatch.Limits`) and the mask layout (`InjectGrid.MaskLayout`) are parameters of the runs. Each has an as-written value and a corrected value; see "## Findings".

Where the code and its documentation disagree, the model follows the code:

- `outputCatalog.py` keeps rows only on `flux > 0`. The fake-centre flag is written but does not select rows (lines 73-75, 94).
- `crossmatch.py` saves with `index=False`, so the run key set as the row label at line 108 never reaches `matches.csv`.
- An empty injected-star file makes pandas raise `EmptyDataError` at line 79, before the division at line 103 is reached. The model takes parsed rows, so an empty list reaches the division and gives `ZeroDivision`.

## Model

| member | source | states |
|---|---|---|
| Crossmatch.Prefilter | src/injectStar/crossmatch.py:81-83 | A detected row survives iff its magnitude is strictly within `minmag` of the target and its fake flag is set. Nothing else is added. |
| Crossmatch.PrefilterAppend | src/injectStar/crossmatch.py:81-83 | Filtering distributes over concatenation, so survivors keep their relative order. |
| Crossmatch.SpatialPreselect | src/injectStar/crossmatch.py:28-38 | The box keeps a row iff its declination is strictly within `decdist` of the star's. RA and the `cos` half-width never matter, because line 37 overwrites the RA mask. |
| Crossmatch.PreselectIsLossless | src/injectStar/crossmatch.py:90-96 | Suppose the separation is at least 3600 times the declination offset and the exact limit is at most 3600 times the box half-width. Then the box never drops a row the exact test accepts: recovered iff some candidate passes the exact test. |
| Crossmatch.CloseRows | src/injectStar/crossmatch.py:90-96 | The rows left after both masks are exactly the candidates inside the box with a separation strictly below the limit. |
| Crossmatch.Hit | src/injectStar/crossmatch.py:98-99 | A star counts iff at least one row survives both masks. |
| Crossmatch.CountHits | src/injectStar/crossmatch.py:85-99 | The match count never exceeds the number of injected stars. |
| Crossmatch.CountHitsAppend | src/injectStar/crossmatch.py:85-99 | Counting over two runs of stars adds up. |
| Crossmatch.CountHitsIsRecoveredStars | src/injectStar/crossmatch.py:85-99 | The count is the number of distinct star indices recovered, so each star adds at most one. |
| Crossmatch.OneStarCountsOnce | src/injectStar/crossmatch.py:98-99 | A single star adds 1 if any row matches it, however many do, and 0 otherwise. |
| Crossmatch.OneDetectionManyStars | src/injectStar/crossmatch.py:85-99 | One detected row is credited to two stars at its position, giving two matches. |
| Crossmatch.Matches | src/injectStar/crossmatch.py:81-99 | The per-filter match count lies between 0 and the number of injected stars. |
| Crossmatch.HitMonotone | src/injectStar/crossmatch.py:81-96 | A star matched under smaller box, exact and magnitude limits stays matched under larger ones. |
| Crossmatch.MatchesMonotone | src/injectStar/crossmatch.py:81-99 | Widening the limits never decreases the match count. |
| Crossmatch.MindistMonotone | src/injectStar/crossmatch.py:70-71 | Decreasing `mindist` (box and exact limit alike) or `minmag` never increases the match count. |
| Crossmatch.FilterRun | src/injectStar/crossmatch.py:101-104 | Division by zero iff there are no injected stars. Otherwise `total` is the number of stars and `matches <= total`. The ratio lies in [0,1] with `ratio * total == matches`, and `ratio_err * total == sqrt(matches) >= 0`. |
| Crossmatch.NearbyDetectionMissedAsWritten | src/injectStar/crossmatch.py:93-95 | As written, a detection 0.77 arcseconds from its star is not a match: ratio 0. |
| Crossmatch.NearbyDetectionMatchedUnderArcsecond | src/injectStar/crossmatch.py:70 | With the one-arcsecond limit the comment names, the same pair is a match: ratio 1 and ratio error 1. |
| Crossmatch.DistantDetectionNotMatched | src/injectStar/crossmatch.py:93-95 | A detection 0.01 degrees of RA away at declination 20 is at least 32 arcseconds away, by the RA-offset law, so it is not a match even under the one-arcsecond limit. |
| MatchesTable.FilterColumns | src/injectStar/crossmatch.py:62-63 | Each filter has five columns, `_mag, _matches, _total, _ratio, _ratio_err`, in that order. |
| MatchesTable.StatsColumns | src/injectStar/crossmatch.py:60-63 | The column list is five columns per filter, with block `i` belonging to the `i`-th filter. |
| MatchesTable.StatsEntries | src/injectStar/crossmatch.py:101-104 | One filter's dictionary entries have exactly its five keys, holding the magnitude, matches, total, ratio and ratio error. |
| MatchesTable.EntriesKeys | src/injectStar/crossmatch.py:75-104 | The record dictionary holds a key iff it is a column of some processed filter. |
| MatchesTable.AssembleRecord | src/injectStar/crossmatch.py:107 | Selecting the columns fails with a `KeyError` naming a missing column iff one is missing. Otherwise the result is one row whose cells are the dictionary's values under exactly those columns, in that order. |
| MatchesTable.Persist | src/injectStar/crossmatch.py:111-124 | No file: the new row alone. Equal column sets, in any order: the old rows, then the new one, under the old header. Different sets: the old table goes to the copy and only the new row is saved. |
| MatchesTable.PersistKeepsEverything | src/injectStar/crossmatch.py:111-124 | The new row ends the saved table. Every old row survives, in front or in the copy. There is a copy iff the column sets differ. Rows that match their header stay that way. |
| MatchesTable.PersistTwiceKeepsBoth | src/injectStar/crossmatch.py:122 | Saving the same record twice keeps both rows: there is no de-duplication by run key. |
| CrossmatchRun.ParseMags | src/injectStar/crossmatch.py:56 | Conversion fails iff some token of the run key does not parse. Otherwise each magnitude is the parse of its token. |
| CrossmatchRun.Zip | src/injectStar/crossmatch.py:75 | Filters pair with magnitudes by position, up to the shorter list. |
| CrossmatchRun.CrossmatchFilter | src/injectStar/crossmatch.py:76-104 | A missing input file fails with its path, and so does a missing output file, the input checked first. Otherwise the stats count that filter's files at the paired magnitude. |
| CrossmatchRun.CrossmatchAll | src/injectStar/crossmatch.py:75-104 | On success there is one result per filter, in configuration order. On failure the error is the one the first failing filter raised, every earlier filter having succeeded. |
| CrossmatchRun.Run | src/injectStar/crossmatch.py:41-124 | On success the run key parsed, and the saved table ends with a row whose keys are exactly the run's columns. |
| CrossmatchRun.RunSucceeds | src/injectStar/crossmatch.py:56-107 | The converse: a run key whose tokens all parse into at least one magnitude per filter, with both catalogs of every filter present and no empty input, makes the run succeed. |
| CrossmatchRun.ShortKeyFails | src/injectStar/crossmatch.py:75-107 | With distinct filters, fewer magnitudes than filters make the run fail. When every processed filter's catalogs were read, the failure is the `KeyError` for a column of a filter `zip` left out. |
| CrossmatchRun.ColumnOwner | src/injectStar/crossmatch.py:62-63 | A column name determines its filter and suffix. |
| CrossmatchRun.EntriesLookup | src/injectStar/crossmatch.py:75-104 | With distinct filters, each filter's five keys hold that filter's own stats and are not overwritten by another's. |
| CrossmatchRun.RecordCell | src/injectStar/crossmatch.py:107 | Each cell of the record holds the processed filter's value for that column. |
| CrossmatchRun.RunRecordsEveryFilter | src/injectStar/crossmatch.py:75-107 | For every configured filter, both files exist. The new row holds the paired magnitude, the number of injected stars and the match count of those files. |
| CrossmatchRun.RunKeepsPriorRows | src/injectStar/crossmatch.py:111-124 | Equal column sets: the old rows unchanged, then one more, with no copy. Different sets: the old table is copied and the saved table is the one new row under this run's columns. |
| CrossmatchRun.FewerFiltersFewerColumns | src/injectStar/crossmatch.py:114 | A table from a run over a proper prefix of the distinct filters never has this run's column set. |
| CrossmatchRun.AddedFilterMovesPriorTable | src/injectStar/crossmatch.py:114-120 | After a filter is added to the configuration, the old table goes to the copy and `matches.csv` keeps only the new row. |
| OutputCatalog.MagnitudeError | src/injectStar/outputCatalog.py:84 | For positive flux the error is non-negative and equals `2.5 * abs(flux_err) / (ln 10 * flux)`. |
| OutputCatalog.BrighterIsSmallerMagnitude | src/injectStar/outputCatalog.py:83 | With an increasing `log10`, a larger positive flux gives a strictly smaller magnitude. |
| OutputCatalog.Select | src/injectStar/outputCatalog.py:85-94 | The table has one row per positive-flux source. |
| OutputCatalog.SelectAppend | src/injectStar/outputCatalog.py:94 | The mask distributes over concatenation, so kept rows stay in catalog order. |
| OutputCatalog.SelectAt | src/injectStar/outputCatalog.py:85-94 | A kept source sits at its rank among kept sources. Its id, ra, dec and flag are unchanged, and its magnitudes come from its flux. |
| OutputCatalog.KeptPositionsIncrease | src/injectStar/outputCatalog.py:94 | Earlier kept sources get strictly earlier rows. |
| OutputCatalog.SelectMembership | src/injectStar/outputCatalog.py:73-94 | A row is in the table iff it is the row of some positive-flux source. |
| OutputCatalog.FlagsDoNotFilter | src/injectStar/outputCatalog.py:73-94 | Different fake-centre flags give the same rows in the same order, differing only in the `flag` column. |
| OutputCatalog.BuildTable | src/injectStar/outputCatalog.py:85-94 | Building fails iff `sources` and `meas` differ in length. Otherwise it keeps at most every source. |
| OutputCatalog.PatchLoop | src/injectStar/outputCatalog.py:33-35 | After the loop, `data_id` names the last directory entry. An empty directory leaves the previous value. |
| OutputCatalog.OutputFilter | src/injectStar/outputCatalog.py:28-96 | A filter's file is written to `output_{f}_{magstring}.csv`. A missing patch directory fails with an error naming that filter's directory, and no other failure does. On success the `data_id` is the last directory entry, or the previous filter's when the directory is empty. The file holds the positive-flux rows of that id's two catalogs. |
| OutputCatalog.OutputAll | src/injectStar/outputCatalog.py:27-96 | One file per filter, in order, up to the first error. There is no error iff every filter wrote its file. The i-th file holds the positive-flux rows of the `data_id` left after the patch loops of the first i+1 filters. |
| OutputCatalog.EmptyFirstDirectory | src/injectStar/outputCatalog.py:30-39 | An empty directory for the first filter leaves `data_id` unbound, and nothing is written. |
| OutputCatalog.FirstFileReadsLastPatch | src/injectStar/outputCatalog.py:30-39 | The first file holds exactly the positive-flux rows of the last directory entry's patch. |
| OutputCatalog.EmptyLaterDirectoryRepeatsPrevious | src/injectStar/outputCatalog.py:30-39 | An empty directory for a later filter reuses the previous `data_id`. Its file repeats the previous filter's rows under the new name. |
| InjectGrid.GridSize | src/injectStar/injectStar_ver4.py:60-62 | The grid is the floor of width and height over 300. |
| InjectGrid.StarPixel | src/injectStar/injectStar_ver4.py:67-68 | Cell `(j, k)` is centred at `(150 + 300j, 150 + 300k)`, inside its own tile. |
| InjectGrid.TileInside | src/injectStar/injectStar_ver4.py:61-65 | Every tile of the grid lies inside the image. |
| InjectGrid.TilesDisjoint | src/injectStar/injectStar_ver4.py:94 | Tiles of distinct cells do not overlap. |
| InjectGrid.Cells | src/injectStar/injectStar_ver4.py:64-65 | The loops visit `x_len * y_len` cells, and every cell of the grid. |
| InjectGrid.CellsInOrder | src/injectStar/injectStar_ver4.py:64-65 | Cells come column by column: `j` outer, `k` inner. |
| InjectGrid.PadAmounts | src/injectStar/injectStar_ver4.py:78-93 | A stamp dimension below 300 is padded to exactly 300, with floor(diff/2) before and ceil(diff/2) after. A dimension of 300 or more is not padded. |
| InjectGrid.PaddedShape | src/injectStar/injectStar_ver4.py:78-93 | Stamps within 300 come out 300 by 300. A larger dimension is kept, not cropped. |
| InjectGrid.PadColumnsContents | src/injectStar/injectStar_ver4.py:78-85 | Column padding shifts every pixel right by the left padding and fills the rest with zeros. |
| InjectGrid.PadContents | src/injectStar/injectStar_ver4.py:78-93 | A padded stamp is 300 by 300. Each stamp pixel is moved by the leading padding, and zeros lie everywhere else. |
| InjectGrid.AddToTile | src/injectStar/injectStar_ver4.py:94 | The add succeeds iff the stamp is no larger than a cell in both dimensions. Otherwise it is a shape error. |
| InjectGrid.MaxOf | src/injectStar/injectStar_ver4.py:53 | The maximum is one of the values and bounds them all. |
| InjectGrid.FakePlane | src/injectStar/injectStar_ver4.py:53 | `MP_FAKE` is one more than the largest existing plane, above every existing one. No planes is an error. |
| InjectGrid.FakeBitIsNew | src/injectStar/injectStar_ver4.py:76 | The fake bit `2**MP_FAKE` is above the bit of every existing plane. |
| InjectGrid.MaskBlock | src/injectStar/injectStar_ver4.py:76 | The block is clipped to the array, like numpy slicing. |
| InjectGrid.MaskAsWrittenMissesStar | src/injectStar/injectStar_ver4.py:76 | As written, the block of an off-diagonal cell misses every pixel of the 5x5 square around its own star. |
| InjectGrid.MaskAsWrittenEmptyOnWidePatch | src/injectStar/injectStar_ver4.py:76 | As written, on a patch 300 high and 600 wide the block of cell (1, 0) is empty, although that cell is on the grid. |
| InjectGrid.MaskIntendedCoversStar | src/injectStar/injectStar_ver4.py:76 | Indexed `[y, x]` like the image, the block of every grid cell covers the 5x5 square around its star. |
| InjectGrid.Successful | src/injectStar/injectStar_ver4.py:99-100 | The cells kept are exactly those whose PSF exists. |
| InjectGrid.InjectCells | src/injectStar/injectStar_ver4.py:64-101 | The loop raises a shape error iff some cell's PSF stamp is larger than a cell. Otherwise there is one catalog row per successful cell, in loop order. The fake bit is set exactly on the blocks of the successful cells. |
| InjectGrid.InjectPatch | src/injectStar/injectStar_ver4.py:37-102 | No mask planes is an error. Otherwise the patch fails with a shape error iff some grid cell's stamp is larger than a cell. On success the header gets `MP_FAKE`, and the catalog has one row per grid cell whose PSF exists, in loop order, at the cell's WCS position and the injected magnitude. |
| InjectGrid.InjectAll | src/injectStar/injectStar_ver4.py:32-113 | Patches are processed in order until the first uncaught error. That error is the failing patch's. |
| InjectGrid.FullGrid | src/injectStar/injectStar_ver4.py:61-97 | If every PSF exists and fits a cell, every grid cell gets a star, giving `x_len * y_len` catalog rows. |
| SetupFile.Kept | src/injectStar/utils/config_actions.py:120-121 | A surviving line is a non-blank prefix of its raw line, without trailing whitespace. |
| SetupFile.KeepLines | src/injectStar/utils/config_actions.py:120-121 | Surviving lines are never blank and never end in whitespace. |
| SetupFile.KeepLinesAppend | src/injectStar/utils/config_actions.py:120-121 | The filter distributes over concatenation, so lines stay in file order. |
| SetupFile.KeepLinesMembership | src/injectStar/utils/config_actions.py:120-121 | A string is kept iff some raw line that does not start with `#` strips to it and it is not empty. |
| SetupFile.CommentTestIsOnRawLine | src/injectStar/utils/config_actions.py:121 | `# setup hscPipe 8.4` is dropped, but `  # x` is kept, because the test looks at the raw line. |
| SetupFile.KeptNotComment | src/injectStar/utils/config_actions.py:121 | No surviving line starts with `#`. |
| SetupFile.AllCommentsDropped | src/injectStar/utils/config_actions.py:121 | A file of comment lines reads as nothing. |
| SetupFile.KeptFileLinesHaveNoNewline | src/injectStar/utils/config_actions.py:120 | Surviving file lines hold no newline, so joining them keeps one line per survivor. |
| SetupFile.KeepLinesFixed | src/injectStar/utils/config_actions.py:120-121 | Lines that are already stripped, non-blank and not comments pass the filter unchanged. |
| SetupFile.ReadSetupNoTrailingSpace | src/injectStar/utils/config_actions.py:120-122 | The result never ends in whitespace, in particular never in a newline. |
| SetupFile.ReadSetupIdempotent | src/injectStar/utils/config_actions.py:119-122 | Filtering the result again, split on `\n`, gives the result back. |
| SetupFile.ReadWholeLines | src/injectStar/utils/config_actions.py:118-122 | For a file of whole lines, the result is the surviving lines joined with `\n`. |
| SetupFile.CommentedCommandRoundTrip | src/injectStar/utils/config_actions.py:109-122 | Comment lines, a blank line and one command read back as exactly the command. |
| SetupFile.TemplateComments | src/injectStar/utils/config_actions.py:109-113 | The first five lines of the template are whole comment lines. |
| SetupFile.TemplateRoundTrip | src/injectStar/utils/config_actions.py:109-122 | Reading the file `make_setuphsc` writes gives exactly `setup-hscpipe`. |
| Text.RStrip | src/injectStar/utils/config_actions.py:120 | The result is the longest prefix not ending in whitespace, Unicode whitespace included. Everything removed is whitespace. |
| SetupFile.UnicodeSpaceStripped | src/injectStar/utils/config_actions.py:120 | A trailing no-break space is stripped, and a line holding only an ideographic space is dropped as blank. |
| Text.Lines | src/injectStar/utils/config_actions.py:119-120 | Iterating a file gives lines that concatenate back to its text. Every line but the last ends in its only newline. |
| Text.LinesOfLines | src/injectStar/utils/config_actions.py:119-120 | Text made of whole lines iterates back into exactly those lines. |
| Paths.SplitPath | src/injectStar/utils/bash_actions.py:61-64 | `dirname` and `basename` of `d/b` give back `d` and `b`. |
| Paths.NormPathTrailing | src/injectStar/utils/bash_actions.py:63 | On a clean path (plain components, no `.`, `..` or empty ones), `normpath` drops one trailing slash and leaves a path without one unchanged. |
| BashActions.Get | src/injectStar/utils/bash_actions.py:30-39 | A lookup succeeds iff the section and key exist. Otherwise the `KeyError` names the missing section, or failing that the missing key. |
| BashActions.Emit | src/injectStar/utils/bash_actions.py:34-39 | Writes only append. With no failing lookup the file gains the lines in order. Otherwise the error is the first failing write's. |
| BashActions.ShebangLine | src/injectStar/utils/bash_actions.py:14 | The shebang reads back as exactly the one line `#!/bin/bash`. |
| BashActions.MailLines | src/injectStar/utils/bash_actions.py:41-44 | The two mail lines are written iff both mail options exist, type first. Otherwise none is written. |
| BashActions.SbatchWrites | src/injectStar/utils/bash_actions.py:34-44 | Six writes plus the mail lines. All succeed iff every option `sbatch` reads is present. Otherwise a `KeyError` occurs. |
| BashActions.Sbatch | src/injectStar/utils/bash_actions.py:30-44 | Only appends. It fails with a `KeyError` iff an option is missing, and writes nothing when a section or the rerun is missing. |
| BashActions.SbatchValues | src/injectStar/utils/bash_actions.py:34-44 | The writes are partition, ntasks, cpus-per-task=cores, job-name, time and mem, then mail-type and mail-user when both exist. |
| BashActions.SbatchLines | src/injectStar/utils/bash_actions.py:34-44 | With one-line options the text reads back as one line per write. That is eight lines with both mail options and six otherwise, the job name fourth. |
| BashActions.JobNameOfRerun | src/injectStar/utils/bash_actions.py:32-33 | For a rerun that is a clean path followed by a plain last component, with or without a trailing slash, the job name is that component, then `_artest_` and the magnitude. |
| BashActions.DefaultRerunJobName | tests/test_bash_actions.py:42 | The default rerun `/absolute/path/to/HSC/rerun/m31/` satisfies the clean-path requirement and names the job `m31_artest_24.5`, as the test expects. |
| BashActions.HscInit | src/injectStar/utils/bash_actions.py:60-70 | It fails iff the rerun option is missing, and then writes nothing. |
| BashActions.HscInitDirs | src/injectStar/utils/bash_actions.py:61-64 | For rerun `home/reruns/name`, with `home` clean and `reruns`, `name` plain components, the normalised rerun, its parent and its grandparent are those paths. |
| BashActions.HscInitExports | src/injectStar/utils/bash_actions.py:60-70 | For rerun `home/reruns/name`, with `home` clean and `reruns`, `name` plain components, with or without a trailing slash, it writes the setup text and the `OMP_NUM_THREADS=1` line. It then exports `HSC=home`, `origrerun=home/reruns/name` and `rerun=home/reruns/artest`. |
| BashActions.WriteCommand | src/injectStar/utils/bash_actions.py:95-97 | A command is appended with its newline iff its configuration values exist. Otherwise the file is unchanged. |
| BashActions.DetectCoadd | src/injectStar/utils/bash_actions.py:85-97 | Succeeds iff the filter option and tract exist. It then appends the `detectCoaddSources.py` line with that filter and tract, and otherwise leaves the file unchanged. |
| BashActions.MultiBand | src/injectStar/utils/bash_actions.py:112-128 | Succeeds iff tract and cores exist. It then appends the `multiBandDriver.py` line with the joined filters, tract and cores. |
| BashActions.InjectStar | src/injectStar/utils/bash_actions.py:145-153 | Succeeds iff the tract exists. It then appends the `injectStar_ver4` line with filter, tract and magnitude. |
| BashActions.InputCat | src/injectStar/utils/bash_actions.py:168-173 | Succeeds iff `filter1` and tract exist. It then appends the `cat ... > inputCat.txt` line. |
| BashActions.CopyRerun | src/injectStar/utils/bash_actions.py:187-189 | Always appends the exact `rsync` line of lines 187-188. Its exclude pattern `'$origrerun/postISRCCD'` is single-quoted, so it reaches `rsync` unexpanded and excludes only a path literally named `$origrerun/postISRCCD`, not the rerun's `postISRCCD`. |
| BashActions.RemoveRerun | src/injectStar/utils/bash_actions.py:202-203 | Always appends `rm -r $rerun`. |
| BashActions.DetectCoaddOneLine | src/injectStar/utils/bash_actions.py:87-95 | With one-line configuration values, what it appends is exactly one line. |
| BashActions.MultiBandOneLine | src/injectStar/utils/bash_actions.py:114-126 | With one-line values and filters, what it appends is exactly one line. |
| BashActions.InjectStarOneLine | src/injectStar/utils/bash_actions.py:146-151 | With one-line values, what it appends is exactly one line. |
| BashActions.InputCatOneLine | src/injectStar/utils/bash_actions.py:169-171 | With one-line values, what it appends is exactly one line. |
| BashActions.CopyRerunOneLine | src/injectStar/utils/bash_actions.py:187-188 | What it appends is exactly one line. |
| BashActions.RemoveRerunOneLine | src/injectStar/utils/bash_actions.py:202 | What it appends is exactly one line. |
| FilterJoin.BelowTransitive | utils/config_actions.py:50 | Python's string order, used by `sorted`, is transitive. |
| FilterJoin.BelowTotal | utils/config_actions.py:50 | Of two distinct strings one is below the other. |
| FilterJoin.Filter10BeforeFilter2 | utils/config_actions.py:50 | `filter10` sorts before `filter2`. |
| FilterJoin.Sort | utils/config_actions.py:50 | Sorting keeps the length and exactly the same names. |
| FilterJoin.SortIncreasing | utils/config_actions.py:50 | Sorting distinct names gives a strictly increasing list. |
| FilterJoin.IncreasingUnique | utils/config_actions.py:50 | Two increasing lists with the same members are equal, so the sorted order is unique. |
| FilterJoin.FilterNames | utils/config_actions.py:50 | Keeps exactly the names starting with `filter`, and keeps an increasing list increasing. |
| FilterJoin.FilterKeysSpec | utils/config_actions.py:50 | The keys used are the unique increasing list of exactly the section's `filter` options. |
| FilterJoin.ValuesOf | utils/config_actions.py:50 | Each value is the section's value for its key. |
| FilterJoin.JoinFilterValues | utils/config_actions.py:48-52 | The joined values belong to options starting with `filter`, in increasing key order, one per such option. |
| FilterJoin.JoinFilterSplit | utils/config_actions.py:50 | With k filter options and no `^` in their values there are k-1 separators, and splitting on `^` recovers the values. |
| FilterJoin.JoinFilterNone | utils/config_actions.py:50 | No filter options give the empty string. |
| FilterJoin.JoinFilterOne | utils/config_actions.py:50 | Exactly one filter option gives its value unchanged. |
| FilterJoin.JoinFilterExample | utils/config_actions.py:48-52 | Options `filter2=HSC-I2`, `tract=0` and `filter10=HSC-G` join to `HSC-G^HSC-I2`. |

## Left out

- FITS, WCS, PSF and butler input and output are not modelled: opening and writing the HDU lists, `computeImage`, `getXY0`, `np.savetxt` and `to_csv`. These are foreign libraries. PSF stamps are known by their shape, and the WCS is a parameter.
- The flux scaling `n_times` and the pixel values added to the image and mask (`injectStar_ver4.py` lines 72-73, 94, 101) are floating-point image arithmetic. Only the indices, shapes and the set of masked pixels are modelled.
- The `glob` patch discovery of `injectStar_ver4.py` lines 25-29 depends on the file system. The patches are a parameter of `InjectGrid.InjectAll`.
- Crossmatch.Prefilter: the script compares float64 values and the model exact reals, so a boundary case can differ. With target 24.2 and a magnitude of 24.1, the double difference is just below 0.1 and the row is kept, while the exact difference is 0.1 and the model drops it. NaN and infinite magnitudes are not modelled.
- Crossmatch.FilterRun: `ratio * total == matches` and `(ratio_err * total)^2 == matches` hold for exact reals, not bit for bit for the script's doubles (7/25*25 is 7.000000000000001 in float64).
- OutputCatalog.MagnitudeError: the formula is evaluated over exact reals and an uninterpreted `log10`. The rounding of float64, and NaN or infinite fluxes, are not modelled.
- InjectGrid.FakeBitIsNew: the mask array is int64 in numpy, so `2**(max+1)` wraps for planes above 62. The model uses unbounded integers, because real mask headers hold far fewer planes.
- `angular_distance`, `np.sqrt` and `np.log10` are parameters with the stated laws. The float formatting of magnitudes and the parsing of the run key into floats are also parameters, and `CrossmatchRun.ParseMags` takes the parser.
- The unused `distance` helper (`crossmatch.py` lines 11-16) is not modelled.
- Reading `config.txt` through `configparser` is not modelled. Sections are maps, or sequences of `(option, value)` pairs in `FilterJoin`. The `DEFAULT` section and the lower-casing of option names are not modelled. `read_config`, `make_config` and `make_config_multi` only write fixed values to files, and are not modelled.
- Paths.NormPath: `os.path.normpath` is modelled only on `Paths.CleanPath` paths, possibly with trailing slashes, where it only drops the slashes. Collapsing `//`, `.` and `..` is not modelled, so `Paths.NormPathTrailing`, `BashActions.JobNameOfRerun`, `BashActions.HscInitDirs` and `BashActions.HscInitExports` require clean paths and plain components.
- Line iteration splits only on `\n`; universal-newline translation of `\r` is not modelled.
- The filter list is given as `CrossmatchRun.RunConfig.filters`. Reading `filter1` through `filter<n>` from the configuration (`crossmatch.py` lines 53-54, `outputCatalog.py` lines 23-24) is configuration I/O.
- `makeJobs.py`, `prepareWorkspace.py` and the older `utils/bash_actions.py` are callers and a superseded draft, and are not modelled.
- The printed warnings and progress messages are output only and are not modelled.
- Locking of `matches.csv` against concurrent runs does not exist in the code and is not modelled.

## Findings

| source | as written | input that shows it | evidently intended | confidence | as-written member | corrected member |
|---|---|---|---|---|---|---|
| src/injectStar/crossmatch.py:93-95 | The separation from `angular_distance` is in arcseconds, but it is compared with `mindist = 1/3600`, a limit in degrees. A match then needs a separation below about 0.00028 arcseconds. | A star at (10, 20) and a detection at (10.0002, 20.0001), 0.77 arcseconds apart, with magnitudes 0.05 apart and the fake flag set: 0 matches. | A separation below 1 arcsecond, as the comments at lines 70 and 89 say, giving 1 match. | not executed | Crossmatch.NearbyDetectionMissedAsWritten | Crossmatch.NearbyDetectionMatchedUnderArcsecond |
| src/injectStar/injectStar_ver4.py:76 | The mask block is indexed `[x, y]`, but the arrays are indexed `[y, x]` (line 94). Off-diagonal cells are masked at the transposed position, or nowhere when that falls outside the patch. | A patch 300 high and 600 wide: cell (1, 0) has its star at column 450, row 150, and its mask block is empty. | Index the block `[y, x]` like the image, so it covers the 5x5 square around every star. | not executed | InjectGrid.MaskAsWrittenEmptyOnWidePatch | InjectGrid.MaskIntendedCoversStar |

=== FILE: bash_actions.dfy ===
/**
 * The job-script builders of `bash_actions.py`. Each appends text to the
 * script being written; the configuration is the parsed `config.txt`, a map
 * from section to option to value, and a missing section or option raises
 * `KeyError` at the point where the source looks it up.
 */
module BashActions {
  import opened Errors
  import opened Text
  import opened Paths

  type Section = map<string, string>
  type Config = map<string, Section>

  /** The script after a call: its text so far, and the error that cut the call short, if any. */
  datatype Written = Written(file: string, error: Option<Error>)

  /** `config[section][key]`: the section is looked up first. */
  function Get(config: Config, section: string, key: string): (r: Result<string>)
    ensures r.Ok? <==> section in config && key in config[section]
    ensures r.Ok? ==> r.value == config[section][key]
    ensures r.Err? ==> r.error == KeyError(if section in config then key else section)
  {
    if section !in config then Err(KeyError(section))
    else if key !in config[section] then Err(KeyError(key))
    else Ok(config[section][key])
  }

  /** The values of writes that all succeeded. */
  function Values(writes: seq<Result<string>>): (vs: seq<string>)
    requires forall i :: 0 <= i < |writes| ==> writes[i].Ok?
    ensures |vs| == |writes| && forall i :: 0 <= i < |writes| ==> vs[i] == writes[i].value
  {
    if |writes| == 0 then [] else [writes[0].value] + Values(writes[1..])
  }

  /**
   * Successive `file.write` calls whose arguments are evaluated one at a time:
   * the first argument that raises ends the call, and what was written stays.
   */
  function Emit(file: string, writes: seq<Result<string>>): (w: Written)
    ensures StartsWith(w.file, file)
    ensures w.error.None? <==> forall i :: 0 <= i < |writes| ==> writes[i].Ok?
    ensures w.error.None? ==> w.file == file + Concat(Values(writes))
    ensures w.error.Some? ==> exists i :: 0 <= i < |writes| && writes[i] == Err(w.error.value)
    decreases |writes|
  {
    if |writes| == 0 then Written(file, None)
    else if writes[0].Err? then Written(file, Some(writes[0].error))
    else
      var w := Emit(file + writes[0].value, writes[1..]);
      assert forall i :: 1 <= i < |writes| ==> writes[i] == writes[1..][i - 1];
      assert w.error.None? ==> Values(writes) == [writes[0].value] + Values(writes[1..]);
      w
  }

  /** A command assembled piece by piece with `+=`, then its newline (lines 87-95, 114-126, 146-151, 169-171). */
  function Command(pieces: seq<string>): string {
    Concat(pieces) + "\n"
  }

  /** Line 14. */
  function Shebang(file: string): (w: Written)
    ensures w.error.None? && StartsWith(w.file, file)
  {
    Emit(file, [Ok("#!/bin/bash\n")])
  }

  /** The shebang reads back as exactly one line, `#!/bin/bash`. */
  lemma ShebangLine(file: string)
    ensures Shebang(file).error.None?
    ensures Lines(Shebang(file).file[|file|..]) == ["#!/bin/bash\n"]
  {
    var line := "#!/bin/bash\n";
    assert Values([Ok(line)]) == [line];
    assert Concat([line]) == line;
    assert Shebang(file).file[|file|..] == line;
    assert IsLine(line) by { assert line[..|line| - 1] == "#!/bin/bash"; }
    LinesOfLines([line]);
  }

  /** One `#SBATCH --option=value` line. */
  function Directive(option: string, value: string): string {
    "#SBATCH --" + option + "=" + value + "\n"
  }

  function DirectiveOf(option: string, value: Result<string>): (r: Result<string>)
    ensures r.Ok? <==> value.Ok?
    ensures r.Err? ==> r.error == value.error
  {
    match value
    case Ok(v) => Ok(Directive(option, v))
    case Err(e) => Err(e)
  }

  /** Lines 32-33: the job is named after the rerun directory and the magnitude. */
  function JobName(rerun: string, mag: string): string {
    Basename(NormPath(rerun)) + "_artest_" + mag
  }

  /** Lines 41-44: both mail directives, type first, or none. */
  function MailLines(slurm: Section): (lines: seq<Result<string>>)
    ensures |lines| == 2 <==> "mail-type" in slurm && "mail-user" in slurm
    ensures |lines| == 0 || |lines| == 2
    ensures forall i :: 0 <= i < |lines| ==> lines[i].Ok?
  {
    if "mail-type" in slurm && "mail-user" in slurm then
      [Ok(Directive("mail-type", slurm["mail-type"])), Ok(Directive("mail-user", slurm["mail-user"]))]
    else []
  }

  /** The options `sbatch` needs, in the order it reads them. */
  predicate HasSbatchOptions(config: Config) {
    && "slurm" in config && "hscPipe" in config
    && "rerun" in config["hscPipe"] && "cores" in config["hscPipe"]
    && "ntasks" in config["slurm"] && "time" in config["slurm"] && "memory" in config["slurm"]
  }

  /** Lines 34-44: the writes of `sbatch`, each carrying the lookup it depends on. */
  function SbatchWrites(config: Config, mag: string): (writes: seq<Result<string>>)
    requires "slurm" in config && "hscPipe" in config && "rerun" in config["hscPipe"]
    ensures |writes| == 6 + |MailLines(config["slurm"])|
    ensures (forall i :: 0 <= i < |writes| ==> writes[i].Ok?) <==> HasSbatchOptions(config)
    ensures forall i :: 0 <= i < |writes| ==> writes[i].Ok? || writes[i].error.KeyError?
  {
    var writes := [
      Ok("#SBATCH -p all\n"),
      DirectiveOf("ntasks", Get(config, "slurm", "ntasks")),
      DirectiveOf("cpus-per-task", Get(config, "hscPipe", "cores")),
      Ok(Directive("job-name", JobName(config["hscPipe"]["rerun"], mag))),
      DirectiveOf("time", Get(config, "slurm", "time")),
      DirectiveOf("mem", Get(config, "slurm", "memory"))] + MailLines(config["slurm"]);
    assert forall i :: 6 <= i < |writes| ==> writes[i] == MailLines(config["slurm"])[i - 6];
    assert (forall i :: 0 <= i < |writes| ==> writes[i].Ok?) <==> writes[1].Ok? && writes[2].Ok? && writes[4].Ok? && writes[5].Ok?;
    writes
  }

  /**
   * Lines 30-44. The sections and `rerun` are read before anything is
   * written; each later directive is written as soon as its value is found.
   */
  function Sbatch(config: Config, file: string, mag: string): (w: Written)
    ensures StartsWith(w.file, file)
    ensures w.error.None? <==> HasSbatchOptions(config)
    ensures w.error.Some? ==> w.error.value.KeyError?
    ensures !("slurm" in config && "hscPipe" in config && "rerun" in config["hscPipe"]) ==> w.file == file
  {
    if "slurm" !in config then Written(file, Some(KeyError("slurm")))
    else if "hscPipe" !in config then Written(file, Some(KeyError("hscPipe")))
    else if "rerun" !in config["hscPipe"] then Written(file, Some(KeyError("rerun")))
    else Emit(file, SbatchWrites(config, mag))
  }

  /** Lines 60-70: the setup commands, then the three directory exports. */
  function HscInit(config: Config, setuphsc: string, file: string): (w: Written)
    ensures StartsWith(w.file, file)
    ensures w.error.None? <==> "hscPipe" in config && "rerun" in config["hscPipe"]
    ensures w.error.Some? ==> w.file == file
  {
    match Get(config, "hscPipe", "rerun")
    case Err(e) => Written(file, Some(e))
    case Ok(rerun) =>
      var norm := NormPath(rerun);
      Emit(file, [
        Ok("\n" + setuphsc),
        Ok("\nexport OMP_NUM_THREADS=1\n"),
        Ok("export HSC='" + Dirname(Dirname(norm)) + "'\n"),
        Ok("export origrerun='" + norm + "'\n"),
        Ok("export rerun='" + Dirname(norm) + "/artest'\n")])
  }

  /** A builder that reads its options first and then writes one command: all of it, or nothing. */
  function WriteCommand(file: string, pieces: Result<seq<string>>): (w: Written)
    ensures w.error.None? <==> pieces.Ok?
    ensures w.error.None? ==> w.file == file + Command(pieces.value)
    ensures w.error.Some? ==> w.file == file && w.error.value == pieces.error
  {
    match pieces
    case Err(e) => Written(file, Some(e))
    case Ok(p) => Emit(file, [Ok(Command(p))])
  }

  /** Lines 88-90 and 115-117: the repository, calibration and rerun arguments every pipeline command shares. */
  const PipelineArgs: seq<string> := [" $HSC", " --calib $HSC/CALIB", " --rerun $rerun"]

  /** Lines 93-94 and 121-122. */
  const ClobberFlags: seq<string> := [" --clobber-config", " --clobber-versions"]

  /** Lines 87-94. */
  function DetectCoaddPieces(filt: string, tract: string): seq<string> {
    ["detectCoaddSources.py"] + PipelineArgs + [" --id filter=" + filt, " tract=" + tract] + ClobberFlags
  }

  /** Lines 114-124. */
  function MultiBandPieces(filtstring: string, tract: string, cores: string): seq<string> {
    ["multiBandDriver.py"] + PipelineArgs + [" --id filter=" + filtstring, " tract=" + tract, " --configfile artest_config.py"]
    + ClobberFlags + [" --batch-type=smp", " --cores=" + cores]
  }

  /** Lines 146-150. */
  function InjectStarPieces(filt: string, tract: string, mag: string): seq<string> {
    ["python3 -m injectStar", ".injectStar_ver4", " $rerun", " " + filt, " " + tract, " " + mag]
  }

  /** Lines 169-170. */
  function InputCatPieces(filter1: string, tract: string): seq<string> {
    ["cat $rerun/deepCoadd/" + filter1, "/" + tract + "*.fits.txt", " > inputCat.txt"]
  }

  /** Lines 187-188; the exclude pattern is single-quoted, so the shell does not expand it. */
  const CopyRerunPieces: seq<string> := ["rsync -a --delete", " --inplace --progress", " --exclude='", "$origrerun/postISRCCD'",
                                         " $origrerun/ $rerun"]

  /** Line 202. */
  const RemoveRerunPieces: seq<string> := ["rm -r $rerun"]

  /** Lines 85-97: `filtkey` names the option holding the filter; the filter is read before the tract. */
  function DetectCoadd(config: Config, file: string, filtkey: string): (w: Written)
    ensures w.error.None? <==> "hscPipe" in config && filtkey in config["hscPipe"] && "tract" in config["hscPipe"]
    ensures w.error.Some? ==> w.file == file
    ensures w.error.None? ==> w.file == file + Command(DetectCoaddPieces(config["hscPipe"][filtkey], config["hscPipe"]["tract"]))
  {
    var pieces: Result<seq<string>> :=
      var filt :- Get(config, "hscPipe", filtkey);
      var tract :- Get(config, "hscPipe", "tract");
      Ok(DetectCoaddPieces(filt, tract));
    WriteCommand(file, pieces)
  }

  /** Lines 112-128: `filtstring` is the `^`-joined filter list; the tract is read before the cores. */
  function MultiBand(config: Config, file: string, filtstring: string): (w: Written)
    ensures w.error.None? <==> "hscPipe" in config && "tract" in config["hscPipe"] && "cores" in config["hscPipe"]
    ensures w.error.Some? ==> w.file == file
    ensures w.error.None? ==>
      w.file == file + Command(MultiBandPieces(filtstring, config["hscPipe"]["tract"], config["hscPipe"]["cores"]))
  {
    var pieces: Result<seq<string>> :=
      var tract :- Get(config, "hscPipe", "tract");
      var cores :- Get(config, "hscPipe", "cores");
      Ok(MultiBandPieces(filtstring, tract, cores));
    WriteCommand(file, pieces)
  }

  /** Lines 145-153. */
  function InjectStar(config: Config, file: string, filt: string, mag: string): (w: Written)
    ensures w.error.None? <==> "hscPipe" in config && "tract" in config["hscPipe"]
    ensures w.error.Some? ==> w.file == file
    ensures w.error.None? ==> w.file == file + Command(InjectStarPieces(filt, config["hscPipe"]["tract"], mag))
  {
    var pieces: Result<seq<string>> :=
      var tract :- Get(config, "hscPipe", "tract");
      Ok(InjectStarPieces(filt, tract, mag));
    WriteCommand(file, pieces)
  }

  /** Lines 168-173: the catalogs of the first filter only. */
  function InputCat(config: Config, file: string): (w: Written)
    ensures w.error.None? <==> "hscPipe" in config && "filter1" in config["hscPipe"] && "tract" in config["hscPipe"]
    ensures w.error.Some? ==> w.file == file
    ensures w.error.None? ==> w.file == file + Command(InputCatPieces(config["hscPipe"]["filter1"], config["hscPipe"]["tract"]))
  {
    var pieces: Result<seq<string>> :=
      var filter1 :- Get(config, "hscPipe", "filter1");
      var tract :- Get(config, "hscPipe", "tract");
      Ok(InputCatPieces(filter1, tract));
    WriteCommand(file, pieces)
  }

  /** Lines 187-189. */
  function CopyRerun(file: string): (w: Written)
    ensures w.error.None? && w.file == file + Command(CopyRerunPieces)
  {
    WriteCommand(file, Ok(CopyRerunPieces))
  }

  /** Lines 202-203. */
  function RemoveRerun(file: string): (w: Written)
    ensures w.error.None? && w.file == file + Command(RemoveRerunPieces)
  {
    WriteCommand(file, Ok(RemoveRerunPieces))
  }

  // ----- Properties -----

  /** No value of the configuration spans two lines. */
  ghost predicate OneLineValues(config: Config) {
    forall s, k :: s in config && k in config[s] ==> '\n' !in config[s][k]
  }

  /** No piece of a command holds a newline. */
  predicate Flat(pieces: seq<string>) {
    forall i :: 0 <= i < |pieces| ==> '\n' !in pieces[i]
  }

  lemma FlatAppend(a: seq<string>, b: seq<string>)
    requires Flat(a) && Flat(b)
    ensures Flat(a + b)
  {
    forall i | 0 <= i < |a + b| ensures '\n' !in (a + b)[i] {
      if i >= |a| {
        assert (a + b)[i] == b[i - |a|];
      }
    }
  }

  lemma {:induction false} ConcatNoNewline(pieces: seq<string>)
    requires Flat(pieces)
    ensures '\n' !in Concat(pieces)
  {
    if |pieces| > 0 {
      ConcatNoNewline(pieces[1..]);
    }
  }

  /** A command of newline-free pieces is exactly one line, whatever came before it. */
  lemma OneLineCommand(file: string, pieces: seq<string>)
    requires Flat(pieces)
    ensures (file + Command(pieces))[|file|..] == Command(pieces) && IsLine(Command(pieces))
  {
    ConcatNoNewline(pieces);
    var c := Command(pieces);
    assert c[..|c| - 1] == Concat(pieces);
    assert (file + c)[|file|..] == c;
  }

  lemma SharedPiecesFlat()
    ensures Flat(PipelineArgs) && Flat(ClobberFlags)
  {
  }

  /** `detect_coadd` appends exactly one line, given one-line option values. */
  lemma DetectCoaddOneLine(config: Config, file: string, filtkey: string)
    requires OneLineValues(config)
    ensures var w := DetectCoadd(config, file, filtkey); w.error.None? ==> IsLine(w.file[|file|..])
  {
    if "hscPipe" in config && filtkey in config["hscPipe"] && "tract" in config["hscPipe"] {
      var h := config["hscPipe"];
      var (filt, tract) := (h[filtkey], h["tract"]);
      SharedPiecesFlat();
      FlatAppend(["detectCoaddSources.py"], PipelineArgs);
      FlatAppend(["detectCoaddSources.py"] + PipelineArgs, [" --id filter=" + filt, " tract=" + tract]);
      FlatAppend(["detectCoaddSources.py"] + PipelineArgs + [" --id filter=" + filt, " tract=" + tract], ClobberFlags);
      OneLineCommand(file, DetectCoaddPieces(filt, tract));
    }
  }

  /** `multi_band` appends exactly one line, given one-line option values and filter string. */
  lemma MultiBandOneLine(config: Config, file: string, filtstring: string)
    requires OneLineValues(config) && '\n' !in filtstring
    ensures var w := MultiBand(config, file, filtstring); w.error.None? ==> IsLine(w.file[|file|..])
  {
    if "hscPipe" in config && "tract" in config["hscPipe"] && "cores" in config["hscPipe"] {
      var h := config["hscPipe"];
      MultiBandPiecesFlat(filtstring, h["tract"], h["cores"]);
      OneLineCommand(file, MultiBandPieces(filtstring, h["tract"], h["cores"]));
    }
  }

  lemma MultiBandPiecesFlat(filtstring: string, tract: string, cores: string)
    requires '\n' !in filtstring && '\n' !in tract && '\n' !in cores
    ensures Flat(MultiBandPieces(filtstring, tract, cores))
  {
    var middle := [" --id filter=" + filtstring, " tract=" + tract, " --configfile artest_config.py"];
    var tail := [" --batch-type=smp", " --cores=" + cores];
    assert Flat(middle) by {
      assert '\n' !in " --id filter=" && '\n' !in " tract=";
      assert '\n' !in " --configfile artest_config.py";
    }
    assert Flat(tail) by {
      assert '\n' !in " --batch-type=smp" && '\n' !in " --cores=";
    }
    assert Flat(["multiBandDriver.py"]) by {
      assert '\n' !in "multiBandDriver.py";
    }
    SharedPiecesFlat();
    FlatAppend(["multiBandDriver.py"], PipelineArgs);
    FlatAppend(["multiBandDriver.py"] + PipelineArgs, middle);
    FlatAppend(["multiBandDriver.py"] + PipelineArgs + middle, ClobberFlags);
    FlatAppend(["multiBandDriver.py"] + PipelineArgs + middle + ClobberFlags, tail);
  }

  /** `inject_star` appends exactly one line, given one-line option values and arguments. */
  lemma InjectStarOneLine(config: Config, file: string, filt: string, mag: string)
    requires OneLineValues(config) && '\n' !in filt && '\n' !in mag
    ensures var w := InjectStar(config, file, filt, mag); w.error.None? ==> IsLine(w.file[|file|..])
  {
    if "hscPipe" in config && "tract" in config["hscPipe"] {
      OneLineCommand(file, InjectStarPieces(filt, config["hscPipe"]["tract"], mag));
    }
  }

  /** `input_cat` appends exactly one line, given one-line option values. */
  lemma InputCatOneLine(config: Config, file: string)
    requires OneLineValues(config)
    ensures var w := InputCat(config, file); w.error.None? ==> IsLine(w.file[|file|..])
  {
    if "hscPipe" in config && "filter1" in config["hscPipe"] && "tract" in config["hscPipe"] {
      OneLineCommand(file, InputCatPieces(config["hscPipe"]["filter1"], config["hscPipe"]["tract"]));
    }
  }

  /** `copy_rerun` appends exactly one line. */
  lemma CopyRerunOneLine(file: string)
    ensures IsLine(CopyRerun(file).file[|file|..])
  {
    assert '\n' !in "rsync -a --delete";
    assert '\n' !in " --inplace --progress";
    assert '\n' !in " --exclude='";
    assert '\n' !in "$origrerun/postISRCCD'";
    assert '\n' !in " $origrerun/ $rerun";
    OneLineCommand(file, CopyRerunPieces);
  }

  /** `remove_rerun` appends exactly one line. */
  lemma RemoveRerunOneLine(file: string)
    ensures IsLine(RemoveRerun(file).file[|file|..])
  {
    OneLineCommand(file, RemoveRerunPieces);
  }

  /** A `#SBATCH` directive with one-line option and value is one line. */
  lemma DirectiveIsLine(option: string, value: string)
    requires '\n' !in option && '\n' !in value
    ensures IsLine(Directive(option, value))
  {
    var d := Directive(option, value);
    assert d[..|d| - 1] == "#SBATCH --" + option + "=" + value;
  }

  /** The job is named after the last directory of the rerun path, with or without a trailing slash. */
  lemma JobNameOfRerun(parent: string, name: string, mag: string)
    requires CleanPath(parent) && PlainComponent(name)
    ensures JobName(parent + "/" + name, mag) == name + "_artest_" + mag
    ensures JobName(parent + "/" + name + "/", mag) == name + "_artest_" + mag
  {
    var p := parent + "/" + name;
    CleanPathEnd(parent);
    CleanPathAppend(parent, name);
    NormPathTrailing(p);
    SplitPath(parent, name);
  }

  /** The rerun of the default configuration, `/absolute/path/to/HSC/rerun/m31/`, names the job `m31_artest_24.5`. */
  lemma DefaultRerunJobName()
    ensures JobName("/" + "absolute" + "/" + "path" + "/" + "to" + "/" + "HSC" + "/" + "rerun" + "/" + "m31" + "/", "24.5")
         == "m31" + "_artest_" + "24.5"
  {
    CleanPathRoot("absolute");
    CleanPathAppend("/" + "absolute", "path");
    CleanPathAppend("/" + "absolute" + "/" + "path", "to");
    CleanPathAppend("/" + "absolute" + "/" + "path" + "/" + "to", "HSC");
    CleanPathAppend("/" + "absolute" + "/" + "path" + "/" + "to" + "/" + "HSC", "rerun");
    JobNameOfRerun("/" + "absolute" + "/" + "path" + "/" + "to" + "/" + "HSC" + "/" + "rerun", "m31", "24.5");
  }

  /** What `sbatch` appends when every option is present: the values of its writes, in order. */
  lemma SbatchText(config: Config, file: string, mag: string)
    requires HasSbatchOptions(config)
    ensures Sbatch(config, file, mag).file == file + Concat(Values(SbatchWrites(config, mag)))
  {
  }

  /** Every write of `sbatch` is one line when the options are. */
  lemma SbatchWritesAreLines(config: Config, mag: string)
    requires HasSbatchOptions(config) && OneLineValues(config) && '\n' !in mag
    ensures var vs := Values(SbatchWrites(config, mag)); forall i :: 0 <= i < |vs| ==> IsLine(vs[i])
  {
    var slurm, hsc := config["slurm"], config["hscPipe"];
    var vs := Values(SbatchWrites(config, mag));
    SbatchValues(config, mag);
    forall i | 0 <= i < |vs| ensures IsLine(vs[i]) {
      if i == 0 {
        assert IsLine("#SBATCH -p all\n");
      } else if i == 1 {
        DirectiveIsLine("ntasks", slurm["ntasks"]);
      } else if i == 2 {
        DirectiveIsLine("cpus-per-task", hsc["cores"]);
      } else if i == 3 {
        RerunNameOneLine(hsc["rerun"], mag);
        DirectiveIsLine("job-name", JobName(hsc["rerun"], mag));
      } else if i == 4 {
        DirectiveIsLine("time", slurm["time"]);
      } else if i == 5 {
        DirectiveIsLine("mem", slurm["memory"]);
      } else if i == 6 {
        DirectiveIsLine("mail-type", slurm["mail-type"]);
      } else {
        DirectiveIsLine("mail-user", slurm["mail-user"]);
      }
    }
  }

  /** The values `sbatch` writes when every option is present, in the order of lines 34-44. */
  lemma SbatchValues(config: Config, mag: string)
    requires HasSbatchOptions(config)
    ensures var vs, slurm, hsc := Values(SbatchWrites(config, mag)), config["slurm"], config["hscPipe"];
      && |vs| == (if "mail-type" in slurm && "mail-user" in slurm then 8 else 6)
      && vs[0] == "#SBATCH -p all\n"
      && vs[1] == Directive("ntasks", slurm["ntasks"])
      && vs[2] == Directive("cpus-per-task", hsc["cores"])
      && vs[3] == Directive("job-name", JobName(hsc["rerun"], mag))
      && vs[4] == Directive("time", slurm["time"])
      && vs[5] == Directive("mem", slurm["memory"])
      && (|vs| == 8 ==> vs[6] == Directive("mail-type", slurm["mail-type"]) && vs[7] == Directive("mail-user", slurm["mail-user"]))
  {
  }

  /**
   * Lines 34-44 read back as the script's lines: one line per directive,
   * eight with both mail options and six otherwise, the job name fourth.
   */
  lemma SbatchLines(config: Config, file: string, mag: string)
    requires HasSbatchOptions(config) && OneLineValues(config) && '\n' !in mag
    ensures var lines := Lines(Sbatch(config, file, mag).file[|file|..]);
      && lines == Values(SbatchWrites(config, mag))
      && |lines| == (if "mail-type" in config["slurm"] && "mail-user" in config["slurm"] then 8 else 6)
      && lines[3] == Directive("job-name", JobName(config["hscPipe"]["rerun"], mag))
  {
    var vs := Values(SbatchWrites(config, mag));
    SbatchText(config, file, mag);
    assert Sbatch(config, file, mag).file[|file|..] == Concat(vs);
    SbatchWritesAreLines(config, mag);
    LinesOfLines(vs);
  }

  /** A one-line rerun path and magnitude give a one-line job name. */
  lemma RerunNameOneLine(rerun: string, mag: string)
    requires '\n' !in rerun && '\n' !in mag
    ensures '\n' !in JobName(rerun, mag)
  {
    var n := NormPath(rerun);
    assert '\n' !in n by {
      if rerun != "" && StripSlashes(rerun) != "" {
        assert forall j :: 0 <= j < |n| ==> n[j] == rerun[j];
      }
    }
    var b := Basename(n);
    assert forall j :: 0 <= j < |b| ==> b[j] == n[SlashEnd(n) + j];
  }

  /** Five successful writes append their five values. */
  lemma EmitFive(file: string, a: string, b: string, c: string, d: string, e: string)
    ensures Emit(file, [Ok(a), Ok(b), Ok(c), Ok(d), Ok(e)]) == Written(file + a + b + c + d + e, None)
  {
    var vs := Values([Ok(a), Ok(b), Ok(c), Ok(d), Ok(e)]);
    assert vs == [a, b, c, d, e];
    assert Concat(vs[5..]) == "";
    assert Concat(vs[4..]) == e;
    assert Concat(vs[3..]) == d + e;
    assert Concat(vs[2..]) == c + (d + e);
    assert Concat(vs[1..]) == b + (c + (d + e));
    assert Concat(vs) == a + (b + (c + (d + e)));
  }

  /** The directories `hsc_init` exports, as path arithmetic on the rerun. */
  lemma HscInitDirs(rerun: string, home: string, reruns: string, name: string)
    requires rerun in {home + "/" + reruns + "/" + name, home + "/" + reruns + "/" + name + "/"}
    requires CleanPath(home) && PlainComponent(reruns) && PlainComponent(name)
    ensures NormPath(rerun) == home + "/" + reruns + "/" + name
    ensures Dirname(NormPath(rerun)) == home + "/" + reruns
    ensures Dirname(Dirname(NormPath(rerun))) == home
  {
    var parent := home + "/" + reruns;
    var p := parent + "/" + name;
    CleanPathEnd(home);
    CleanPathAppend(home, reruns);
    CleanPathEnd(parent);
    CleanPathAppend(parent, name);
    NormPathTrailing(p);
    SplitPath(parent, name);
    SplitPath(home, reruns);
  }

  /**
   * Lines 60-70 for a rerun `home/reruns/name`, with or without a trailing
   * slash: `HSC` is two levels up, `origrerun` the rerun itself, and the
   * working rerun `artest` its sibling.
   */
  lemma HscInitExports(config: Config, setuphsc: string, file: string, home: string, reruns: string, name: string)
    requires "hscPipe" in config && "rerun" in config["hscPipe"]
    requires config["hscPipe"]["rerun"] in {home + "/" + reruns + "/" + name, home + "/" + reruns + "/" + name + "/"}
    requires CleanPath(home) && PlainComponent(reruns) && PlainComponent(name)
    ensures HscInit(config, setuphsc, file) == Written(file + ("\n" + setuphsc) + "\nexport OMP_NUM_THREADS=1\n"
      + ("export HSC='" + home + "'\n")
      + ("export origrerun='" + (home + "/" + reruns + "/" + name) + "'\n")
      + ("export rerun='" + (home + "/" + reruns) + "/artest'\n"), None)
  {
    var rerun := config["hscPipe"]["rerun"];
    var norm := NormPath(rerun);
    assert HscInit(config, setuphsc, file) == Emit(file, [Ok("\n" + setuphsc), Ok("\nexport OMP_NUM_THREADS=1\n"),
      Ok("export HSC='" + Dirname(Dirname(norm)) + "'\n"), Ok("export origrerun='" + norm + "'\n"),
      Ok("export rerun='" + Dirname(norm) + "/artest'\n")]);
    HscInitDirs(rerun, home, reruns, name);
    EmitFive(file, "\n" + setuphsc, "\nexport OMP_NUM_THREADS=1\n", "export HSC='" + home + "'\n",
             "export origrerun='" + (home + "/" + reruns + "/" + name) + "'\n",
             "export rerun='" + (home + "/" + reruns) + "/artest'\n");
  }
}

=== FILE: catalogs.dfy ===
/** The per-filter catalogs that the output-catalog step writes and the crossmatch reads. */
module Catalogs {

  /** A row of the injected-star file: position in degrees and the injected magnitude. */
  datatype InjectedStar = InjectedStar(ra: real, dec: real, mag: real)

  /** A row of the detected-source file, fields in the order of its columns `id, ra, dec, mag, mag_err, flag`; `flag` is the pipeline's fake-centre flag. */
  datatype Detected = Detected(id: int, ra: real, dec: real, mag: real, magErr: real, flag: bool)

  /** Where the crossmatch looks for the injected stars of one filter and run. */
  function InputPath(inputDir: string, filter: string, magstring: string): string
  {
    inputDir + "/input_" + filter + "_" + magstring + ".txt"
  }

  /** Where the output-catalog step writes, and the crossmatch reads, the detections of one filter and run. */
  function OutputPath(outputDir: string, filter: string, magstring: string): string
  {
    outputDir + "/output_" + filter + "_" + magstring + ".csv"
  }
}

=== FILE: crossmatch.dfy ===
/**
 * The per-filter completeness count of `crossmatch.py`: which injected stars
 * have a detection close enough in magnitude and on the sky, and the ratio
 * that results.
 *
 * The angular separation (astropy's `SkyCoord.separation`, in arcseconds) and
 * `np.sqrt` are foreign calls, so they are parameters; the laws the proofs
 * need about them are the predicates below.
 */
module Crossmatch {
  import opened Errors
  import opened Catalogs
  import opened Numbers

  /** Separation in arcseconds, arguments in the order of `angular_distance`: (ra1, ra2, dec1, dec2). */
  type Separation = (real, real, real, real) -> real

  /** No great-circle arc is shorter than its change in declination (3600 arcseconds per degree). */
  ghost predicate SepAtLeastDecOffset(sep: Separation) {
    forall ra1, ra2, dec1, dec2 :: sep(ra1, ra2, dec1, dec2) >= 3600.0 * Abs(dec1 - dec2)
  }

  /**
   * Along the parallel of declination `dec`, an arc of up to one degree of RA
   * is at least `cosLow` times its RA offset (3600 arcseconds per degree),
   * where `cosLow` is below `cos(dec)`.
   */
  ghost predicate SepAtLeastRaOffset(sep: Separation, dec: real, cosLow: real) {
    forall ra1, ra2 :: Abs(ra1 - ra2) <= 1.0 ==> sep(ra1, ra2, dec, dec) >= 3600.0 * cosLow * Abs(ra1 - ra2)
  }

  /** No great-circle arc is longer than the straight line between its ends in the (ra, dec) plane. */
  ghost predicate SepAtMostPlanar(sep: Separation) {
    forall ra1, ra2, dec1, dec2 ::
      0.0 <= sep(ra1, ra2, dec1, dec2) &&
      sep(ra1, ra2, dec1, dec2) * sep(ra1, ra2, dec1, dec2)
        <= 12960000.0 * ((ra1 - ra2) * (ra1 - ra2) + (dec1 - dec2) * (dec1 - dec2))
  }

  /** `np.sqrt` on non-negative numbers. */
  ghost predicate SqrtLaws(sqrt: real -> real) {
    forall x :: 0.0 <= x ==> 0.0 <= sqrt(x) && sqrt(x) * sqrt(x) == x
  }

  /**
   * The acceptance limits: the half-height of the preselection box (degrees of
   * declination), the limit the separation in arcseconds must stay under, and
   * the magnitude window.
   */
  datatype Limits = Limits(box: real, exact: real, minmag: real)

  /** The limits as the script sets them: `mindist = 1/3600` is used both as the box and as the separation limit. */
  const AsWritten := Limits(1.0 / 3600.0, 1.0 / 3600.0, 0.1)

  /** The limits the comment beside `mindist` describes: a separation under one arcsecond. */
  const Intended := Limits(1.0 / 3600.0, 1.0, 0.1)

  /** A detection that the magnitude window and the fake flag let through. */
  predicate Survives(row: Detected, target: real, minmag: real) {
    Abs(target - row.mag) < minmag && row.flag
  }

  /** Lines 81-83: keep detections within `minmag` of the filter's magnitude whose fake flag is set. */
  function Prefilter(rows: seq<Detected>, target: real, minmag: real): (r: seq<Detected>)
    ensures |r| <= |rows|
    ensures forall x :: x in r <==> x in rows && Survives(x, target, minmag)
  {
    if |rows| == 0 then []
    else (if Survives(rows[0], target, minmag) then [rows[0]] else []) + Prefilter(rows[1..], target, minmag)
  }

  /**
   * `spatial_preselect`: the RA window of line 36 is overwritten by line 37, so
   * the mask is the strict declination band around `decC`, whatever the RAs.
   */
  function SpatialPreselect(raC: real, ra: real, decC: real, dec: real, decdist: real): (keep: bool)
    ensures keep <==> Abs(dec - decC) < decdist
  {
    dec > decC - decdist && dec < decC + decdist
  }

  /** The exact test of lines 93-95 on one candidate. */
  predicate Close(star: InjectedStar, row: Detected, lim: Limits, sep: Separation) {
    sep(star.ra, row.ra, star.dec, row.dec) < lim.exact
  }

  /** A candidate inside the box around the star that also passes the exact test. */
  ghost predicate Recovered(star: InjectedStar, candidates: seq<Detected>, lim: Limits, sep: Separation) {
    exists r :: r in candidates && SpatialPreselect(star.ra, r.ra, star.dec, r.dec, lim.box) && Close(star, r, lim, sep)
  }

  /** Lines 90-96: the candidates the box keeps and the exact test then keeps, in order. */
  function CloseRows(star: InjectedStar, candidates: seq<Detected>, lim: Limits, sep: Separation): (r: seq<Detected>)
    ensures forall x :: x in r <==>
      x in candidates && SpatialPreselect(star.ra, x.ra, star.dec, x.dec, lim.box) && Close(star, x, lim, sep)
  {
    if |candidates| == 0 then []
    else
      var c := candidates[0];
      var keep := SpatialPreselect(star.ra, c.ra, star.dec, c.dec, lim.box) && Close(star, c, lim, sep);
      (if keep then [c] else []) + CloseRows(star, candidates[1..], lim, sep)
  }

  /** Line 98: the star counts when at least one candidate survives both tests. */
  function Hit(star: InjectedStar, candidates: seq<Detected>, lim: Limits, sep: Separation): (hit: bool)
    ensures hit <==> Recovered(star, candidates, lim, sep)
  {
    var close := CloseRows(star, candidates, lim, sep);
    assert |close| > 0 ==> close[0] in close;
    |close| > 0
  }

  /** Lines 85-99: one for every injected star that is hit, whatever the number of candidates that hit it. */
  function CountHits(stars: seq<InjectedStar>, candidates: seq<Detected>, lim: Limits, sep: Separation): (n: nat)
    ensures n <= |stars|
  {
    if |stars| == 0 then 0
    else (if Hit(stars[0], candidates, lim, sep) then 1 else 0) + CountHits(stars[1..], candidates, lim, sep)
  }

  /** The count for one filter: the detections are prefiltered once, then each star is matched against them. */
  function Matches(stars: seq<InjectedStar>, rows: seq<Detected>, target: real, lim: Limits, sep: Separation): (n: nat)
    ensures n <= |stars|
  {
    CountHits(stars, Prefilter(rows, target, lim.minmag), lim, sep)
  }

  /** One filter's statistics; `matches` and `total` are counts, `ratio` and `ratioErr` their quotients. */
  datatype FilterStats = FilterStats(mag: real, matches: nat, total: nat, ratio: real, ratioErr: real)

  /**
   * Lines 76-104 for one filter: `total` is the number of injected stars,
   * `ratio = matches/total`, `ratio_err = sqrt(matches)/total`; an empty
   * injected list divides by zero.
   */
  function FilterRun(mag: real, stars: seq<InjectedStar>, rows: seq<Detected>, lim: Limits,
                     sep: Separation, sqrt: real -> real): (r: Result<FilterStats>)
    ensures r.Err? <==> |stars| == 0
    ensures r.Err? ==> r.error == ZeroDivision
    ensures r.Ok? ==> r.value.mag == mag && r.value.total == |stars| && r.value.matches <= r.value.total
    ensures r.Ok? ==> 0.0 <= r.value.ratio <= 1.0 && r.value.ratio * |stars| as real == r.value.matches as real
    ensures r.Ok? && SqrtLaws(sqrt) ==>
      var e := r.value.ratioErr * |stars| as real;
      0.0 <= r.value.ratioErr && e * e == r.value.matches as real
  {
    var n := Matches(stars, rows, mag, lim, sep);
    if |stars| == 0 then Err(ZeroDivision)
    else
      var total := |stars|;
      RatioFacts(n, total, sqrt);
      Ok(FilterStats(mag, n, total, n as real / total as real, sqrt(n as real) / total as real))
  }

  /** The arithmetic behind `FilterRun`'s contract. */
  lemma RatioFacts(n: nat, t: nat, sqrt: real -> real)
    requires 0 < t && n <= t
    ensures 0.0 <= n as real / t as real <= 1.0
    ensures (n as real / t as real) * t as real == n as real
    ensures (sqrt(n as real) / t as real) * t as real == sqrt(n as real)
    ensures SqrtLaws(sqrt) ==> 0.0 <= sqrt(n as real) / t as real
  {
    var r := n as real / t as real;
    assert r * t as real == n as real;
    if 1.0 < r {
      MulStrict(1.0, r, t as real);
    }
  }

  // ----- Properties of the count -----

  /** Prefiltering distributes over concatenation, so survivors keep their relative order. */
  lemma {:induction false} PrefilterAppend(a: seq<Detected>, b: seq<Detected>, target: real, minmag: real)
    ensures Prefilter(a + b, target, minmag) == Prefilter(a, target, minmag) + Prefilter(b, target, minmag)
  {
    if |a| == 0 {
      assert a + b == b;
    } else {
      assert (a + b)[1..] == a[1..] + b;
      PrefilterAppend(a[1..], b, target, minmag);
    }
  }

  /** The count of a concatenation is the sum of the counts. */
  lemma {:induction false} CountHitsAppend(a: seq<InjectedStar>, b: seq<InjectedStar>, candidates: seq<Detected>,
                                           lim: Limits, sep: Separation)
    ensures CountHits(a + b, candidates, lim, sep) == CountHits(a, candidates, lim, sep) + CountHits(b, candidates, lim, sep)
  {
    if |a| == 0 {
      assert a + b == b;
    } else {
      assert (a + b)[0] == a[0];
      assert (a + b)[1..] == a[1..] + b;
      CountHitsAppend(a[1..], b, candidates, lim, sep);
    }
  }

  /** The stars (by index) that some candidate recovers. */
  ghost function RecoveredStars(stars: seq<InjectedStar>, candidates: seq<Detected>, lim: Limits, sep: Separation): set<nat>
  {
    set i: nat | i < |stars| && Recovered(stars[i], candidates, lim, sep)
  }

  /** Adding a star at the end adds its index to the recovered set exactly when it is recovered. */
  lemma RecoveredStarsSnoc(stars: seq<InjectedStar>, candidates: seq<Detected>, lim: Limits, sep: Separation)
    requires |stars| > 0
    ensures var init, last := stars[..|stars| - 1], stars[|stars| - 1];
      var s := RecoveredStars(init, candidates, lim, sep);
      && |init| !in s
      && RecoveredStars(stars, candidates, lim, sep) == if Recovered(last, candidates, lim, sep) then s + {|init|} else s
  {
    var init := stars[..|stars| - 1];
    assert forall i :: 0 <= i < |init| ==> init[i] == stars[i];
  }

  /** `matches` is exactly the number of injected stars that are recovered. */
  lemma {:induction false} CountHitsIsRecoveredStars(stars: seq<InjectedStar>, candidates: seq<Detected>,
                                                     lim: Limits, sep: Separation)
    ensures CountHits(stars, candidates, lim, sep) == |RecoveredStars(stars, candidates, lim, sep)|
    decreases |stars|
  {
    if |stars| == 0 {
      assert RecoveredStars(stars, candidates, lim, sep) == {};
    } else {
      var init, last := stars[..|stars| - 1], stars[|stars| - 1];
      assert stars == init + [last];
      CountHitsAppend(init, [last], candidates, lim, sep);
      CountHitsIsRecoveredStars(init, candidates, lim, sep);
      RecoveredStarsSnoc(stars, candidates, lim, sep);
      assert [last][1..] == [];
    }
  }

  /** A candidate that passes under smaller limits passes under larger ones. */
  lemma HitMonotone(star: InjectedStar, rows: seq<Detected>, target: real, small: Limits, large: Limits, sep: Separation)
    requires small.box <= large.box && small.exact <= large.exact && small.minmag <= large.minmag
    requires Hit(star, Prefilter(rows, target, small.minmag), small, sep)
    ensures Hit(star, Prefilter(rows, target, large.minmag), large, sep)
  {
    var r :| r in Prefilter(rows, target, small.minmag)
      && SpatialPreselect(star.ra, r.ra, star.dec, r.dec, small.box) && Close(star, r, small, sep);
    assert r in Prefilter(rows, target, large.minmag);
    assert SpatialPreselect(star.ra, r.ra, star.dec, r.dec, large.box);
  }

  /** Shrinking any of the limits (the distance or the magnitude window) never increases `matches`. */
  lemma {:induction false} MatchesMonotone(stars: seq<InjectedStar>, rows: seq<Detected>, target: real,
                                           small: Limits, large: Limits, sep: Separation)
    requires small.box <= large.box && small.exact <= large.exact && small.minmag <= large.minmag
    ensures Matches(stars, rows, target, small, sep) <= Matches(stars, rows, target, large, sep)
    decreases |stars|
  {
    if |stars| > 0 {
      if Hit(stars[0], Prefilter(rows, target, small.minmag), small, sep) {
        HitMonotone(stars[0], rows, target, small, large, sep);
      }
      MatchesMonotone(stars[1..], rows, target, small, large, sep);
    }
  }

  /** With the script's single `mindist`, a smaller `mindist` or `minmag` never increases `matches`. */
  lemma MindistMonotone(stars: seq<InjectedStar>, rows: seq<Detected>, target: real,
                        mindist: real, mindist': real, minmag: real, minmag': real, sep: Separation)
    requires mindist' <= mindist && minmag' <= minmag
    ensures Matches(stars, rows, target, Limits(mindist', mindist', minmag'), sep)
         <= Matches(stars, rows, target, Limits(mindist, mindist, minmag), sep)
  {
    MatchesMonotone(stars, rows, target, Limits(mindist', mindist', minmag'), Limits(mindist, mindist, minmag), sep);
  }

  /**
   * The box is only a shortcut: when the separation limit is within the box
   * (`exact <= 3600 * box`, true of both limit sets above), a star is recovered
   * exactly when some candidate passes the exact test alone.
   */
  lemma PreselectIsLossless(star: InjectedStar, candidates: seq<Detected>, lim: Limits, sep: Separation)
    requires SepAtLeastDecOffset(sep)
    requires lim.exact <= 3600.0 * lim.box
    ensures Recovered(star, candidates, lim, sep) <==> exists r :: r in candidates && Close(star, r, lim, sep)
  {
    if r :| r in candidates && Close(star, r, lim, sep) {
      var d := sep(star.ra, r.ra, star.dec, r.dec);
      assert d >= 3600.0 * Abs(star.dec - r.dec);
      assert Abs(r.dec - star.dec) < lim.box;
      assert SpatialPreselect(star.ra, r.ra, star.dec, r.dec, lim.box);
    }
  }

  /** A star adds at most one to the count, however many detections recover it. */
  lemma OneStarCountsOnce(star: InjectedStar, candidates: seq<Detected>, lim: Limits, sep: Separation)
    ensures CountHits([star], candidates, lim, sep) == if Recovered(star, candidates, lim, sep) then 1 else 0
  {
    assert [star][1..] == [];
  }

  // ----- One star, one detection -----

  function Star(): InjectedStar { InjectedStar(10.0, 20.0, 24.0) }
  function NearbyDetection(): Detected { Detected(1, 10.0002, 20.0001, 24.05, 0.02, true) }

  lemma SqrtOfZero(sqrt: real -> real)
    requires SqrtLaws(sqrt)
    ensures sqrt(0.0) == 0.0
  {
    var s := sqrt(0.0);
    if 0.0 < s {
      SquareLt(0.0, s);
    }
  }

  lemma SqrtOfOne(sqrt: real -> real)
    requires SqrtLaws(sqrt)
    ensures sqrt(1.0) == 1.0
  {
    var s := sqrt(1.0);
    if s < 1.0 {
      SquareLt(s, 1.0);
    } else if s > 1.0 {
      SquareLt(1.0, s);
    }
  }

  /**
   * As written, a detection 0.77 arcseconds from the injected star is not a
   * match: its declination alone is 0.36 arcseconds off, already more than the
   * limit of 1/3600 that the separation in arcseconds is compared with.
   */
  lemma NearbyDetectionMissedAsWritten(sep: Separation, sqrt: real -> real)
    requires SepAtLeastDecOffset(sep) && SqrtLaws(sqrt)
    ensures FilterRun(24.0, [Star()], [NearbyDetection()], AsWritten, sep, sqrt) == Ok(FilterStats(24.0, 0, 1, 0.0, 0.0))
  {
    var star, det := Star(), NearbyDetection();
    assert sep(star.ra, det.ra, star.dec, det.dec) >= 3600.0 * Abs(star.dec - det.dec);
    assert !Close(star, det, AsWritten, sep);
    assert !Recovered(star, Prefilter([det], 24.0, 0.1), AsWritten, sep);
    OneStarCountsOnce(star, Prefilter([det], 24.0, 0.1), AsWritten, sep);
    SqrtOfZero(sqrt);
  }

  /** With a one-arcsecond limit the same pair is a match, and the ratio and its error are both 1. */
  lemma NearbyDetectionMatchedUnderArcsecond(sep: Separation, sqrt: real -> real)
    requires SepAtMostPlanar(sep) && SqrtLaws(sqrt)
    ensures FilterRun(24.0, [Star()], [NearbyDetection()], Intended, sep, sqrt) == Ok(FilterStats(24.0, 1, 1, 1.0, 1.0))
  {
    var star, det := Star(), NearbyDetection();
    var d := sep(star.ra, det.ra, star.dec, det.dec);
    assert 0.0 <= d && d * d <= 12960000.0 * (0.0002 * 0.0002 + 0.0001 * 0.0001);
    if 1.0 <= d {
      SquareLe(1.0, d);
    }
    assert Survives(det, 24.0, 0.1);
    assert Prefilter([det], 24.0, 0.1) == [det];
    assert SpatialPreselect(star.ra, det.ra, star.dec, det.dec, Intended.box);
    assert Recovered(star, [det], Intended, sep);
    OneStarCountsOnce(star, [det], Intended, sep);
    SqrtOfOne(sqrt);
  }

  /**
   * A detection 0.01 degrees away in RA at declination 20 is at least 32
   * arcseconds away (cos 20 degrees exceeds 0.9), so it is not a match even
   * under the one-arcsecond limit.
   */
  lemma DistantDetectionNotMatched(sep: Separation, sqrt: real -> real)
    requires SepAtLeastRaOffset(sep, 20.0, 0.9) && SqrtLaws(sqrt)
    ensures FilterRun(24.0, [Star()], [Detected(1, 10.01, 20.0, 24.0, 0.02, true)], Intended, sep, sqrt)
         == Ok(FilterStats(24.0, 0, 1, 0.0, 0.0))
  {
    var star, det := Star(), Detected(1, 10.01, 20.0, 24.0, 0.02, true);
    assert sep(star.ra, det.ra, star.dec, det.dec) >= 32.0 by {
      assert Abs(star.ra - det.ra) <= 1.0;
    }
    assert !Close(star, det, Intended, sep);
    assert !Recovered(star, Prefilter([det], 24.0, 0.1), Intended, sep);
    OneStarCountsOnce(star, Prefilter([det], 24.0, 0.1), Intended, sep);
    SqrtOfZero(sqrt);
  }

  /** One detection can be credited to several stars: two stars at its position both count. */
  lemma OneDetectionManyStars(sep: Separation)
    requires SepAtMostPlanar(sep)
    ensures Matches([Star(), Star()], [Detected(7, 10.0, 20.0, 24.0, 0.0, true)], 24.0, Intended, sep) == 2
  {
    var star, det := Star(), Detected(7, 10.0, 20.0, 24.0, 0.0, true);
    var d := sep(10.0, 10.0, 20.0, 20.0);
    assert 0.0 <= d && d * d <= 0.0;
    if 0.0 < d {
      SquareLt(0.0, d);
    }
    assert Prefilter([det], 24.0, 0.1) == [det];
    assert Recovered(star, [det], Intended, sep);
    OneStarCountsOnce(star, [det], Intended, sep);
    CountHitsAppend([star], [star], [det], Intended, sep);
    assert [star, star] == [star] + [star];
  }
}

=== FILE: crossmatch_run.dfy ===
/**
 * `main` of `crossmatch.py`: pair the configured filters with the magnitudes of
 * the run key, crossmatch each filter's two catalogs, assemble the one-row
 * record and save it. Reading a file is modelled as a lookup by path in the
 * catalogs already parsed; a missing path is a missing file.
 */
module CrossmatchRun {
  import opened Errors
  import opened Catalogs
  import Text
  import Crossmatch
  import opened MatchesTable

  /** The configuration values `main` reads: the two catalog directories and `filter1` .. `filterN`. */
  datatype RunConfig = RunConfig(inputDir: string, outputDir: string, filters: seq<string>)

  /** The catalogs on disk, by path. */
  datatype Disk = Disk(inputs: map<string, seq<InjectedStar>>, outputs: map<string, seq<Detected>>)

  /** Line 56: every `_`-separated token of the run key as a float; a token that does not parse raises. */
  function ParseMags(tokens: seq<string>, parse: string -> Option<real>): (r: Result<seq<real>>)
    ensures r.Ok? ==> |r.value| == |tokens| && forall i :: 0 <= i < |tokens| ==> parse(tokens[i]) == Some(r.value[i])
    ensures r.Err? <==> exists i :: 0 <= i < |tokens| && parse(tokens[i]).None?
  {
    if |tokens| == 0 then Ok([])
    else
      assert forall i :: 1 <= i < |tokens| ==> tokens[i] == tokens[1..][i - 1];
      match parse(tokens[0])
      case None => Err(BadFloat(tokens[0]))
      case Some(m) =>
        var rest := ParseMags(tokens[1..], parse);
        if rest.Err? then Err(rest.error) else Ok([m] + rest.value)
  }

  /** Python's `zip`: pairs up to the shorter of the two lists. */
  function Zip(filters: seq<string>, mags: seq<real>): (z: seq<(string, real)>)
    ensures |z| == if |filters| <= |mags| then |filters| else |mags|
    ensures forall i :: 0 <= i < |z| ==> z[i] == (filters[i], mags[i])
  {
    if |filters| == 0 || |mags| == 0 then [] else [(filters[0], mags[0])] + Zip(filters[1..], mags[1..])
  }

  /** Lines 76-104 for one filter: read both catalogs (either may be missing), then count. */
  function CrossmatchFilter(f: string, mag: real, cfg: RunConfig, magstring: string, disk: Disk,
                            lim: Crossmatch.Limits, sep: Crossmatch.Separation,
                            sqrt: real -> real): (r: Result<Crossmatch.FilterStats>)
    ensures InputPath(cfg.inputDir, f, magstring) !in disk.inputs ==>
      r == Err(FileNotFound(InputPath(cfg.inputDir, f, magstring)))
    ensures InputPath(cfg.inputDir, f, magstring) in disk.inputs && OutputPath(cfg.outputDir, f, magstring) !in disk.outputs ==>
      r == Err(FileNotFound(OutputPath(cfg.outputDir, f, magstring)))
    ensures r.Ok? ==> InputPath(cfg.inputDir, f, magstring) in disk.inputs && OutputPath(cfg.outputDir, f, magstring) in disk.outputs
    ensures r.Ok? ==>
      && r.value.total == |disk.inputs[InputPath(cfg.inputDir, f, magstring)]| > 0
      && r.value.matches == Crossmatch.Matches(disk.inputs[InputPath(cfg.inputDir, f, magstring)],
                                               disk.outputs[OutputPath(cfg.outputDir, f, magstring)], mag, lim, sep)
      && r.value.mag == mag
  {
    var inPath, outPath := InputPath(cfg.inputDir, f, magstring), OutputPath(cfg.outputDir, f, magstring);
    if inPath !in disk.inputs then Err(FileNotFound(inPath))
    else if outPath !in disk.outputs then Err(FileNotFound(outPath))
    else Crossmatch.FilterRun(mag, disk.inputs[inPath], disk.outputs[outPath], lim, sep, sqrt)
  }

  /** The loop of lines 75-104: filters in order; the first one that raises ends the run. */
  function CrossmatchAll(pairs: seq<(string, real)>, cfg: RunConfig, magstring: string, disk: Disk,
                         lim: Crossmatch.Limits, sep: Crossmatch.Separation,
                         sqrt: real -> real): (r: Result<seq<(string, Crossmatch.FilterStats)>>)
    ensures r.Ok? ==> |r.value| == |pairs| && forall i :: 0 <= i < |pairs| ==>
      var run := CrossmatchFilter(pairs[i].0, pairs[i].1, cfg, magstring, disk, lim, sep, sqrt);
      run.Ok? && r.value[i] == (pairs[i].0, run.value)
    ensures r.Err? ==>
      exists i :: 0 <= i < |pairs| && CrossmatchFilter(pairs[i].0, pairs[i].1, cfg, magstring, disk, lim, sep, sqrt) == Err(r.error)
        && forall j :: 0 <= j < i ==> CrossmatchFilter(pairs[j].0, pairs[j].1, cfg, magstring, disk, lim, sep, sqrt).Ok?
  {
    if |pairs| == 0 then Ok([])
    else
      assert forall i :: 1 <= i < |pairs| ==> pairs[i] == pairs[1..][i - 1];
      var first := CrossmatchFilter(pairs[0].0, pairs[0].1, cfg, magstring, disk, lim, sep, sqrt);
      if first.Err? then Err(first.error)
      else
        var rest := CrossmatchAll(pairs[1..], cfg, magstring, disk, lim, sep, sqrt);
        if rest.Err? then Err(rest.error) else Ok([(pairs[0].0, first.value)] + rest.value)
  }

  /** The magnitudes the run key holds, when they all parse. */
  function RunMags(magstring: string, parse: string -> Option<real>): Result<seq<real>>
  {
    ParseMags(Text.Split(magstring, '_'), parse)
  }

  /**
   * `main` of `crossmatch.py`, with the table already in `matches.csv` (if any)
   * as `existing`. On an error nothing is written.
   */
  function Run(cfg: RunConfig, magstring: string, parse: string -> Option<real>, disk: Disk, existing: Option<Table>,
               lim: Crossmatch.Limits, sep: Crossmatch.Separation, sqrt: real -> real): (r: Result<Saved>)
    ensures r.Ok? ==> RunMags(magstring, parse).Ok?
    ensures r.Ok? ==>
      var rows := r.value.matches.rows;
      |rows| > 0 && rows[|rows| - 1].Keys == NameSet(StatsColumns(cfg.filters))
  {
    var mags :- RunMags(magstring, parse);
    var results :- CrossmatchAll(Zip(cfg.filters, mags), cfg, magstring, disk, lim, sep, sqrt);
    var record :- AssembleRecord(cfg.filters, Entries(results));
    PersistKeepsEverything(existing, record);
    Ok(Persist(existing, record))
  }

  // ----- Column names and the record's values -----

  /** No column suffix is the tail of another. */
  lemma SuffixesNoTail()
    ensures forall t, u :: 0 <= t < 5 && 0 <= u < 5 && t != u && |Suffixes[t]| <= |Suffixes[u]| ==>
      Suffixes[u][|Suffixes[u]| - |Suffixes[t]|..] != Suffixes[t]
  {
    assert "_matches"[4..] != "_mag";
    assert "_total"[2..] != "_mag";
    assert "_ratio"[2..] != "_mag";
    assert "_ratio_err"[6..] != "_mag";
    assert "_matches"[2..] != "_total";
    assert "_matches"[2..] != "_ratio";
    assert "_ratio_err"[4..] != "_total";
    assert "_ratio_err"[4..] != "_ratio";
    assert "_ratio_err"[2..] != "_matches";
  }

  /** Equal strings with tails `s` and `s2`, `s` the shorter, agree on the last `|s|` characters. */
  lemma SharedTail(a: string, s: string, b: string, s2: string)
    requires a + s == b + s2 && |s| <= |s2|
    ensures s2[|s2| - |s|..] == s
  {
    var x := a + s;
    assert x[|x| - |s|..] == s;
    assert (b + s2)[|x| - |s|..] == s2[|s2| - |s|..];
  }

  /** A column name determines its filter and its suffix. */
  lemma ColumnOwner(f: string, g: string, t: nat, u: nat)
    requires t < 5 && u < 5 && f + Suffixes[t] == g + Suffixes[u]
    ensures f == g && t == u
  {
    var s, s2 := Suffixes[t], Suffixes[u];
    SuffixesNoTail();
    if |s| <= |s2| {
      SharedTail(f, s, g, s2);
    } else {
      SharedTail(g, s2, f, s);
    }
    assert s == s2;
    assert t == u;
    var x := f + s;
    assert f == x[..|x| - |s|];
    assert g == (g + s2)[..|x| - |s|];
  }

  /** A column of filter `f` is not a column of a different filter `g`. */
  lemma NotOwnedBy(f: string, t: nat, g: string)
    requires t < 5 && f != g
    ensures f + Suffixes[t] !in FilterColumns(g)
  {
    if f + Suffixes[t] in FilterColumns(g) {
      var u :| 0 <= u < 5 && FilterColumns(g)[u] == f + Suffixes[t];
      ColumnOwner(f, g, t, u);
    }
  }

  /** The last filter's entries are in the dictionary as that filter set them. */
  lemma EntriesLast(results: seq<(string, Crossmatch.FilterStats)>, c: string)
    requires |results| > 0 && c in FilterColumns(results[|results| - 1].0)
    ensures var last := results[|results| - 1];
      c in Entries(results) && Entries(results)[c] == StatsEntries(last.0, last.1)[c]
  {
  }

  /** An entry no later filter overwrites keeps its value. */
  lemma EntriesKeep(results: seq<(string, Crossmatch.FilterStats)>, c: string)
    requires |results| > 0 && c in Entries(results[..|results| - 1])
    requires c !in FilterColumns(results[|results| - 1].0)
    ensures c in Entries(results) && Entries(results)[c] == Entries(results[..|results| - 1])[c]
  {
    var last := results[|results| - 1];
    StatsKeys(last.0, last.1, c);
  }

  /** With distinct filter names, each filter's entries survive in the `matches` dictionary unchanged. */
  lemma {:induction false} EntriesLookup(results: seq<(string, Crossmatch.FilterStats)>, i: nat, t: nat)
    requires i < |results| && t < 5
    requires forall j, k :: 0 <= j < k < |results| ==> results[j].0 != results[k].0
    ensures var c := results[i].0 + Suffixes[t];
      c in Entries(results) && Entries(results)[c] == StatsEntries(results[i].0, results[i].1)[c]
    decreases |results|
  {
    var init, last := results[..|results| - 1], results[|results| - 1];
    var c := results[i].0 + Suffixes[t];
    if i == |results| - 1 {
      assert FilterColumns(last.0)[t] == c;
      EntriesLast(results, c);
    } else {
      assert init[i] == results[i];
      EntriesLookup(init, i, t);
      NotOwnedBy(results[i].0, t, last.0);
      EntriesKeep(results, c);
    }
  }

  /** A filter whose `_mag` column made it into the dictionary was among the processed ones, at its own position. */
  lemma ProcessedFilter(filters: seq<string>, results: seq<(string, Crossmatch.FilterStats)>, i: nat)
    requires forall j, k :: 0 <= j < k < |filters| ==> filters[j] != filters[k]
    requires |results| <= |filters| && forall j :: 0 <= j < |results| ==> results[j].0 == filters[j]
    requires i < |filters| && filters[i] + "_mag" in Entries(results)
    ensures i < |results|
  {
    EntriesKeys(results, filters[i] + "_mag");
    var j :| 0 <= j < |results| && filters[i] + "_mag" in FilterColumns(results[j].0);
    var u :| 0 <= u < 5 && FilterColumns(results[j].0)[u] == filters[i] + "_mag";
    ColumnOwner(filters[i], results[j].0, 0, u);
  }

  /** The processed filters are the first ones of the configuration, so they are distinct when the configuration's are. */
  lemma ResultsDistinct(cfg: RunConfig, mags: seq<real>, magstring: string, disk: Disk, lim: Crossmatch.Limits,
                        sep: Crossmatch.Separation, sqrt: real -> real)
    requires forall j, k :: 0 <= j < k < |cfg.filters| ==> cfg.filters[j] != cfg.filters[k]
    requires CrossmatchAll(Zip(cfg.filters, mags), cfg, magstring, disk, lim, sep, sqrt).Ok?
    ensures var results := CrossmatchAll(Zip(cfg.filters, mags), cfg, magstring, disk, lim, sep, sqrt).value;
      |results| == (if |cfg.filters| <= |mags| then |cfg.filters| else |mags|) &&
      (forall j :: 0 <= j < |results| ==> results[j].0 == cfg.filters[j]) &&
      forall j, k :: 0 <= j < k < |results| ==> results[j].0 != results[k].0
  {
  }

  /** The pieces a successful run is made of. */
  lemma RunPieces(cfg: RunConfig, magstring: string, parse: string -> Option<real>, disk: Disk,
                  existing: Option<Table>, lim: Crossmatch.Limits, sep: Crossmatch.Separation, sqrt: real -> real)
    requires Run(cfg, magstring, parse, disk, existing, lim, sep, sqrt).Ok?
    ensures RunMags(magstring, parse).Ok?
    ensures var results := CrossmatchAll(Zip(cfg.filters, RunMags(magstring, parse).value), cfg, magstring, disk, lim, sep, sqrt);
      && results.Ok?
      && AssembleRecord(cfg.filters, Entries(results.value)).Ok?
      && Run(cfg, magstring, parse, disk, existing, lim, sep, sqrt).value
         == Persist(existing, AssembleRecord(cfg.filters, Entries(results.value)).value)
  {
  }

  /** A column of the i-th filter is among the record's columns. */
  lemma {:induction false} FilterColumnListed(filters: seq<string>, i: nat, t: nat)
    requires i < |filters| && t < 5
    ensures filters[i] + Suffixes[t] in StatsColumns(filters)
  {
    var head, rest := FilterColumns(filters[0]), StatsColumns(filters[1..]);
    assert StatsColumns(filters) == head + rest;
    if i == 0 {
      assert head[t] in head;
    } else {
      FilterColumnListed(filters[1..], i - 1, t);
    }
  }


  /** The record's row holds, under each processed filter's columns, that filter's entries. */
  lemma RecordCell(filters: seq<string>, results: seq<(string, Crossmatch.FilterStats)>, i: nat, t: nat)
    requires forall j, k :: 0 <= j < k < |results| ==> results[j].0 != results[k].0
    requires i < |results| && i < |filters| && results[i].0 == filters[i] && t < 5
    requires AssembleRecord(filters, Entries(results)).Ok?
    ensures var c, row := filters[i] + Suffixes[t], AssembleRecord(filters, Entries(results)).value.rows[0];
      c in row && c in StatsEntries(filters[i], results[i].1) && row[c] == StatsEntries(filters[i], results[i].1)[c]
  {
    FilterColumnListed(filters, i, t);
    EntriesLookup(results, i, t);
  }

  /** A row that holds a filter's entries holds its magnitude and counts under the column names. */
  lemma RowStats(f: string, s: Crossmatch.FilterStats, row: Row)
    requires forall t :: 0 <= t < 5 ==> f + Suffixes[t] in row && row[f + Suffixes[t]] == StatsEntries(f, s)[f + Suffixes[t]]
    ensures HasCell(row, f + "_mag", Real(s.mag))
    ensures HasCell(row, f + "_matches", Count(s.matches))
    ensures HasCell(row, f + "_total", Count(s.total))
  {
    assert f + Suffixes[0] == f + "_mag" && f + Suffixes[1] == f + "_matches" && f + Suffixes[2] == f + "_total";
  }

  /** The record assembled from the crossmatch of every filter holds each filter's magnitude and counts. */
  lemma RecordOfFilter(cfg: RunConfig, mags: seq<real>, magstring: string, disk: Disk, lim: Crossmatch.Limits,
                       sep: Crossmatch.Separation, sqrt: real -> real, i: nat)
    requires forall j, k :: 0 <= j < k < |cfg.filters| ==> cfg.filters[j] != cfg.filters[k]
    requires i < |cfg.filters| && i < |mags|
    requires CrossmatchAll(Zip(cfg.filters, mags), cfg, magstring, disk, lim, sep, sqrt).Ok?
    requires AssembleRecord(cfg.filters, Entries(CrossmatchAll(Zip(cfg.filters, mags), cfg, magstring, disk, lim, sep, sqrt).value)).Ok?
    ensures var results := CrossmatchAll(Zip(cfg.filters, mags), cfg, magstring, disk, lim, sep, sqrt).value;
      var row, f := AssembleRecord(cfg.filters, Entries(results)).value.rows[0], cfg.filters[i];
      var inPath, outPath := InputPath(cfg.inputDir, f, magstring), OutputPath(cfg.outputDir, f, magstring);
      && inPath in disk.inputs && outPath in disk.outputs
      && HasCell(row, f + "_mag", Real(mags[i]))
      && HasCell(row, f + "_total", Count(|disk.inputs[inPath]|))
      && HasCell(row, f + "_matches", Count(Crossmatch.Matches(disk.inputs[inPath], disk.outputs[outPath], mags[i], lim, sep)))
  {
    var pairs := Zip(cfg.filters, mags);
    var results := CrossmatchAll(pairs, cfg, magstring, disk, lim, sep, sqrt).value;
    ResultsDistinct(cfg, mags, magstring, disk, lim, sep, sqrt);
    var f, row := cfg.filters[i], AssembleRecord(cfg.filters, Entries(results)).value.rows[0];
    forall t | 0 <= t < 5
      ensures f + Suffixes[t] in row && row[f + Suffixes[t]] == StatsEntries(f, results[i].1)[f + Suffixes[t]]
    {
      RecordCell(cfg.filters, results, i, t);
    }
    RowStats(f, results[i].1, row);
    assert pairs[i] == (f, mags[i]);
    var run := CrossmatchFilter(f, mags[i], cfg, magstring, disk, lim, sep, sqrt);
    assert run.Ok? && results[i].1 == run.value;
  }

  /**
   * End to end, for distinct filter names: a run that succeeds had a magnitude
   * for every filter, and the row it adds holds, for the i-th filter, the i-th
   * magnitude of the run key, the number of injected stars in the filter's
   * input file and the number of them the crossmatch recovers.
   */
  lemma RunRecordsEveryFilter(cfg: RunConfig, magstring: string, parse: string -> Option<real>, disk: Disk,
                              existing: Option<Table>, lim: Crossmatch.Limits, sep: Crossmatch.Separation,
                              sqrt: real -> real, i: nat)
    requires forall j, k :: 0 <= j < k < |cfg.filters| ==> cfg.filters[j] != cfg.filters[k]
    requires i < |cfg.filters|
    requires Run(cfg, magstring, parse, disk, existing, lim, sep, sqrt).Ok?
    ensures var mags := RunMags(magstring, parse).value;
      var rows := Run(cfg, magstring, parse, disk, existing, lim, sep, sqrt).value.matches.rows;
      var row, f := rows[|rows| - 1], cfg.filters[i];
      var inPath, outPath := InputPath(cfg.inputDir, f, magstring), OutputPath(cfg.outputDir, f, magstring);
      && |mags| >= |cfg.filters|
      && inPath in disk.inputs && outPath in disk.outputs
      && HasCell(row, f + "_mag", Real(mags[i]))
      && HasCell(row, f + "_total", Count(|disk.inputs[inPath]|))
      && HasCell(row, f + "_matches", Count(Crossmatch.Matches(disk.inputs[inPath], disk.outputs[outPath], mags[i], lim, sep)))
  {
    RunPieces(cfg, magstring, parse, disk, existing, lim, sep, sqrt);
    var mags := RunMags(magstring, parse).value;
    var results := CrossmatchAll(Zip(cfg.filters, mags), cfg, magstring, disk, lim, sep, sqrt).value;
    var record := AssembleRecord(cfg.filters, Entries(results)).value;
    ResultsDistinct(cfg, mags, magstring, disk, lim, sep, sqrt);
    var last := |cfg.filters| - 1;
    FilterColumnListed(cfg.filters, last, 0);
    ProcessedFilter(cfg.filters, results, last);
    RecordOfFilter(cfg, mags, magstring, disk, lim, sep, sqrt, i);
    PersistKeepsEverything(existing, record);
    var rows := Persist(existing, record).matches.rows;
    assert rows[|rows| - 1] == rows[|rows| - 1..][0] == record.rows[0];
    assert Run(cfg, magstring, parse, disk, existing, lim, sep, sqrt).value.matches.rows == rows;
  }

  /**
   * The converse of `Run`'s contract: when every token of the run key parses,
   * there is a magnitude for every filter, and every filter has both catalogs
   * with a non-empty input, `main` succeeds.
   */
  lemma RunSucceeds(cfg: RunConfig, magstring: string, parse: string -> Option<real>, disk: Disk,
                    existing: Option<Table>, lim: Crossmatch.Limits, sep: Crossmatch.Separation, sqrt: real -> real)
    requires RunMags(magstring, parse).Ok? && |RunMags(magstring, parse).value| >= |cfg.filters|
    requires forall f :: f in cfg.filters ==>
      && InputPath(cfg.inputDir, f, magstring) in disk.inputs && |disk.inputs[InputPath(cfg.inputDir, f, magstring)]| > 0
      && OutputPath(cfg.outputDir, f, magstring) in disk.outputs
    ensures Run(cfg, magstring, parse, disk, existing, lim, sep, sqrt).Ok?
  {
    var mags := RunMags(magstring, parse).value;
    var pairs := Zip(cfg.filters, mags);
    forall i | 0 <= i < |pairs|
      ensures CrossmatchFilter(pairs[i].0, pairs[i].1, cfg, magstring, disk, lim, sep, sqrt).Ok?
    {
      assert pairs[i].0 == cfg.filters[i];
    }
    var all := CrossmatchAll(pairs, cfg, magstring, disk, lim, sep, sqrt);
    var results := all.value;
    forall i | 0 <= i < |StatsColumns(cfg.filters)|
      ensures StatsColumns(cfg.filters)[i] in Entries(results)
    {
      var c := StatsColumns(cfg.filters)[i];
      var j, t := ColumnFilter(cfg.filters, c);
      assert results[j].0 == cfg.filters[j];
      assert FilterColumns(results[j].0)[t] == c;
      EntriesHas(results, j, c);
    }
  }

  /**
   * For distinct filters, a run key with fewer magnitudes than filters makes
   * `main` fail: `zip` leaves the later filters unprocessed. When every
   * processed filter's catalogs were read, the failure is the `KeyError` of
   * line 107 for a column of one of those later filters.
   */
  lemma ShortKeyFails(cfg: RunConfig, magstring: string, parse: string -> Option<real>, disk: Disk,
                      existing: Option<Table>, lim: Crossmatch.Limits, sep: Crossmatch.Separation, sqrt: real -> real)
    requires forall j, k :: 0 <= j < k < |cfg.filters| ==> cfg.filters[j] != cfg.filters[k]
    requires RunMags(magstring, parse).Ok? && |RunMags(magstring, parse).value| < |cfg.filters|
    ensures Run(cfg, magstring, parse, disk, existing, lim, sep, sqrt).Err?
    ensures CrossmatchAll(Zip(cfg.filters, RunMags(magstring, parse).value), cfg, magstring, disk, lim, sep, sqrt).Ok? ==>
      exists j, t :: |RunMags(magstring, parse).value| <= j < |cfg.filters| && 0 <= t < 5
        && Run(cfg, magstring, parse, disk, existing, lim, sep, sqrt).error == KeyError(cfg.filters[j] + Suffixes[t])
  {
    if Run(cfg, magstring, parse, disk, existing, lim, sep, sqrt).Ok? {
      RunRecordsEveryFilter(cfg, magstring, parse, disk, existing, lim, sep, sqrt, 0);
      assert false;
    }
    var mags := RunMags(magstring, parse).value;
    var all := CrossmatchAll(Zip(cfg.filters, mags), cfg, magstring, disk, lim, sep, sqrt);
    if all.Ok? {
      var results := all.value;
      var record := AssembleRecord(cfg.filters, Entries(results));
      var key := record.error.key;
      var j, t := ColumnFilter(cfg.filters, key);
      if j < |mags| {
        assert results[j].0 == cfg.filters[j];
        assert FilterColumns(results[j].0)[t] == key;
        EntriesHas(results, j, key);
        assert false;
      }
    }
  }

  /**
   * A successful run keeps every prior row: in front of the new one when the
   * column set is unchanged, otherwise in `matches_copy.csv`, while
   * `matches.csv` then holds the new record alone.
   */
  lemma RunKeepsPriorRows(cfg: RunConfig, magstring: string, parse: string -> Option<real>, disk: Disk,
                          existing: Option<Table>, lim: Crossmatch.Limits, sep: Crossmatch.Separation, sqrt: real -> real)
    requires Run(cfg, magstring, parse, disk, existing, lim, sep, sqrt).Ok?
    ensures var saved := Run(cfg, magstring, parse, disk, existing, lim, sep, sqrt).value;
      var same := existing.Some? && ColumnSet(existing.value) == NameSet(StatsColumns(cfg.filters));
      && (same ==>
            saved.copy.None? && saved.matches.columns == existing.value.columns
            && |saved.matches.rows| == |existing.value.rows| + 1
            && saved.matches.rows[..|existing.value.rows|] == existing.value.rows)
      && (existing.Some? && !same ==>
            saved.copy == existing && saved.matches.columns == StatsColumns(cfg.filters) && |saved.matches.rows| == 1)
      && (existing.None? ==>
            saved.copy.None? && saved.matches.columns == StatsColumns(cfg.filters) && |saved.matches.rows| == 1)
  {
    RunPieces(cfg, magstring, parse, disk, existing, lim, sep, sqrt);
    var mags := RunMags(magstring, parse).value;
    var results := CrossmatchAll(Zip(cfg.filters, mags), cfg, magstring, disk, lim, sep, sqrt).value;
    var record := AssembleRecord(cfg.filters, Entries(results)).value;
    assert ColumnSet(record) == NameSet(StatsColumns(cfg.filters));
    if existing.Some? && ColumnSet(existing.value) == ColumnSet(record) {
      assert (existing.value.rows + record.rows)[..|existing.value.rows|] == existing.value.rows;
    }
  }

  /** Every record column belongs to one of the filters. */
  lemma {:induction false} ColumnFilter(filters: seq<string>, c: string) returns (j: nat, t: nat)
    requires c in StatsColumns(filters)
    ensures j < |filters| && t < 5 && c == filters[j] + Suffixes[t]
  {
    var head, rest := FilterColumns(filters[0]), StatsColumns(filters[1..]);
    assert StatsColumns(filters) == head + rest;
    if c in head {
      j := 0;
      t :| 0 <= t < 5 && head[t] == c;
    } else {
      var k;
      k, t := ColumnFilter(filters[1..], c);
      j := k + 1;
    }
  }

  /** The first `k` of a list of distinct filters lack a column that the whole list has. */
  lemma FewerFiltersFewerColumns(filters: seq<string>, k: nat)
    requires forall j, l :: 0 <= j < l < |filters| ==> filters[j] != filters[l]
    requires k < |filters|
    ensures NameSet(StatsColumns(filters[..k])) != NameSet(StatsColumns(filters))
  {
    var c := filters[k] + Suffixes[0];
    FilterColumnListed(filters, k, 0);
    PrefixLacksColumn(filters, k);
    assert c in NameSet(StatsColumns(filters));
  }

  /** No filter before the `k`-th owns the `k`-th filter's first column. */
  lemma PrefixLacksColumn(filters: seq<string>, k: nat)
    requires forall j, l :: 0 <= j < l < |filters| ==> filters[j] != filters[l]
    requires k < |filters|
    ensures filters[k] + Suffixes[0] !in StatsColumns(filters[..k])
  {
    var c := filters[k] + Suffixes[0];
    if c in StatsColumns(filters[..k]) {
      var j, t := ColumnFilter(filters[..k], c);
      assert filters[..k][j] == filters[j];
      ColumnOwner(filters[k], filters[j], 0, t);
    }
  }

  /**
   * Adding filters to a configuration (earlier runs over the first `k`
   * filters, then a run over all of them): the new row has the columns of every filter, and
   * the earlier table moves to `matches_copy.csv` unmodified.
   */
  lemma AddedFilterMovesPriorTable(cfg: RunConfig, magstring: string, parse: string -> Option<real>, disk: Disk,
                                   prior: Table, k: nat, lim: Crossmatch.Limits, sep: Crossmatch.Separation,
                                   sqrt: real -> real)
    requires forall j, l :: 0 <= j < l < |cfg.filters| ==> cfg.filters[j] != cfg.filters[l]
    requires k < |cfg.filters| && prior.columns == StatsColumns(cfg.filters[..k])
    requires Run(cfg, magstring, parse, disk, Some(prior), lim, sep, sqrt).Ok?
    ensures var saved := Run(cfg, magstring, parse, disk, Some(prior), lim, sep, sqrt).value;
      && saved.copy == Some(prior)
      && saved.matches.columns == StatsColumns(cfg.filters) && |saved.matches.rows| == 1
      && saved.matches.rows[0].Keys == NameSet(StatsColumns(cfg.filters))
  {
    FewerFiltersFewerColumns(cfg.filters, k);
    RunKeepsPriorRows(cfg, magstring, parse, disk, Some(prior), lim, sep, sqrt);
    var rows := Run(cfg, magstring, parse, disk, Some(prior), lim, sep, sqrt).value.matches.rows;
    assert rows[|rows| - 1].Keys == NameSet(StatsColumns(cfg.filters));
    assert |rows| == 1;
    assert rows[0].Keys == NameSet(StatsColumns(cfg.filters));
  }
}

=== FILE: errors.dfy ===
/** The exceptions the scripts can raise, and a result type that carries them. */
module Errors {

  datatype Error =
    | ZeroDivision                  // `match_count/len(input_df)` with no injected stars
    | FileNotFound(path: string)    // a catalog file the crossmatch reads is absent
    | NoPatchDirectory(filter: string, tract: int)  // `os.listdir` of `{hscdir}/deepCoadd-results/{filter}/{tract}/` failed
    | KeyError(key: string)         // a dictionary, config option or DataFrame column lookup failed
    | BadFloat(token: string)       // a magnitude token that `float` cannot parse
    | LengthMismatch                // DataFrame columns of unequal length
    | UnboundDataId                 // `data_id` read before any patch assigned it
    | DataAccess(patch: string)     // the pipeline store could not supply a catalog
    | ShapeMismatch                 // a stamp larger than the tile cannot be added to it
    | EmptyMaskPlanes               // `np.max` of an empty list of mask planes

  datatype Option<+T> = None | Some(value: T)

  datatype Result<+T> = Ok(value: T) | Err(error: Error) {
    predicate IsFailure() {
      Err?
    }

    function PropagateFailure<U>(): Result<U>
      requires Err?
    {
      Err(error)
    }

    function Extract(): T
      requires Ok?
    {
      value
    }
  }
}

=== FILE: filter_join.dfy ===
/**
 * `join_filter` of `utils/config_actions.py`: the values of a section's
 * options whose names start with `filter`, taken in sorted name order and
 * joined with `^` into the `--id filter=` argument of the pipeline.
 */
module FilterJoin {
  import opened Text

  /** A configuration section as `configparser` keeps it: options in file order, each name once. */
  type Section = es: seq<(string, string)> | DistinctNames(es) witness []

  predicate DistinctNames(es: seq<(string, string)>) {
    forall i, j :: 0 <= i < j < |es| ==> es[i].0 != es[j].0
  }

  /** The option names, in file order. */
  function Names(es: seq<(string, string)>): (ns: seq<string>)
    ensures |ns| == |es| && forall i :: 0 <= i < |es| ==> ns[i] == es[i].0
  {
    if |es| == 0 then [] else [es[0].0] + Names(es[1..])
  }

  /** `config[key]`: the value of the option named `key`. */
  function ValueOf(es: seq<(string, string)>, key: string): (v: string)
    requires key in Names(es)
    ensures (key, v) in es
  {
    if es[0].0 == key then es[0].1
    else
      assert Names(es) == [es[0].0] + Names(es[1..]);
      ValueOf(es[1..], key)
  }

  // ----- Python's string order -----

  /** `a < b` on Python strings: lexicographic by code point, a proper prefix first. */
  predicate Below(a: string, b: string)
    decreases |a|
  {
    if |a| == 0 then |b| > 0
    else |b| > 0 && (if a[0] == b[0] then Below(a[1..], b[1..]) else a[0] < b[0])
  }

  lemma {:induction false} BelowIrreflexive(a: string)
    ensures !Below(a, a)
  {
    if |a| > 0 {
      BelowIrreflexive(a[1..]);
    }
  }

  lemma {:induction false} BelowTransitive(a: string, b: string, c: string)
    requires Below(a, b) && Below(b, c)
    ensures Below(a, c)
    decreases |a|
  {
    if |a| > 0 && a[0] == b[0] && b[0] == c[0] {
      BelowTransitive(a[1..], b[1..], c[1..]);
    }
  }

  lemma {:induction false} BelowTotal(a: string, b: string)
    requires a != b
    ensures Below(a, b) || Below(b, a)
    decreases |a|
  {
    if |a| > 0 && |b| > 0 && a[0] == b[0] {
      assert a == [a[0]] + a[1..] && b == [b[0]] + b[1..];
      BelowTotal(a[1..], b[1..]);
    }
  }

  lemma BelowAsymmetric(a: string, b: string)
    requires Below(a, b)
    ensures !Below(b, a)
  {
    if Below(b, a) {
      BelowTransitive(a, b, a);
      BelowIrreflexive(a);
    }
  }

  /** `'filter10' < 'filter2'`: the names are compared as text, not as numbers. */
  lemma Filter10BeforeFilter2()
    ensures Below("filter10", "filter2")
    ensures !Below("filter2", "filter10")
  {
    assert "filter10"[6..] == "10" && "filter2"[6..] == "2";
    assert Below("10", "2");
    assert Below("filter10"[5..], "filter2"[5..]);
    assert Below("filter10"[4..], "filter2"[4..]);
    assert Below("filter10"[3..], "filter2"[3..]);
    assert Below("filter10"[2..], "filter2"[2..]);
    assert Below("filter10"[1..], "filter2"[1..]);
    BelowAsymmetric("filter10", "filter2");
  }

  // ----- sorted() -----

  /** Strictly increasing in Python's order. */
  predicate Increasing(s: seq<string>) {
    forall i, j :: 0 <= i < j < |s| ==> Below(s[i], s[j])
  }

  /** One insertion step of the sort. */
  function Insert(k: string, s: seq<string>): (r: seq<string>)
    ensures |r| == |s| + 1
    ensures forall x :: x in r <==> x == k || x in s
  {
    if |s| == 0 then [k]
    else if Below(k, s[0]) then [k] + s
    else [s[0]] + Insert(k, s[1..])
  }

  lemma {:induction false} InsertIncreasing(k: string, s: seq<string>)
    requires Increasing(s) && k !in s
    ensures Increasing(Insert(k, s))
  {
    if |s| > 0 {
      var r := Insert(k, s);
      if Below(k, s[0]) {
        forall i, j | 0 <= i < j < |r|
          ensures Below(r[i], r[j])
        {
          assert r[j] == s[j - 1];
          if i > 0 {
            assert r[i] == s[i - 1];
          } else if j > 1 {
            BelowTransitive(k, s[0], s[j - 1]);
          }
        }
      } else {
        BelowTotal(k, s[0]);
        InsertIncreasing(k, s[1..]);
        var rest := Insert(k, s[1..]);
        forall i, j | 0 <= i < j < |r|
          ensures Below(r[i], r[j])
        {
          assert r[j] == rest[j - 1];
          if i > 0 {
            assert r[i] == rest[i - 1];
          } else {
            assert rest[j - 1] in rest;
          }
        }
      }
    }
  }

  /** `sorted(names)` for distinct names. */
  function Sort(names: seq<string>): (r: seq<string>)
    ensures |r| == |names|
    ensures forall x :: x in r <==> x in names
  {
    if |names| == 0 then [] else Insert(names[0], Sort(names[1..]))
  }

  lemma {:induction false} SortIncreasing(names: seq<string>)
    requires forall i, j :: 0 <= i < j < |names| ==> names[i] != names[j]
    ensures Increasing(Sort(names))
  {
    if |names| > 0 {
      SortIncreasing(names[1..]);
      assert names[0] !in names[1..];
      InsertIncreasing(names[0], Sort(names[1..]));
    }
  }

  /** Two increasing sequences with the same elements are the same sequence. */
  lemma {:induction false} IncreasingUnique(a: seq<string>, b: seq<string>)
    requires Increasing(a) && Increasing(b)
    requires forall x :: x in a <==> x in b
    ensures a == b
  {
    assert |a| > 0 ==> a[0] in b;
    assert |b| > 0 ==> b[0] in a;
    if |a| > 0 && |b| > 0 {
      assert a[0] == b[0] by {
        if a[0] != b[0] {
          HeadLeast(a, b[0]);
          HeadLeast(b, a[0]);
          BelowAsymmetric(a[0], b[0]);
        }
      }
      forall x
        ensures x in a[1..] <==> x in b[1..]
      {
        if x in a[1..] {
          var i :| 1 <= i < |a| && a[i] == x;
          assert Below(a[0], x);
          BelowIrreflexive(x);
          assert x in b;
          var j :| 0 <= j < |b| && b[j] == x;
          assert j != 0;
          assert b[1..][j - 1] == x;
        }
        if x in b[1..] {
          var j :| 1 <= j < |b| && b[j] == x;
          assert Below(b[0], x);
          BelowIrreflexive(x);
          assert x in a;
          var i :| 0 <= i < |a| && a[i] == x;
          assert i != 0;
          assert a[1..][i - 1] == x;
        }
      }
      IncreasingUnique(a[1..], b[1..]);
      assert a == [a[0]] + a[1..] && b == [b[0]] + b[1..];
    }
  }

  /** The first element of an increasing sequence is below every other. */
  lemma HeadLeast(s: seq<string>, x: string)
    requires Increasing(s) && x in s && x != s[0]
    ensures Below(s[0], x)
  {
    var i :| 0 <= i < |s| && s[i] == x;
  }

  // ----- join_filter -----

  function IsFilterName(name: string): bool {
    StartsWith(name, "filter")
  }

  /** The names kept by the comprehension's `if key.startswith('filter')`, in the order given. */
  function FilterNames(names: seq<string>): (r: seq<string>)
    ensures |r| <= |names|
    ensures forall x :: x in r <==> x in names && IsFilterName(x)
    ensures Increasing(names) ==> Increasing(r)
  {
    if |names| == 0 then []
    else
      var rest := FilterNames(names[1..]);
      assert Increasing(names) ==> forall x :: x in rest ==> Below(names[0], x);
      if IsFilterName(names[0]) then [names[0]] + rest else rest
  }

  /** `[config[key] for key in keys]`. */
  function ValuesOf(es: seq<(string, string)>, keys: seq<string>): (vs: seq<string>)
    requires forall k :: k in keys ==> k in Names(es)
    ensures |vs| == |keys| && forall i :: 0 <= i < |keys| ==> (keys[i], vs[i]) in es
  {
    if |keys| == 0 then [] else [ValueOf(es, keys[0])] + ValuesOf(es, keys[1..])
  }

  /** The filter option names, in the order `join_filter` visits them. */
  function FilterKeys(section: Section): (keys: seq<string>)
    ensures forall k :: k in keys ==> k in Names(section)
  {
    FilterNames(Sort(Names(section)))
  }

  /** Lines 48-52. */
  function JoinFilter(section: Section): string {
    Join(ValuesOf(section, FilterKeys(section)), "^")
  }

  /**
   * The names `join_filter` visits are exactly the section's filter names,
   * in increasing order; no other order has both properties.
   */
  lemma FilterKeysSpec(section: Section, keys: seq<string>)
    requires Increasing(keys)
    requires forall k :: k in keys <==> k in Names(section) && IsFilterName(k)
    ensures FilterKeys(section) == keys
  {
    var names := Names(section);
    SortIncreasing(names);
    IncreasingUnique(FilterKeys(section), keys);
  }

  /** Each joined value belongs to a filter option, in increasing name order. */
  lemma JoinFilterValues(section: Section)
    ensures var keys, vs := FilterKeys(section), ValuesOf(section, FilterKeys(section));
      && Increasing(keys)
      && (forall k :: k in keys <==> k in Names(section) && IsFilterName(k))
      && |vs| == |keys|
      && forall i :: 0 <= i < |keys| ==> IsFilterName(keys[i]) && (keys[i], vs[i]) in section
  {
    SortIncreasing(Names(section));
  }

  /** With k filter options and no `^` in their values, there are k-1 separators and splitting recovers the values. */
  lemma JoinFilterSplit(section: Section)
    requires forall i :: 0 <= i < |section| && IsFilterName(section[i].0) ==> '^' !in section[i].1
    requires exists i :: 0 <= i < |section| && IsFilterName(section[i].0)
    ensures var vs := ValuesOf(section, FilterKeys(section));
      && Count(JoinFilter(section), '^') == |vs| - 1
      && Split(JoinFilter(section), '^') == vs
  {
    var keys, vs := FilterKeys(section), ValuesOf(section, FilterKeys(section));
    var i :| 0 <= i < |section| && IsFilterName(section[i].0);
    assert section[i].0 in Names(section);
    assert section[i].0 in keys;
    forall j | 0 <= j < |vs|
      ensures '^' !in vs[j]
    {
      var p :| p in section && p == (keys[j], vs[j]);
      var n :| 0 <= n < |section| && section[n] == p;
    }
    JoinCount(vs, '^');
    SplitJoin(vs, '^');
  }

  /** No filter option gives the empty string. */
  lemma JoinFilterNone(section: Section)
    requires forall i :: 0 <= i < |section| ==> !IsFilterName(section[i].0)
    ensures JoinFilter(section) == ""
  {
    var keys := FilterKeys(section);
    if |keys| > 0 {
      assert keys[0] in Names(section);
    }
  }

  /** One filter option gives its value unchanged. */
  lemma JoinFilterOne(section: Section, i: nat)
    requires i < |section| && IsFilterName(section[i].0)
    requires forall j :: 0 <= j < |section| && j != i ==> !IsFilterName(section[j].0)
    ensures JoinFilter(section) == section[i].1
  {
    var name := section[i].0;
    assert name in Names(section);
    FilterKeysSpec(section, [name]);
    var v := ValuesOf(section, [name])[0];
    var n :| 0 <= n < |section| && section[n] == (name, v);
  }

  /** A section with filters named `filter2` and `filter10` and one other option. */
  const ExampleSection: Section := [("filter2", "HSC-I2"), ("tract", "0"), ("filter10", "HSC-G")]

  lemma ExampleKeys()
    ensures FilterKeys(ExampleSection) == ["filter10", "filter2"]
  {
    Filter10BeforeFilter2();
    assert !IsFilterName("tract") by {
      assert "tract"[..1] != "filter"[..1];
    }
    assert IsFilterName("filter2") && IsFilterName("filter10");
    assert Names(ExampleSection) == ["filter2", "tract", "filter10"];
    FilterKeysSpec(ExampleSection, ["filter10", "filter2"]);
  }

  lemma ExampleValues()
    ensures ValuesOf(ExampleSection, ["filter10", "filter2"]) == ["HSC-G", "HSC-I2"]
  {
    assert Names(ExampleSection) == ["filter2", "tract", "filter10"];
    var vs := ValuesOf(ExampleSection, ["filter10", "filter2"]);
    assert ("filter10", vs[0]) in ExampleSection;
    assert ("filter2", vs[1]) in ExampleSection;
  }

  /** `filter10` is joined before `filter2`, and the other option is skipped. */
  lemma JoinFilterExample()
    ensures JoinFilter(ExampleSection) == "HSC-G" + "^" + "HSC-I2"
  {
    ExampleKeys();
    ExampleValues();
    assert Join(["HSC-G", "HSC-I2"], "^") == "HSC-G" + "^" + Join(["HSC-I2"], "^");
  }
}

=== FILE: inject_grid.dfy ===
/**
 * The index arithmetic of `injectStar_ver4.py`: the 300-pixel grid of star
 * cells on a patch image, the zero padding that brings a PSF stamp to the
 * cell size, the 5x5 block of the fake mask plane, and the catalog of
 * injected stars. Images are described by their numpy shape (rows, columns);
 * pixel values, the flux scaling and the FITS/WCS/PSF calls are not modelled:
 * the PSF and the pixel-to-sky conversion are parameters.
 */
module InjectGrid {
  import opened Errors

  /** Line 60: the cell size and star-to-star distance in pixels. */
  const BinSize: nat := 300

  /** Line 75: the side of the masked block. */
  const MaskPix: nat := 5

  /** A numpy shape: `shape[0]` rows (y) by `shape[1]` columns (x). */
  datatype Shape = Shape(rows: nat, cols: nat)

  // ----- The grid -----

  /** Lines 61-62: how many cells fit across (`x_len`) and down (`y_len`). */
  function GridSize(image: Shape): (size: (nat, nat))
    ensures BinSize * size.0 <= image.cols < BinSize * (size.0 + 1)
    ensures BinSize * size.1 <= image.rows < BinSize * (size.1 + 1)
  {
    (image.cols / BinSize, image.rows / BinSize)
  }

  /** Lines 67-68: the centre `(xp, yp)` of cell `(j, k)`, in pixels. */
  function Centre(j: nat, k: nat): (int, int) {
    (BinSize / 2 + BinSize * j, BinSize / 2 + BinSize * k)
  }

  /** Line 94: pixel `(r, c)` of the image lies in the tile of cell `(j, k)`. */
  predicate InTile(j: nat, k: nat, r: int, c: int) {
    BinSize * k <= r < BinSize * k + BinSize && BinSize * j <= c < BinSize * j + BinSize
  }

  /** Every tile of the grid lies inside the image. */
  lemma TileInside(image: Shape, j: nat, k: nat)
    requires j < GridSize(image).0 && k < GridSize(image).1
    ensures BinSize * k + BinSize <= image.rows && BinSize * j + BinSize <= image.cols
  {
    var size := GridSize(image);
    assert BinSize * (j + 1) <= BinSize * size.0;
    assert BinSize * (k + 1) <= BinSize * size.1;
  }

  /** Distinct cells have disjoint tiles, so no pixel receives two stars. */
  lemma TilesDisjoint(j1: nat, k1: nat, j2: nat, k2: nat, r: int, c: int)
    requires InTile(j1, k1, r, c) && InTile(j2, k2, r, c)
    ensures j1 == j2 && k1 == k2
  {
  }

  /** The pixel at the star's centre: row `yp`, column `xp`, as the image is indexed `[y, x]`. */
  function StarPixel(j: nat, k: nat): (p: (int, int))
    ensures InTile(j, k, p.0, p.1)
  {
    (Centre(j, k).1, Centre(j, k).0)
  }

  /** Lines 64-65: the cells in loop order, `j` outer and `k` inner. */
  function Cells(xLen: nat, yLen: nat): (cells: seq<(nat, nat)>)
    ensures |cells| == xLen * yLen
    ensures forall j: nat, k: nat :: (j, k) in cells <==> j < xLen && k < yLen
  {
    if xLen == 0 then [] else Cells(xLen - 1, yLen) + Column(xLen - 1, yLen)
  }

  /** The inner loop of line 65: cells `(j, 0)` to `(j, yLen - 1)`. */
  function Column(j: nat, yLen: nat): (column: seq<(nat, nat)>)
    ensures |column| == yLen && forall k :: 0 <= k < yLen ==> column[k] == (j, k)
    ensures forall c: (nat, nat) :: c in column <==> c.0 == j && c.1 < yLen
  {
    var column := seq(yLen, (k: int) requires 0 <= k => (j, k as nat));
    assert forall c: (nat, nat) :: c.0 == j && c.1 < yLen ==> column[c.1] == c;
    column
  }

  /** Cell `a` comes before cell `b` in loop order. */
  predicate Before(a: (nat, nat), b: (nat, nat)) {
    a.0 < b.0 || (a.0 == b.0 && a.1 < b.1)
  }

  /** Each cell comes strictly after the ones before it, so none is visited twice. */
  predicate InLoopOrder(cells: seq<(nat, nat)>) {
    forall a, b :: 0 <= a < b < |cells| ==> Before(cells[a], cells[b])
  }

  /** The loop visits each cell of the grid once, in strictly increasing loop order. */
  lemma {:induction false} CellsInOrder(xLen: nat, yLen: nat)
    ensures InLoopOrder(Cells(xLen, yLen))
  {
    if xLen > 0 {
      CellsInOrder(xLen - 1, yLen);
      var prefix := Cells(xLen - 1, yLen);
      var cells := Cells(xLen, yLen);
      var column := Column(xLen - 1, yLen);
      assert cells == prefix + column;
      forall a, b | 0 <= a < b < |cells| ensures Before(cells[a], cells[b]) {
        if b < |prefix| {
          assert cells[a] == prefix[a] && cells[b] == prefix[b];
          assert Before(prefix[a], prefix[b]);
        } else if a < |prefix| {
          assert cells[a] == prefix[a] && (prefix[a].0, prefix[a].1) in prefix;
          assert cells[b] == column[b - |prefix|];
          assert prefix[a].0 < xLen - 1;
        } else {
          assert cells[a] == column[a - |prefix|] && cells[b] == column[b - |prefix|];
        }
      }
    }
  }

  // ----- Padding the stamp -----

  /**
   * Lines 78-93 along one axis: a stamp `n` pixels wide gets `before` zero
   * columns in front and `after` behind, `diff//2` and `diff//2 + diff%2`.
   * A stamp at least `BinSize` wide is left alone.
   */
  function PadAmounts(n: nat): (p: (nat, nat))
    ensures n < BinSize ==> p.0 + n + p.1 == BinSize && p.0 <= p.1 <= p.0 + 1
    ensures n >= BinSize ==> p == (0, 0)
  {
    if BinSize > n then
      var diff := BinSize - n;
      if diff % 2 == 0 then (diff / 2, diff / 2) else (diff / 2, diff / 2 + 1)
    else (0, 0)
  }

  /** A padded stamp is exactly one cell in size when the stamp is no larger than a cell. */
  function PaddedShape(stamp: Shape): (s: Shape)
    ensures stamp.rows <= BinSize && stamp.cols <= BinSize ==> s == Shape(BinSize, BinSize)
    ensures stamp.rows > BinSize ==> s.rows == stamp.rows
    ensures stamp.cols > BinSize ==> s.cols == stamp.cols
  {
    var (top, bottom) := PadAmounts(stamp.rows);
    var (left, right) := PadAmounts(stamp.cols);
    Shape(top + stamp.rows + bottom, left + stamp.cols + right)
  }

  /** A dense array: `m[r][c]`, every row of the same width. */
  predicate IsArray(m: seq<seq<real>>, s: Shape) {
    |m| == s.rows && forall r :: 0 <= r < |m| ==> |m[r]| == s.cols
  }

  /** `np.full([rows, cols], 0)`. */
  function Zeros(s: Shape): (m: seq<seq<real>>)
    ensures IsArray(m, s) && forall r, c :: 0 <= r < s.rows && 0 <= c < s.cols ==> m[r][c] == 0.0
  {
    seq(s.rows, _ => seq(s.cols, _ => 0.0))
  }

  /** `np.hstack([a, b])`: row by row, `a`'s columns then `b`'s. */
  function HStack(a: seq<seq<real>>, b: seq<seq<real>>): (m: seq<seq<real>>)
    requires |a| == |b|
    ensures |m| == |a| && forall r :: 0 <= r < |m| ==> m[r] == a[r] + b[r]
  {
    seq(|a|, (r: int) requires 0 <= r < |a| => a[r] + b[r])
  }

  /** Lines 78-85: pad the columns up to `BinSize`. */
  function PadColumns(m: seq<seq<real>>, s: Shape): (p: seq<seq<real>>)
    requires IsArray(m, s)
  {
    var (left, right) := PadAmounts(s.cols);
    HStack(HStack(Zeros(Shape(s.rows, left)), m), Zeros(Shape(s.rows, right)))
  }

  /** Lines 86-93: pad the rows up to `BinSize` (`np.vstack`). */
  function PadRows(m: seq<seq<real>>, s: Shape): (p: seq<seq<real>>)
    requires IsArray(m, s)
  {
    var (top, bottom) := PadAmounts(s.rows);
    Zeros(Shape(top, s.cols)) + m + Zeros(Shape(bottom, s.cols))
  }

  /** Lines 78-93: columns first, then rows. */
  function Pad(stamp: seq<seq<real>>, s: Shape): (p: seq<seq<real>>)
    requires IsArray(stamp, s)
  {
    var (left, right) := PadAmounts(s.cols);
    PadRows(PadColumns(stamp, s), Shape(s.rows, left + s.cols + right))
  }

  /** Padding along the columns keeps every pixel, shifted right by the left padding, and adds zeros. */
  lemma PadColumnsContents(m: seq<seq<real>>, s: Shape)
    ensures IsArray(m, s) ==>
      var (left, right) := PadAmounts(s.cols);
      var p := PadColumns(m, s);
      && IsArray(p, Shape(s.rows, left + s.cols + right))
      && (forall r, c :: 0 <= r < s.rows && 0 <= c < s.cols ==> p[r][left + c] == m[r][c])
      && (forall r, c :: 0 <= r < s.rows && 0 <= c < left + s.cols + right && !(left <= c < left + s.cols) ==>
            p[r][c] == 0.0)
  {
    if IsArray(m, s) {
      var (left, right) := PadAmounts(s.cols);
      var zl, zr := Zeros(Shape(s.rows, left)), Zeros(Shape(s.rows, right));
      var p := PadColumns(m, s);
      forall r | 0 <= r < s.rows ensures p[r] == zl[r] + m[r] + zr[r] {
      }
    }
  }

  /**
   * A stamp no larger than a cell comes out exactly `BinSize` square, with
   * every stamp pixel moved by the (floor) padding in front and zeros around it.
   */
  lemma PadContents(stamp: seq<seq<real>>, s: Shape)
    requires IsArray(stamp, s) && s.rows <= BinSize && s.cols <= BinSize
    ensures var p, top, left := Pad(stamp, s), PadAmounts(s.rows).0, PadAmounts(s.cols).0;
      && IsArray(p, Shape(BinSize, BinSize))
      && (forall r, c :: 0 <= r < s.rows && 0 <= c < s.cols ==> p[top + r][left + c] == stamp[r][c])
      && (forall r, c :: 0 <= r < BinSize && 0 <= c < BinSize && !(top <= r < top + s.rows && left <= c < left + s.cols) ==>
            p[r][c] == 0.0)
  {
    var p, top, left := Pad(stamp, s), PadAmounts(s.rows).0, PadAmounts(s.cols).0;
    PadPixel(stamp, s, 0, 0);
    forall r | 0 <= r < BinSize ensures |p[r]| == BinSize {
      PadPixel(stamp, s, r, 0);
    }
    forall r, c | 0 <= r < s.rows && 0 <= c < s.cols ensures p[top + r][left + c] == stamp[r][c] {
      PadPixel(stamp, s, top + r, left + c);
    }
    forall r, c | 0 <= r < BinSize && 0 <= c < BinSize && !(top <= r < top + s.rows && left <= c < left + s.cols)
      ensures p[r][c] == 0.0
    {
      PadPixel(stamp, s, r, c);
    }
  }

  /** One pixel of the padded stamp. */
  lemma PadPixel(stamp: seq<seq<real>>, s: Shape, r: nat, c: nat)
    requires IsArray(stamp, s) && s.rows <= BinSize && s.cols <= BinSize && r < BinSize && c < BinSize
    ensures var p, top, left := Pad(stamp, s), PadAmounts(s.rows).0, PadAmounts(s.cols).0;
      && |p| == BinSize && |p[r]| == BinSize
      && (top <= r < top + s.rows && left <= c < left + s.cols ==> p[r][c] == stamp[r - top][c - left])
      && (!(top <= r < top + s.rows && left <= c < left + s.cols) ==> p[r][c] == 0.0)
  {
    var top, left := PadAmounts(s.rows).0, PadAmounts(s.cols).0;
    PadRow(stamp, s, r);
    PadColumnsContents(stamp, s);
    if top <= r < top + s.rows && left <= c < left + s.cols {
      assert Pad(stamp, s)[r][c] == PadColumns(stamp, s)[r - top][left + (c - left)];
    }
  }

  /** Row `r` of the padded stamp: a zero row above or below the stamp, a column-padded stamp row within it. */
  lemma PadRow(stamp: seq<seq<real>>, s: Shape, r: nat)
    requires IsArray(stamp, s) && s.rows <= BinSize && s.cols <= BinSize && r < BinSize
    ensures var p, top := Pad(stamp, s), PadAmounts(s.rows).0;
      && |p| == BinSize
      && (top <= r < top + s.rows ==> p[r] == PadColumns(stamp, s)[r - top])
      && (!(top <= r < top + s.rows) ==> |p[r]| == BinSize && forall c :: 0 <= c < BinSize ==> p[r][c] == 0.0)
  {
    var (top, bottom) := PadAmounts(s.rows);
    var q := PadColumns(stamp, s);
    var zt, zb := Zeros(Shape(top, BinSize)), Zeros(Shape(bottom, BinSize));
    var p := Pad(stamp, s);
    PadColumnsContents(stamp, s);
    assert p == zt + q + zb;
    if r < top {
      assert p[r] == zt[r];
    } else if r < top + s.rows {
      assert p[r] == q[r - top];
    } else {
      assert p[r] == zb[r - top - s.rows];
    }
  }

  /**
   * Line 94: adding the padded stamp to a `BinSize` square tile. A stamp
   * larger than a cell is never cropped, and the shapes then disagree.
   */
  function AddToTile(stamp: Shape): (r: Result<Shape>)
    ensures r.Ok? <==> stamp.rows <= BinSize && stamp.cols <= BinSize
    ensures r.Ok? ==> r.value == Shape(BinSize, BinSize)
    ensures r.Err? ==> r.error == ShapeMismatch
  {
    if PaddedShape(stamp) == Shape(BinSize, BinSize) then Ok(PaddedShape(stamp)) else Err(ShapeMismatch)
  }

  // ----- The fake mask plane -----

  function Pow2(n: nat): (p: nat)
    ensures p >= 1
  {
    if n == 0 then 1 else 2 * Pow2(n - 1)
  }

  lemma {:induction false} Pow2Increasing(a: nat, b: nat)
    requires a < b
    ensures Pow2(a) < Pow2(b)
    decreases b
  {
    if a < b - 1 {
      Pow2Increasing(a, b - 1);
    }
  }

  function MaxOf(values: seq<nat>): (m: nat)
    requires |values| > 0
    ensures m in values && forall v :: v in values ==> v <= m
  {
    if |values| == 1 then values[0]
    else
      var rest := MaxOf(values[1..]);
      assert forall v :: v in values[1..] ==> v in values;
      assert forall v :: v in values ==> v == values[0] || v in values[1..];
      if values[0] >= rest then values[0] else rest
  }

  /**
   * Line 53: the fake plane is one above the highest plane in the mask header;
   * `np.max` of an empty list raises.
   */
  function FakePlane(maskVal: seq<nat>): (r: Result<nat>)
    ensures r.Err? <==> |maskVal| == 0
    ensures r.Err? ==> r.error == EmptyMaskPlanes
    ensures r.Ok? ==> r.value - 1 in maskVal && forall v :: v in maskVal ==> v < r.value
  {
    if |maskVal| == 0 then Err(EmptyMaskPlanes) else Ok(MaxOf(maskVal) + 1)
  }

  /** Line 76: the value written into the mask block is a bit above every existing plane's bit. */
  lemma FakeBitIsNew(maskVal: seq<nat>)
    requires |maskVal| > 0
    ensures forall v :: v in maskVal ==> Pow2(v) < Pow2(FakePlane(maskVal).value)
  {
    forall v | v in maskVal ensures Pow2(v) < Pow2(FakePlane(maskVal).value) {
      Pow2Increasing(v, FakePlane(maskVal).value);
    }
  }

  /** Which centre coordinate indexes the mask's rows. */
  datatype MaskLayout =
    | XFirst   // line 76 as written: `mask_array[xp-2:xp+3, yp-2:yp+3]`
    | YFirst   // the image's own `[y, x]` order of line 94

  /**
   * Line 76: the pixels of the 5x5 block around a cell's centre, as numpy
   * slicing clips them to the array's shape.
   */
  function MaskBlock(layout: MaskLayout, j: nat, k: nat, image: Shape): (block: set<(int, int)>)
    ensures forall p :: p in block ==> 0 <= p.0 < image.rows && 0 <= p.1 < image.cols
  {
    var (xp, yp) := Centre(j, k);
    var (r0, c0) := if layout == XFirst then (xp, yp) else (yp, xp);
    var half := MaskPix / 2;
    set r: int, c: int | r0 - half <= r < r0 + (1 + MaskPix / 2) && c0 - half <= c < c0 + (1 + MaskPix / 2)
                         && 0 <= r < image.rows && 0 <= c < image.cols :: (r, c)
  }

  /** As written, the block of an off-diagonal cell misses the pixels around its own star. */
  lemma MaskAsWrittenMissesStar(j: nat, k: nat, image: Shape, dr: int, dc: int)
    requires j != k && -2 <= dr <= 2 && -2 <= dc <= 2
    ensures (StarPixel(j, k).0 + dr, StarPixel(j, k).1 + dc) !in MaskBlock(XFirst, j, k, image)
  {
    if j < k {
      assert BinSize * j + BinSize <= BinSize * k;
    } else {
      assert BinSize * k + BinSize <= BinSize * j;
    }
  }

  /** On a 300-row, 600-column patch, the as-written block of cell (1, 0) falls off the image entirely. */
  lemma MaskAsWrittenEmptyOnWidePatch()
    ensures MaskBlock(XFirst, 1, 0, Shape(300, 600)) == {}
    ensures 1 < GridSize(Shape(300, 600)).0 && 0 < GridSize(Shape(300, 600)).1
  {
  }

  /** With the image's `[y, x]` order, the block covers the 5x5 pixels around every star of the grid. */
  lemma MaskIntendedCoversStar(j: nat, k: nat, image: Shape, dr: int, dc: int)
    requires j < GridSize(image).0 && k < GridSize(image).1
    requires -2 <= dr <= 2 && -2 <= dc <= 2
    ensures (StarPixel(j, k).0 + dr, StarPixel(j, k).1 + dc) in MaskBlock(YFirst, j, k, image)
  {
    TileInside(image, j, k);
  }

  // ----- One patch -----

  /** A row of the artificial-star catalog (line 102): sky position and magnitude. */
  datatype CatalogRow = CatalogRow(x: real, y: real, mag: real)

  /**
   * A patch: its image shape, the mask planes in its header, the PSF stamp
   * shape at each cell (`None` when `computeImage` raises
   * `InvalidParameterError`) and the pixel-to-sky conversion of its WCS.
   */
  datatype Patch = Patch(image: Shape, maskVal: seq<nat>, psf: (nat, nat) -> Option<Shape>,
                         pix2world: (real, real) -> (real, real))

  /** What one patch yields: the catalog and the pixels of the mask array set to the fake bit. */
  datatype Injected = Injected(catalog: seq<CatalogRow>, masked: set<(int, int)>)

  /** The cells whose PSF could be computed, in loop order. */
  function Successful(p: Patch, cells: seq<(nat, nat)>): (good: seq<(nat, nat)>)
    ensures |good| <= |cells|
    ensures forall c :: c in good <==> c in cells && p.psf(c.0, c.1).Some?
  {
    if |cells| == 0 then []
    else
      var rest := Successful(p, cells[1..]);
      assert forall c :: c in cells <==> c == cells[0] || c in cells[1..];
      if p.psf(cells[0].0, cells[0].1).Some? then [cells[0]] + rest else rest
  }

  /** The catalog row of a cell: the WCS position of its centre and the injected magnitude. */
  function RowAt(p: Patch, cell: (nat, nat), mag: real): CatalogRow {
    var (xp, yp) := Centre(cell.0, cell.1);
    var sky := p.pix2world(xp as real, yp as real);
    CatalogRow(sky.0, sky.1, mag)
  }

  /** Lines 64-100 over a list of cells: a cell whose PSF raises is skipped; a stamp too large aborts. */
  function InjectCells(p: Patch, cells: seq<(nat, nat)>, mag: real, layout: MaskLayout): (r: Result<Injected>)
    ensures r.Err? <==> exists c :: c in cells && p.psf(c.0, c.1).Some? && AddToTile(p.psf(c.0, c.1).value).Err?
    ensures r.Err? ==> r.error == ShapeMismatch
    ensures r.Ok? ==>
      var good := Successful(p, cells);
      && |r.value.catalog| == |good|
      && forall i :: 0 <= i < |good| ==> r.value.catalog[i] == RowAt(p, good[i], mag)
    ensures r.Ok? ==> forall q :: q in r.value.masked <==>
      exists c :: c in cells && p.psf(c.0, c.1).Some? && q in MaskBlock(layout, c.0, c.1, p.image)
  {
    if |cells| == 0 then Ok(Injected([], {}))
    else
      var rest := InjectCells(p, cells[1..], mag, layout);
      TooLargeCons(p, cells, mag, layout, rest);
      CatalogCons(p, cells, mag, layout, rest);
      MaskedCons(p, cells, mag, layout, rest);
      InjectCell(p, cells[0], mag, layout, rest)
  }

  /** One pass of the loop body in front of the rest of the cells. */
  function InjectCell(p: Patch, cell: (nat, nat), mag: real, layout: MaskLayout, rest: Result<Injected>): Result<Injected> {
    match p.psf(cell.0, cell.1)
    case None => rest
    case Some(stamp) =>
      if AddToTile(stamp).Err? then Err(ShapeMismatch)
      else if rest.Err? then rest
      else Ok(Injected([RowAt(p, cell, mag)] + rest.value.catalog,
                       MaskBlock(layout, cell.0, cell.1, p.image) + rest.value.masked))
  }

  /** The loop aborts on a cell iff the first cell's stamp is too large or one of the rest's is. */
  lemma TooLargeCons(p: Patch, cells: seq<(nat, nat)>, mag: real, layout: MaskLayout, rest: Result<Injected>)
    requires |cells| > 0
    requires rest.Err? <==> exists c :: c in cells[1..] && p.psf(c.0, c.1).Some? && AddToTile(p.psf(c.0, c.1).value).Err?
    requires rest.Err? ==> rest.error == ShapeMismatch
    ensures var r := InjectCell(p, cells[0], mag, layout, rest);
      && (r.Err? <==> exists c :: c in cells && p.psf(c.0, c.1).Some? && AddToTile(p.psf(c.0, c.1).value).Err?)
      && (r.Err? ==> r.error == ShapeMismatch)
  {
    assert forall c :: c in cells <==> c == cells[0] || c in cells[1..];
  }

  /** The first cell's row, when its PSF exists, goes in front of the rows of the rest. */
  lemma CatalogCons(p: Patch, cells: seq<(nat, nat)>, mag: real, layout: MaskLayout, rest: Result<Injected>)
    requires |cells| > 0
    requires rest.Ok? ==>
      var good := Successful(p, cells[1..]);
      && |rest.value.catalog| == |good|
      && forall i :: 0 <= i < |good| ==> rest.value.catalog[i] == RowAt(p, good[i], mag)
    ensures var r := InjectCell(p, cells[0], mag, layout, rest);
      r.Ok? ==>
        var good := Successful(p, cells);
        && |r.value.catalog| == |good|
        && forall i :: 0 <= i < |good| ==> r.value.catalog[i] == RowAt(p, good[i], mag)
  {
  }

  /** A cell in front of the list adds its mask block, when its PSF exists, to the union over the rest. */
  lemma MaskedCons(p: Patch, cells: seq<(nat, nat)>, mag: real, layout: MaskLayout, rest: Result<Injected>)
    requires |cells| > 0
    requires rest.Ok? ==> forall q :: q in rest.value.masked <==>
      exists c :: c in cells[1..] && p.psf(c.0, c.1).Some? && q in MaskBlock(layout, c.0, c.1, p.image)
    ensures var r := InjectCell(p, cells[0], mag, layout, rest);
      r.Ok? ==> forall q :: q in r.value.masked <==>
        exists c :: c in cells && p.psf(c.0, c.1).Some? && q in MaskBlock(layout, c.0, c.1, p.image)
  {
    assert forall c :: c in cells <==> c == cells[0] || c in cells[1..];
  }

  /**
   * Lines 37-113 for one patch: the fake plane from the header, then every
   * cell of the grid. A stamp too large for its cell aborts the patch;
   * otherwise the catalog has one row per cell whose PSF exists, in loop
   * order, each at the injected magnitude.
   */
  function InjectPatch(p: Patch, mag: real, layout: MaskLayout): (r: Result<(nat, Injected)>)
    ensures |p.maskVal| == 0 ==> r == Err(EmptyMaskPlanes)
    ensures r.Ok? ==> r.value.0 == FakePlane(p.maskVal).value
    ensures r.Ok? ==> forall row :: row in r.value.1.catalog ==> row.mag == mag
    ensures |p.maskVal| > 0 ==>
      var size := GridSize(p.image);
      && (r.Err? <==> exists c :: c in Cells(size.0, size.1) && p.psf(c.0, c.1).Some? && AddToTile(p.psf(c.0, c.1).value).Err?)
      && (r.Err? ==> r.error == ShapeMismatch)
    ensures r.Ok? ==>
      var size := GridSize(p.image);
      var good := Successful(p, Cells(size.0, size.1));
      && |r.value.1.catalog| == |good|
      && forall i :: 0 <= i < |good| ==> r.value.1.catalog[i] == RowAt(p, good[i], mag)
  {
    var plane :- FakePlane(p.maskVal);
    var size := GridSize(p.image);
    var injected :- InjectCells(p, Cells(size.0, size.1), mag, layout);
    Ok((plane, injected))
  }

  /** Lines 32-113: the patches in turn; an uncaught error ends the script with the earlier patches written. */
  function InjectAll(patches: seq<Patch>, mag: real, layout: MaskLayout): (out: (seq<Injected>, Option<Error>))
    ensures |out.0| <= |patches|
    ensures out.1.None? <==> |out.0| == |patches|
    ensures forall i :: 0 <= i < |out.0| ==> InjectPatch(patches[i], mag, layout).Ok? && InjectPatch(patches[i], mag, layout).value.1 == out.0[i]
    ensures out.1.Some? ==> InjectPatch(patches[|out.0|], mag, layout) == Err(out.1.value)
  {
    if |patches| == 0 then ([], None)
    else
      match InjectPatch(patches[0], mag, layout)
      case Err(e) => ([], Some(e))
      case Ok((_, injected)) =>
        var rest := InjectAll(patches[1..], mag, layout);
        ([injected] + rest.0, rest.1)
  }

  /** A patch whose every cell has a PSF no larger than a cell gets a star in every cell, in loop order. */
  lemma FullGrid(p: Patch, mag: real, layout: MaskLayout)
    requires |p.maskVal| > 0
    requires forall j: nat, k: nat :: p.psf(j, k).Some? && p.psf(j, k).value.rows <= BinSize && p.psf(j, k).value.cols <= BinSize
    ensures var size := GridSize(p.image);
      && InjectPatch(p, mag, layout).Ok?
      && Successful(p, Cells(size.0, size.1)) == Cells(size.0, size.1)
      && |InjectPatch(p, mag, layout).value.1.catalog| == size.0 * size.1
  {
    var size := GridSize(p.image);
    AllSuccessful(p, Cells(size.0, size.1));
  }

  lemma {:induction false} AllSuccessful(p: Patch, cells: seq<(nat, nat)>)
    requires forall c :: c in cells ==> p.psf(c.0, c.1).Some?
    ensures Successful(p, cells) == cells
  {
    if |cells| > 0 {
      assert forall c :: c in cells[1..] ==> c in cells;
      AllSuccessful(p, cells[1..]);
    }
  }
}

=== FILE: matches_table.dfy ===
/**
 * The results table `matches.csv` of `crossmatch.py`: the five statistics
 * columns of every filter, the one-row record a run produces, and how that
 * record is saved next to the rows of earlier runs.
 */
module MatchesTable {
  import opened Errors
  import Crossmatch

  /** A cell: the float columns (`_mag`, `_ratio`, `_ratio_err`) and the integer ones (`_matches`, `_total`). */
  datatype Value = Real(x: real) | Count(n: int)

  /** A row is keyed by column name, because pandas aligns appended rows by name, not by position. */
  type Row = map<string, Value>

  /** `row` holds `v` in column `c`. */
  predicate HasCell(row: Row, c: string, v: Value) {
    c in row && row[c] == v
  }

  /** A table: its header in order and its rows. The run key is not kept: the file is written with `index=False`. */
  datatype Table = Table(columns: seq<string>, rows: seq<Row>)

  /** What a run leaves on disk: `matches.csv`, and `matches_copy.csv` if it made one. */
  datatype Saved = Saved(matches: Table, copy: Option<Table>)

  const Suffixes: seq<string> := ["_mag", "_matches", "_total", "_ratio", "_ratio_err"]

  /** The five columns of one filter, in the order of lines 62-63. */
  function FilterColumns(f: string): (cols: seq<string>)
    ensures |cols| == 5
    ensures forall t :: 0 <= t < 5 ==> cols[t] == f + Suffixes[t]
  {
    [f + "_mag", f + "_matches", f + "_total", f + "_ratio", f + "_ratio_err"]
  }

  /** Lines 60-63: the record's columns, five per filter, filters in configuration order. */
  function StatsColumns(filters: seq<string>): (cols: seq<string>)
    ensures |cols| == 5 * |filters|
    ensures forall i :: 0 <= i < |filters| ==> cols[5 * i..5 * i + 5] == FilterColumns(filters[i])
  {
    if |filters| == 0 then []
    else
      var head, rest := FilterColumns(filters[0]), StatsColumns(filters[1..]);
      assert (head + rest)[..5] == head;
      assert forall i :: 1 <= i < |filters| ==>
        (head + rest)[5 * i..5 * i + 5] == rest[5 * (i - 1)..5 * (i - 1) + 5] && filters[i] == filters[1..][i - 1];
      head + rest
  }

  /** The names in a header, order and repeats ignored. */
  function NameSet(cols: seq<string>): set<string> {
    set c | c in cols
  }

  function ColumnSet(t: Table): set<string> {
    NameSet(t.columns)
  }

  /** Every row has a value for exactly the table's columns. */
  ghost predicate WellFormed(t: Table) {
    forall k :: 0 <= k < |t.rows| ==> t.rows[k].Keys == ColumnSet(t)
  }

  /** Lines 76 and 101-104: the entries one filter adds to the `matches` dictionary. */
  function StatsEntries(f: string, s: Crossmatch.FilterStats): (r: Row)
    ensures r.Keys == NameSet(FilterColumns(f))
    ensures r[f + "_mag"] == Real(s.mag) && r[f + "_matches"] == Count(s.matches) && r[f + "_total"] == Count(s.total)
    ensures r[f + "_ratio"] == Real(s.ratio) && r[f + "_ratio_err"] == Real(s.ratioErr)
  {
    assert (f + "_total")[|f| + 1] == 't' && (f + "_ratio")[|f| + 1] == 'r';
    map[f + "_mag" := Real(s.mag),
        f + "_total" := Count(s.total),
        f + "_matches" := Count(s.matches),
        f + "_ratio" := Real(s.ratio),
        f + "_ratio_err" := Real(s.ratioErr)]
  }

  /** The `matches` dictionary after the loop: every processed filter's entries, a later filter's overriding. */
  function Entries(results: seq<(string, Crossmatch.FilterStats)>): Row
  {
    if |results| == 0 then map[]
    else
      var last := results[|results| - 1];
      Entries(results[..|results| - 1]) + StatsEntries(last.0, last.1)
  }

  lemma StatsKeys(f: string, s: Crossmatch.FilterStats, c: string)
    ensures c in StatsEntries(f, s) <==> c in FilterColumns(f)
  {
  }

  /** Every column of a processed filter is a key of the dictionary. */
  lemma {:induction false} EntriesHas(results: seq<(string, Crossmatch.FilterStats)>, i: nat, c: string)
    requires i < |results| && c in FilterColumns(results[i].0)
    ensures c in Entries(results)
  {
    var init, last := results[..|results| - 1], results[|results| - 1];
    if i == |results| - 1 {
      StatsKeys(last.0, last.1, c);
    } else {
      assert init[i] == results[i];
      EntriesHas(init, i, c);
    }
  }

  /** Every key of the dictionary is a column of some processed filter. */
  lemma {:induction false} EntriesOwner(results: seq<(string, Crossmatch.FilterStats)>, c: string) returns (i: nat)
    requires c in Entries(results)
    ensures i < |results| && c in FilterColumns(results[i].0)
  {
    var init, last := results[..|results| - 1], results[|results| - 1];
    if c in StatsEntries(last.0, last.1) {
      StatsKeys(last.0, last.1, c);
      i := |results| - 1;
    } else {
      i := EntriesOwner(init, c);
      assert init[i] == results[i];
    }
  }

  /** The dictionary has a key exactly for the columns of the processed filters. */
  lemma EntriesKeys(results: seq<(string, Crossmatch.FilterStats)>, c: string)
    ensures c in Entries(results) <==> exists i :: 0 <= i < |results| && c in FilterColumns(results[i].0)
  {
    if c in Entries(results) {
      var i := EntriesOwner(results, c);
    }
    if i :| 0 <= i < |results| && c in FilterColumns(results[i].0) {
      EntriesHas(results, i, c);
    }
  }

  /** The first column of `cols` that `entries` lacks. */
  function FirstMissing(cols: seq<string>, entries: Row): (r: Option<string>)
    ensures r.None? <==> forall i :: 0 <= i < |cols| ==> cols[i] in entries
    ensures r.Some? ==> r.value in cols && r.value !in entries
  {
    if |cols| == 0 then None
    else if cols[0] !in entries then Some(cols[0])
    else
      var r := FirstMissing(cols[1..], entries);
      assert forall i :: 1 <= i < |cols| ==> cols[i] == cols[1..][i - 1];
      r
  }

  /**
   * Line 107: the one-row frame restricted to `columns`. Selecting a column the
   * dictionary lacks raises `KeyError`.
   */
  function AssembleRecord(filters: seq<string>, entries: Row): (r: Result<Table>)
    ensures r.Ok? <==> forall i :: 0 <= i < |StatsColumns(filters)| ==> StatsColumns(filters)[i] in entries
    ensures r.Err? ==> r.error.KeyError? && r.error.key in StatsColumns(filters) && r.error.key !in entries
    ensures r.Ok? ==> r.value.columns == StatsColumns(filters) && |r.value.rows| == 1 && WellFormed(r.value)
    ensures r.Ok? ==> forall c :: c in r.value.columns ==> r.value.rows[0][c] == entries[c]
  {
    var cols := StatsColumns(filters);
    match FirstMissing(cols, entries)
    case Some(c) => Err(KeyError(c))
    case None =>
      var row := map c | c in cols :: entries[c];
      Ok(Table(cols, [row]))
  }

  /**
   * Lines 111-124. With no file the record is the table. With the same column
   * set (order ignored) the record is appended under the prior header. With a
   * different set the prior table is copied to `matches_copy.csv` and replaced by
   * the record alone.
   */
  function Persist(existing: Option<Table>, record: Table): (s: Saved)
    ensures existing.None? ==> s == Saved(record, None)
    ensures existing.Some? && ColumnSet(existing.value) == ColumnSet(record) ==>
      s.copy == None && s.matches == Table(existing.value.columns, existing.value.rows + record.rows)
    ensures existing.Some? && ColumnSet(existing.value) != ColumnSet(record) ==> s == Saved(record, existing)
  {
    match existing
    case None => Saved(record, None)
    case Some(prior) =>
      if ColumnSet(prior) != ColumnSet(record) then Saved(record, Some(prior))
      else Saved(Table(prior.columns, prior.rows + record.rows), None)
  }

  /**
   * Whatever the branch, the new rows end `matches.csv`, every prior row is kept
   * either in `matches.csv` (in front, unchanged) or in the copy, and a table
   * whose rows match its header stays that way.
   */
  lemma PersistKeepsEverything(existing: Option<Table>, record: Table)
    ensures var s := Persist(existing, record);
      && |record.rows| <= |s.matches.rows|
      && s.matches.rows[|s.matches.rows| - |record.rows|..] == record.rows
      && (existing.Some? ==> s.copy == existing || s.matches.rows[..|existing.value.rows|] == existing.value.rows)
      && (s.copy.Some? <==> existing.Some? && ColumnSet(existing.value) != ColumnSet(record))
    ensures WellFormed(record) && (existing.Some? ==> WellFormed(existing.value)) ==>
      WellFormed(Persist(existing, record).matches)
  {
    var s := Persist(existing, record);
    if existing.Some? && ColumnSet(existing.value) == ColumnSet(record) {
      var prior := existing.value;
      assert s.matches.rows == prior.rows + record.rows;
      if WellFormed(record) && WellFormed(prior) {
        forall k | 0 <= k < |s.matches.rows| ensures s.matches.rows[k].Keys == ColumnSet(s.matches) {
          if k < |prior.rows| {
            assert s.matches.rows[k] == prior.rows[k];
          } else {
            assert s.matches.rows[k] == record.rows[k - |prior.rows|];
          }
        }
      }
    }
  }

  /** Appending is not de-duplicated: saving the same record twice leaves it twice. */
  lemma PersistTwiceKeepsBoth(prior: Table, record: Table)
    requires ColumnSet(prior) == ColumnSet(record)
    ensures Persist(Some(Persist(Some(prior), record).matches), record)
         == Saved(Table(prior.columns, prior.rows + record.rows + record.rows), None)
  {
    var first := Persist(Some(prior), record).matches;
    assert ColumnSet(first) == ColumnSet(prior);
  }
}

=== FILE: numbers.dfy ===
/** Facts about real arithmetic that the proofs about counts, ratios and magnitudes share. */
module Numbers {

  function Abs(x: real): (r: real)
    ensures r >= 0.0 && (r == x || r == -x)
  {
    if x < 0.0 then -x else x
  }

  lemma MulStrict(a: real, b: real, t: real)
    requires a < b && 0.0 < t
    ensures a * t < b * t
  {
  }

  /** For non-negative numbers, squaring keeps the order. */
  lemma SquareLt(a: real, b: real)
    requires 0.0 <= a < b
    ensures a * a < b * b
  {
    var d := b - a;
    assert b * b == (a + d) * (a + d) == a * a + 2.0 * a * d + d * d;
    MulStrict(0.0, d, d);
    assert 0.0 <= a * d;
  }

  lemma SquareLe(a: real, b: real)
    requires 0.0 <= a <= b
    ensures a * a <= b * b
  {
    if a < b {
      SquareLt(a, b);
    }
  }
}

=== FILE: output_catalog.dfy ===
/**
 * `outputCatalog.py`: for every filter, read the forced-photometry sources and
 * the measurement flags of one patch from the pipeline's data store, turn
 * fluxes into magnitudes, keep the rows with positive flux and write them to
 * `output_{f}_{magstring}.csv`. The data store and the directory listing are
 * parameters; `log10` is a parameter whose only assumed law is monotonicity.
 */
module OutputCatalog {
  import opened Errors
  import opened Catalogs
  import opened Numbers

  /** Line 13. */
  const Zeropoint: real := 27.0

  /** `np.log(10)` as the double it evaluates to. */
  const Ln10: real := 2.302585092994046

  /** What lines 67-71 read from one forced-photometry source. */
  datatype Source = Source(id: int, ra: real, dec: real, flux: real, fluxErr: real)

  ghost predicate Log10Increasing(log10: real -> real) {
    forall a: real, b: real :: 0.0 < a < b ==> log10(a) < log10(b)
  }

  /** Line 83: the PSF magnitude on the zeropoint-27 scale. */
  function Magnitude(flux: real, log10: real -> real): real {
    -2.5 * log10(flux) + Zeropoint
  }

  /** Line 84, for a kept row: the magnitude error propagated from the flux error. */
  function MagnitudeError(flux: real, fluxErr: real): (e: real)
    requires flux > 0.0
    ensures e >= 0.0
    ensures e * (Ln10 * flux) == 2.5 * Abs(fluxErr)
  {
    var scale := 2.5 / (Ln10 * flux);
    assert scale * (Ln10 * flux) == 2.5;
    assert Abs(-scale * fluxErr) == scale * Abs(fluxErr);
    Abs(-2.5 / (Ln10 * flux) * fluxErr)
  }

  /** A brighter source gets a strictly smaller magnitude. */
  lemma BrighterIsSmallerMagnitude(flux1: real, flux2: real, log10: real -> real)
    requires Log10Increasing(log10)
    requires 0.0 < flux1 < flux2
    ensures Magnitude(flux2, log10) < Magnitude(flux1, log10)
  {
    assert log10(flux1) < log10(flux2);
  }

  /** Lines 85-91: the output row of one source; `flag` is the measurement's fake-centre flag. */
  function RowOf(s: Source, flag: bool, log10: real -> real): Detected
    requires s.flux > 0.0
  {
    Detected(s.id, s.ra, s.dec, Magnitude(s.flux, log10), MagnitudeError(s.flux, s.fluxErr), flag)
  }

  /** Line 75: a row is kept when its flux is positive; the flag plays no part. */
  predicate Kept(s: Source) {
    s.flux > 0.0
  }

  /** How many sources are kept. */
  function KeptCount(sources: seq<Source>): (n: nat)
    ensures n <= |sources|
  {
    if |sources| == 0 then 0
    else KeptCount(sources[..|sources| - 1]) + (if Kept(sources[|sources| - 1]) then 1 else 0)
  }

  /** Line 94: `DataFrame(data).loc[mask]` for columns of equal length. */
  function Select(sources: seq<Source>, flags: seq<bool>, log10: real -> real): (rows: seq<Detected>)
    requires |sources| == |flags|
    ensures |rows| == KeptCount(sources)
  {
    if |sources| == 0 then []
    else
      var n := |sources| - 1;
      var prefix := Select(sources[..n], flags[..n], log10);
      if Kept(sources[n]) then prefix + [RowOf(sources[n], flags[n], log10)] else prefix
  }

  /**
   * Lines 67-73 and 94: the columns are built from `sources` and from `meas`;
   * columns of different lengths cannot form one frame.
   */
  function BuildTable(sources: seq<Source>, flags: seq<bool>, log10: real -> real): (r: Result<seq<Detected>>)
    ensures r.Err? <==> |sources| != |flags|
    ensures r.Err? ==> r.error == LengthMismatch
    ensures r.Ok? ==> |r.value| <= |sources|
  {
    if |sources| != |flags| then Err(LengthMismatch) else Ok(Select(sources, flags, log10))
  }

  // ----- What the selection keeps -----

  lemma {:induction false} KeptCountAppend(a: seq<Source>, b: seq<Source>)
    ensures KeptCount(a + b) == KeptCount(a) + KeptCount(b)
    decreases |b|
  {
    if |b| == 0 {
      assert a + b == a;
    } else {
      var n := |b| - 1;
      assert (a + b)[..|a + b| - 1] == a + b[..n];
      assert (a + b)[|a + b| - 1] == b[n];
      KeptCountAppend(a, b[..n]);
    }
  }

  /** Selecting from two stretches of the catalog is selecting from each in turn: the order is kept. */
  lemma {:induction false} SelectAppend(a: seq<Source>, fa: seq<bool>, b: seq<Source>, fb: seq<bool>, log10: real -> real)
    requires |a| == |fa| && |b| == |fb|
    ensures Select(a + b, fa + fb, log10) == Select(a, fa, log10) + Select(b, fb, log10)
    decreases |b|
  {
    if |b| == 0 {
      assert a + b == a && fa + fb == fa;
    } else {
      var n := |b| - 1;
      assert (a + b)[..|a + b| - 1] == a + b[..n];
      assert (fa + fb)[..|fa + fb| - 1] == fa + fb[..n];
      assert (a + b)[|a + b| - 1] == b[n] && (fa + fb)[|fa + fb| - 1] == fb[n];
      SelectAppend(a, fa, b[..n], fb[..n], log10);
    }
  }

  /**
   * The kept source at index `i` lands at position `KeptCount(sources[..i])`
   * with its id, coordinates and flag unchanged and its magnitudes computed
   * from its flux. As the positions of kept sources increase with `i` and
   * there are `KeptCount(sources)` rows, the output is the kept sources in
   * catalog order.
   */
  lemma {:induction false} SelectAt(sources: seq<Source>, flags: seq<bool>, log10: real -> real, i: nat)
    requires |sources| == |flags| && i < |sources| && Kept(sources[i])
    ensures var rows, k := Select(sources, flags, log10), KeptCount(sources[..i]);
      && k < |rows|
      && rows[k].id == sources[i].id && rows[k].ra == sources[i].ra && rows[k].dec == sources[i].dec
      && rows[k].flag == flags[i]
      && rows[k].mag == Magnitude(sources[i].flux, log10)
      && rows[k].magErr == MagnitudeError(sources[i].flux, sources[i].fluxErr)
    decreases |sources|
  {
    var n := |sources| - 1;
    var prefix := Select(sources[..n], flags[..n], log10);
    if i == n {
      assert |prefix| == KeptCount(sources[..i]);
    } else {
      assert sources[..n][..i] == sources[..i];
      assert sources[..n][i] == sources[i] && flags[..n][i] == flags[i];
      SelectAt(sources[..n], flags[..n], log10, i);
    }
  }

  /** Kept sources take strictly increasing positions. */
  lemma KeptPositionsIncrease(sources: seq<Source>, i: nat, j: nat)
    requires i < j <= |sources| && Kept(sources[i])
    ensures KeptCount(sources[..i]) < KeptCount(sources[..j])
  {
    assert sources[..j] == sources[..i] + sources[i..j];
    KeptCountAppend(sources[..i], sources[i..j]);
    assert sources[i..j] == [sources[i]] + sources[i + 1..j];
    KeptCountAppend([sources[i]], sources[i + 1..j]);
    assert [sources[i]][..0] == [];
  }

  /** A row is in the output exactly when it comes from a source with positive flux. */
  lemma {:induction false} SelectMembership(sources: seq<Source>, flags: seq<bool>, log10: real -> real, d: Detected)
    requires |sources| == |flags|
    ensures d in Select(sources, flags, log10) <==>
      exists i :: 0 <= i < |sources| && Kept(sources[i]) && d == RowOf(sources[i], flags[i], log10)
    decreases |sources|
  {
    if |sources| > 0 {
      var n := |sources| - 1;
      SelectMembership(sources[..n], flags[..n], log10, d);
      assert forall i :: 0 <= i < n ==> sources[..n][i] == sources[i] && flags[..n][i] == flags[i];
    }
  }

  /** The fake-centre flag is carried, not filtered on: other flags give the same rows but for the `flag` column. */
  lemma {:induction false} FlagsDoNotFilter(sources: seq<Source>, flags1: seq<bool>, flags2: seq<bool>, log10: real -> real)
    requires |sources| == |flags1| == |flags2|
    ensures var rows1, rows2 := Select(sources, flags1, log10), Select(sources, flags2, log10);
      |rows1| == |rows2| && forall k :: 0 <= k < |rows1| ==> rows1[k].(flag := rows2[k].flag) == rows2[k]
    decreases |sources|
  {
    if |sources| > 0 {
      var n := |sources| - 1;
      FlagsDoNotFilter(sources[..n], flags1[..n], flags2[..n], log10);
    }
  }

  // ----- The loop over filters -----

  /** Line 35: the butler data id. */
  datatype DataId = DataId(tract: int, patch: string, filter: string)

  /** The configuration values `main` uses (lines 18-25), after `normpath`. */
  datatype OutputConfig = OutputConfig(outputDir: string, filters: seq<string>, tract: int)

  /**
   * The pipeline's data store and file system. `listdir` lists
   * `{hscdir}/deepCoadd-results/{f}/{tract}/`, `None` for a missing directory;
   * `forced` and `meas` are the two `butler.get` calls, `None` when the data
   * set cannot be read.
   */
  datatype Store = Store(listdir: (string, int) -> Option<seq<string>>,
                         forced: DataId -> Option<seq<Source>>,
                         meas: DataId -> Option<seq<bool>>)

  /** Lines 33-35: every directory entry in turn overwrites `data_id`; the variable outlives the loop. */
  function PatchLoop(entries: seq<string>, tract: int, f: string, current: Option<DataId>): (id: Option<DataId>)
    ensures |entries| > 0 ==> id == Some(DataId(tract, entries[|entries| - 1], f))
    ensures |entries| == 0 ==> id == current
  {
    if |entries| == 0 then current
    else PatchLoop(entries[1..], tract, f, Some(DataId(tract, entries[0], f)))
  }

  /** One written file. */
  datatype OutputFile = OutputFile(path: string, rows: seq<Detected>)

  /** The files written before the run stopped, and the error that stopped it, if any. */
  datatype Outcome = Outcome(files: seq<OutputFile>, error: Option<Error>)

  /** Lines 28-96 for one filter; `current` is the `data_id` left by the previous filter. */
  function OutputFilter(cfg: OutputConfig, f: string, magstring: string, store: Store, log10: real -> real,
                        current: Option<DataId>): (r: Result<(DataId, OutputFile)>)
    ensures r.Ok? ==> r.value.1.path == OutputPath(cfg.outputDir, f, magstring)
    ensures store.listdir(f, cfg.tract).None? <==> r == Err(NoPatchDirectory(f, cfg.tract))
    ensures r.Ok? ==>
      && store.listdir(f, cfg.tract).Some?
      && var entries := store.listdir(f, cfg.tract).value;
      && Some(r.value.0) == (if |entries| > 0 then Some(DataId(cfg.tract, entries[|entries| - 1], f)) else current)
      && store.forced(r.value.0).Some? && store.meas(r.value.0).Some?
      && |store.forced(r.value.0).value| == |store.meas(r.value.0).value|
      && r.value.1.rows == Select(store.forced(r.value.0).value, store.meas(r.value.0).value, log10)
  {
    match store.listdir(f, cfg.tract)
    case None => Err(NoPatchDirectory(f, cfg.tract))
    case Some(entries) =>
      match PatchLoop(entries, cfg.tract, f, current)
      case None => Err(UnboundDataId)
      case Some(id) =>
        match store.forced(id)
        case None => Err(DataAccess(id.patch))
        case Some(sources) =>
          match store.meas(id)
          case None => Err(DataAccess(id.patch))
          case Some(flags) =>
            var rows :- BuildTable(sources, flags, log10);
            Ok((id, OutputFile(OutputPath(cfg.outputDir, f, magstring), rows)))
  }

  /** Lines 27-96: filters in configuration order; the first error ends the script. */
  function OutputAll(cfg: OutputConfig, filters: seq<string>, magstring: string, store: Store, log10: real -> real,
                     current: Option<DataId>): (out: Outcome)
    ensures |out.files| <= |filters|
    ensures out.error.None? <==> |out.files| == |filters|
    ensures forall i :: 0 <= i < |out.files| ==> out.files[i].path == OutputPath(cfg.outputDir, filters[i], magstring)
    ensures forall i :: 0 <= i < |out.files| ==> ReadFrom(store, IdAfter(store, cfg.tract, filters[..i + 1], current), out.files[i], log10)
  {
    if |filters| == 0 then Outcome([], None)
    else
      match OutputFilter(cfg, filters[0], magstring, store, log10, current)
      case Err(e) => Outcome([], Some(e))
      case Ok((id, file)) =>
        var rest := OutputAll(cfg, filters[1..], magstring, store, log10, Some(id));
        RowsCons(cfg, filters, magstring, store, log10, current, id, file, rest.files);
        Outcome([file] + rest.files, rest.error)
  }

  /**
   * The file holds the positive-flux rows of the catalogs of `id`, both of
   * which the store supplies, with as many measurement flags as sources.
   */
  ghost predicate ReadFrom(store: Store, id: Option<DataId>, file: OutputFile, log10: real -> real) {
    && id.Some? && store.forced(id.value).Some? && store.meas(id.value).Some?
    && |store.forced(id.value).value| == |store.meas(id.value).value|
    && file.rows == Select(store.forced(id.value).value, store.meas(id.value).value, log10)
  }

  /** The first filter's file in front of the later ones keeps every file tied to the `data_id` it was read from. */
  lemma RowsCons(cfg: OutputConfig, filters: seq<string>, magstring: string, store: Store, log10: real -> real,
                 current: Option<DataId>, id: DataId, file: OutputFile, files: seq<OutputFile>)
    requires |filters| > 0 && OutputFilter(cfg, filters[0], magstring, store, log10, current) == Ok((id, file))
    requires |files| < |filters|
    requires forall i :: 0 <= i < |files| ==> ReadFrom(store, IdAfter(store, cfg.tract, filters[1..][..i + 1], Some(id)), files[i], log10)
    ensures forall i :: 0 <= i < |[file] + files| ==>
      ReadFrom(store, IdAfter(store, cfg.tract, filters[..i + 1], current), ([file] + files)[i], log10)
  {
    var all := [file] + files;
    assert NextId(store, cfg.tract, filters[0], current) == Some(id);
    IdAfterCons(store, cfg.tract, filters, current, id);
    assert ReadFrom(store, IdAfter(store, cfg.tract, filters[..1], current), all[0], log10);
    forall i | 0 < i < |all|
      ensures ReadFrom(store, IdAfter(store, cfg.tract, filters[..i + 1], current), all[i], log10)
    {
      assert all[i] == files[i - 1];
      assert ReadFrom(store, IdAfter(store, cfg.tract, filters[1..][..(i - 1) + 1], Some(id)), files[i - 1], log10);
    }
  }

  /** The `data_id` after one filter's patch loop; a directory that cannot be listed raises before the loop. */
  function NextId(store: Store, tract: int, f: string, current: Option<DataId>): Option<DataId> {
    match store.listdir(f, tract)
    case None => current
    case Some(entries) => PatchLoop(entries, tract, f, current)
  }

  /** The `data_id` left after the patch loops of `filters`, in order. */
  function IdAfter(store: Store, tract: int, filters: seq<string>, current: Option<DataId>): Option<DataId>
    decreases |filters|
  {
    if |filters| == 0 then current
    else IdAfter(store, tract, filters[1..], NextId(store, tract, filters[0], current))
  }

  /** After a first filter that leaves `id`, the id after the first `i + 1` filters is the id after the next `i` from `id`. */
  lemma IdAfterCons(store: Store, tract: int, filters: seq<string>, current: Option<DataId>, id: DataId)
    requires |filters| > 0 && NextId(store, tract, filters[0], current) == Some(id)
    ensures IdAfter(store, tract, filters[..1], current) == Some(id)
    ensures forall i :: 0 < i < |filters| ==>
      IdAfter(store, tract, filters[..i + 1], current) == IdAfter(store, tract, filters[1..][..i], Some(id))
  {
    assert filters[..1][1..] == [];
    forall i | 0 < i < |filters|
      ensures IdAfter(store, tract, filters[..i + 1], current) == IdAfter(store, tract, filters[1..][..i], Some(id))
    {
      assert filters[..i + 1][1..] == filters[1..][..i];
    }
  }

  /** `main`: no `data_id` exists before the first filter. */
  function Run(cfg: OutputConfig, magstring: string, store: Store, log10: real -> real): Outcome {
    OutputAll(cfg, cfg.filters, magstring, store, log10, None)
  }

  /** A filter whose patch directory is empty, as the first filter, leaves `data_id` unbound: nothing is written. */
  lemma EmptyFirstDirectory(cfg: OutputConfig, magstring: string, store: Store, log10: real -> real)
    requires |cfg.filters| > 0 && store.listdir(cfg.filters[0], cfg.tract) == Some([])
    ensures Run(cfg, magstring, store, log10) == Outcome([], Some(UnboundDataId))
  {
  }

  /**
   * Only the last directory entry is read: the first file holds exactly the
   * positive-flux rows of that one patch.
   */
  lemma FirstFileReadsLastPatch(cfg: OutputConfig, magstring: string, store: Store, log10: real -> real)
    requires |cfg.filters| > 0 && |Run(cfg, magstring, store, log10).files| > 0
    ensures var f := cfg.filters[0];
      && store.listdir(f, cfg.tract).Some? && |store.listdir(f, cfg.tract).value| > 0
      && var entries := store.listdir(f, cfg.tract).value;
      && var id := DataId(cfg.tract, entries[|entries| - 1], f);
      && store.forced(id).Some? && store.meas(id).Some?
      && |store.forced(id).value| == |store.meas(id).value|
      && Run(cfg, magstring, store, log10).files[0].rows == Select(store.forced(id).value, store.meas(id).value, log10)
  {
  }

  /**
   * A later filter with an empty patch directory reuses the previous filter's
   * `data_id`, filter name included: its file holds the previous filter's rows
   * under the new filter's name.
   */
  lemma EmptyLaterDirectoryRepeatsPrevious(cfg: OutputConfig, magstring: string, store: Store, log10: real -> real)
    requires |cfg.filters| >= 2 && store.listdir(cfg.filters[1], cfg.tract) == Some([])
    requires |Run(cfg, magstring, store, log10).files| >= 2
    ensures var files := Run(cfg, magstring, store, log10).files;
      && files[1].rows == files[0].rows
      && files[1].path == OutputPath(cfg.outputDir, cfg.filters[1], magstring)
  {
    var f, g := cfg.filters[0], cfg.filters[1];
    var first := OutputFilter(cfg, f, magstring, store, log10, None);
    assert first.Ok?;
    var id := first.value.0;
    assert cfg.filters[1..][0] == g;
    var rest := OutputAll(cfg, cfg.filters[1..], magstring, store, log10, Some(id));
    assert Run(cfg, magstring, store, log10).files == [first.value.1] + rest.files;
    var second := OutputFilter(cfg, g, magstring, store, log10, Some(id));
    assert second.Ok? && second.value.0 == id;
    assert rest.files[0] == second.value.1;
  }
}

=== FILE: paths.dfy ===
/**
 * The `os.path` functions the job-file builders use, for POSIX paths.
 * `normpath` is modelled only for `CleanPath` paths, optionally followed by
 * slashes: paths without `.`, `..` or empty components, where all it does is
 * drop trailing slashes.
 */
module Paths {

  predicate AllSlashes(s: string) {
    forall i :: 0 <= i < |s| ==> s[i] == '/'
  }

  /** The position just after the last `/` of `p`, or 0 when `p` has none. */
  function SlashEnd(p: string): (r: nat)
    ensures r <= |p|
    ensures r > 0 ==> p[r - 1] == '/'
    ensures forall i :: r <= i < |p| ==> p[i] != '/'
  {
    if |p| == 0 then 0 else if p[|p| - 1] == '/' then |p| else SlashEnd(p[..|p| - 1])
  }

  /** `s.rstrip('/')`: the longest prefix of `s` that does not end in a slash. */
  function StripSlashes(s: string): (r: string)
    ensures |r| <= |s| && r == s[..|r|]
    ensures r == [] || r[|r| - 1] != '/'
    ensures forall i :: |r| <= i < |s| ==> s[i] == '/'
  {
    if |s| == 0 || s[|s| - 1] != '/' then s else StripSlashes(s[..|s| - 1])
  }

  /** `os.path.basename(p)`: everything after the last slash. */
  function Basename(p: string): string
  {
    p[SlashEnd(p)..]
  }

  /** `os.path.dirname(p)`: everything up to the last slash, without trailing slashes unless that leaves only the root. */
  function Dirname(p: string): string
  {
    var head := p[..SlashEnd(p)];
    if head != "" && !AllSlashes(head) then StripSlashes(head) else head
  }

  /** A path component `normpath` keeps as it is: not empty, no slash, and neither `.` nor `..`. */
  predicate PlainComponent(c: string) {
    c != "" && '/' !in c && c != "." && c != ".."
  }

  /**
   * A path `normpath` leaves unchanged: plain components joined by single
   * slashes, with at most one leading slash and no trailing one.
   */
  predicate CleanPath(p: string)
    decreases |p|
  {
    var e := SlashEnd(p);
    && PlainComponent(p[e..])
    && (e == 0 || e == 1 || CleanPath(p[..e - 1]))
  }

  /** A clean path is not empty and does not end in a slash. */
  lemma CleanPathEnd(p: string)
    requires CleanPath(p)
    ensures p != "" && p[|p| - 1] != '/'
  {
    var e := SlashEnd(p);
    assert p[|p| - 1] == p[e..][|p| - 1 - e];
  }

  /** A plain component after the root is a clean path. */
  lemma CleanPathRoot(c: string)
    requires PlainComponent(c)
    ensures CleanPath("/" + c)
  {
    var p := "/" + c;
    assert p[0] == '/';
    assert forall i :: 0 < i < |p| ==> p[i] == c[i - 1];
    assert SlashEnd(p) == 1;
    assert p[1..] == c;
  }

  /** A clean path followed by a plain component is clean. */
  lemma CleanPathAppend(d: string, c: string)
    requires CleanPath(d) && PlainComponent(c)
    ensures CleanPath(d + "/" + c)
  {
    var p := d + "/" + c;
    CleanPathEnd(d);
    assert p[|d|] == '/';
    assert forall i :: |d| < i < |p| ==> p[i] == c[i - |d| - 1];
    assert SlashEnd(p) == |d| + 1;
    assert p[|d| + 1..] == c && p[..|d|] == d;
  }

  /** `os.path.normpath(p)` for the paths described above. */
  function NormPath(p: string): string
  {
    if p == "" then "."
    else
      var r := StripSlashes(p);
      if r == "" then "/" else r
  }

  /** A path `d/b` with a plain last component splits back into `d` and `b`. */
  lemma SplitPath(d: string, b: string)
    requires d != "" && d[|d| - 1] != '/'
    requires '/' !in b
    ensures Dirname(d + "/" + b) == d
    ensures Basename(d + "/" + b) == b
  {
    var p := d + "/" + b;
    var n := |d|;
    assert p[n] == '/';
    assert forall i :: n < i < |p| ==> p[i] == b[i - n - 1];
    var e := SlashEnd(p);
    assert e == n + 1;
    var head := p[..e];
    assert head == d + "/";
    assert head[n - 1] != '/';
    var r := StripSlashes(head);
    assert |r| == n;
    assert p[e..] == b;
  }

  /** Normalising drops one trailing slash and leaves a path without one unchanged. */
  lemma NormPathTrailing(q: string)
    requires CleanPath(q)
    ensures NormPath(q) == q
    ensures NormPath(q + "/") == q
  {
    CleanPathEnd(q);
    var r := StripSlashes(q + "/");
    assert |r| == |q|;
    assert r == (q + "/")[..|q|] == q;
  }
}

=== FILE: setup_file.dfy ===
/**
 * The hscPipe setup file `setuphsc.txt`: the commented template that
 * `make_setuphsc` writes and the comment and blank-line stripping of
 * `read_setuphsc`, whose result is pasted into every job script.
 */
module SetupFile {
  import opened Text

  /** Line 121: a raw line is dropped when it starts with `#`; indented comments are not recognised. */
  predicate IsComment(line: string) {
    StartsWith(line, "#")
  }

  /** What one raw line contributes: nothing for a comment or a line that is blank after `rstrip`. */
  function Kept(line: string): (r: seq<string>)
    ensures |r| <= 1
    ensures |r| == 1 ==> r[0] != "" && !IsSpace(r[0][|r[0]| - 1]) && |r[0]| <= |line| && r[0] == line[..|r[0]|]
  {
    if IsComment(line) || RStrip(line) == "" then [] else [RStrip(line)]
  }

  /** Lines 120-121: the surviving lines, stripped of trailing whitespace, in file order. */
  function KeepLines(lines: seq<string>): (kept: seq<string>)
    ensures |kept| <= |lines|
    ensures forall k :: 0 <= k < |kept| ==> kept[k] != "" && !IsSpace(kept[k][|kept[k]| - 1])
  {
    if |lines| == 0 then [] else Kept(lines[0]) + KeepLines(lines[1..])
  }

  /** Lines 118-122: the file's lines that survive, joined with `\n`. */
  function ReadSetup(text: string): (r: string)
  {
    Join(KeepLines(Lines(text)), "\n")
  }

  /** Lines 109-114: the lines of the template written for the user to edit. */
  const TemplateLines: seq<string> := [
    "# Write your hscPipe" + " setup configuration" + " here, e.g." + "\n",
    "# setup-hscpipe\n",
    "# or \n",
    "# source /some/dir" + "ectory/hscpipe/8.4/" + "loadLSST.bash" + "\n",
    "# setup hscPipe 8.4\n",
    "\n",
    "setup-hscpipe\n"]

  /** The file `make_setuphsc` leaves behind. */
  const Template: string := Concat(TemplateLines)

  /** Stripping is compositional: the lines of two files read one after the other keep their order. */
  lemma {:induction false} KeepLinesAppend(a: seq<string>, b: seq<string>)
    ensures KeepLines(a + b) == KeepLines(a) + KeepLines(b)
  {
    if |a| == 0 {
      assert a + b == b;
    } else {
      assert (a + b)[1..] == a[1..] + b;
      KeepLinesAppend(a[1..], b);
    }
  }

  /** A string is kept exactly when some raw line that is not a comment strips to it and is not blank. */
  lemma {:induction false} KeepLinesMembership(lines: seq<string>, x: string)
    ensures x in KeepLines(lines) <==>
      exists i :: 0 <= i < |lines| && !IsComment(lines[i]) && RStrip(lines[i]) == x && x != ""
  {
    if |lines| > 0 {
      KeepLinesMembership(lines[1..], x);
      if x in KeepLines(lines[1..]) {
        var i :| 0 <= i < |lines[1..]| && !IsComment(lines[1..][i]) && RStrip(lines[1..][i]) == x && x != "";
        assert lines[i + 1] == lines[1..][i];
      }
      if i :| 0 <= i < |lines| && !IsComment(lines[i]) && RStrip(lines[i]) == x && x != "" {
        if i > 0 {
          assert lines[1..][i - 1] == lines[i];
        }
      }
    }
  }

  /** Line 121: a comment line contributes nothing, while `'  # x'` survives as it is. */
  lemma CommentTestIsOnRawLine()
    ensures KeepLines(["# setup hscPipe 8.4\n"]) == []
    ensures KeepLines(["  # x\n"]) == ["  # x"]
  {
    assert StartsWith("# setup hscPipe 8.4\n", "#");
    assert "  # x\n"[..1] == " ";
    var s := "  # x\n";
    assert s[..|s| - 1] == "  # x";
    assert RStrip(s) == "  # x";
  }

  /** Line 120: `rstrip` removes Unicode whitespace too, so a no-break space is dropped and an ideographic-space line is blank. */
  lemma UnicodeSpaceStripped()
    ensures KeepLines(["setup\U{A0}\n", "\U{3000}\n"]) == ["setup"]
  {
    var a, b := "setup\U{A0}\n", "\U{3000}\n";
    assert a[..1] == "s" && b[..1] == "\U{3000}";
    assert a[..|a| - 1][..|a| - 2] == "setup";
    assert RStrip(a) == "setup";
    assert RStrip(b) == "";
    assert ["setup\U{A0}\n", "\U{3000}\n"][1..] == [b];
  }

  /** A stripped line has no newline: the line's only newline is its last character, which `rstrip` drops. */
  lemma StrippedLineHasNoNewline(line: string)
    requires IsLine(line) || '\n' !in line
    ensures '\n' !in RStrip(line)
  {
  }

  /** Lines read from a file strip to newline-free strings. */
  lemma {:induction false} KeptFileLinesHaveNoNewline(lines: seq<string>)
    requires forall k :: 0 <= k < |lines| ==> IsLine(lines[k]) || '\n' !in lines[k]
    ensures forall k :: 0 <= k < |KeepLines(lines)| ==> '\n' !in KeepLines(lines)[k]
  {
    if |lines| > 0 {
      StrippedLineHasNoNewline(lines[0]);
      KeptFileLinesHaveNoNewline(lines[1..]);
    }
  }

  /** Every piece of `Lines` is a line or, last, a piece without a newline. */
  lemma FileLinesShape(text: string)
    ensures forall k :: 0 <= k < |Lines(text)| ==> IsLine(Lines(text)[k]) || '\n' !in Lines(text)[k]
  {
  }

  /** Lines that already went through the filter pass it unchanged. */
  lemma {:induction false} KeepLinesFixed(kept: seq<string>)
    requires forall k :: 0 <= k < |kept| ==> kept[k] != "" && !IsSpace(kept[k][|kept[k]| - 1]) && kept[k][0] != '#'
    ensures KeepLines(kept) == kept
  {
    if |kept| > 0 {
      assert !IsComment(kept[0]);
      assert RStrip(kept[0]) == kept[0];
      KeepLinesFixed(kept[1..]);
    }
  }

  /** A kept line begins as its raw line did, so never with `#`. */
  lemma {:induction false} KeptNotComment(lines: seq<string>)
    ensures forall k :: 0 <= k < |KeepLines(lines)| ==> KeepLines(lines)[k][0] != '#'
  {
    if |lines| > 0 {
      KeptNotComment(lines[1..]);
      var head := Kept(lines[0]);
      if |head| == 1 {
        assert head[0][0] == lines[0][0];
        assert lines[0][..1] != "#";
      }
      assert KeepLines(lines) == head + KeepLines(lines[1..]);
    }
  }

  /**
   * Reading is idempotent: splitting the result on `\n` and filtering those
   * lines again gives back the same string.
   */
  lemma ReadSetupIdempotent(text: string)
    ensures Join(KeepLines(Split(ReadSetup(text), '\n')), "\n") == ReadSetup(text)
  {
    var kept := KeepLines(Lines(text));
    FileLinesShape(text);
    KeptFileLinesHaveNoNewline(Lines(text));
    KeptNotComment(Lines(text));
    if |kept| == 0 {
      assert Split("", '\n') == [""];
      assert KeepLines([""]) == [];
    } else {
      SplitJoin(kept, '\n');
      KeepLinesFixed(kept);
    }
  }

  /** The result has no trailing newline, nor any trailing whitespace. */
  lemma ReadSetupNoTrailingSpace(text: string)
    ensures ReadSetup(text) == "" || !IsSpace(ReadSetup(text)[|ReadSetup(text)| - 1])
  {
    JoinedEndsInText(KeepLines(Lines(text)));
  }

  lemma JoinedEndsInText(kept: seq<string>)
    requires forall k :: 0 <= k < |kept| ==> kept[k] != "" && !IsSpace(kept[k][|kept[k]| - 1])
    ensures var r := Join(kept, "\n"); r == "" || !IsSpace(r[|r| - 1])
  {
    if |kept| > 0 {
      JoinEndsWithLast(kept, "\n");
      var r, last := Join(kept, "\n"), kept[|kept| - 1];
      assert r[|r| - 1] == r[|r| - |last|..][|last| - 1];
    }
  }

  /**
   * Whatever the comments, a file of comment lines, a blank line and one
   * command line reads back as the command alone.
   */
  lemma CommentedCommandRoundTrip(comments: seq<string>, command: string)
    requires forall k :: 0 <= k < |comments| ==> IsLine(comments[k]) && IsComment(comments[k])
    requires command != "" && '\n' !in command && command[0] != '#' && !IsSpace(command[|command| - 1])
    ensures ReadSetup(Concat(comments + ["\n", command + "\n"])) == command
  {
    CommandLine(command);
    AllWholeLines(comments, command);
    ReadWholeLines(comments + ["\n", command + "\n"]);
    KeepCommentedCommand(comments, command);
  }

  lemma AllWholeLines(comments: seq<string>, command: string)
    requires forall k :: 0 <= k < |comments| ==> IsLine(comments[k])
    requires IsLine(command + "\n")
    ensures var lines := comments + ["\n", command + "\n"];
      forall k :: 0 <= k < |lines| ==> IsLine(lines[k])
  {
    var lines := comments + ["\n", command + "\n"];
    assert IsLine("\n");
    forall k | 0 <= k < |lines| ensures IsLine(lines[k]) {
      if k < |comments| {
        assert lines[k] == comments[k];
      } else if k == |comments| {
        assert lines[k] == "\n";
      } else {
        assert lines[k] == command + "\n";
      }
    }
  }

  /** A file of complete lines reads as its kept lines joined. */
  lemma ReadWholeLines(lines: seq<string>)
    requires forall k :: 0 <= k < |lines| ==> IsLine(lines[k])
    ensures ReadSetup(Concat(lines)) == Join(KeepLines(lines), "\n")
  {
    LinesOfLines(lines);
  }

  /** The command's line reads back as the command. */
  lemma CommandLine(command: string)
    requires command != "" && '\n' !in command && command[0] != '#' && !IsSpace(command[|command| - 1])
    ensures IsLine(command + "\n") && Kept(command + "\n") == [command]
  {
    var last := command + "\n";
    assert last[..|last| - 1] == command;
    assert last[0] == command[0];
    NotComment(last);
  }

  lemma KeepCommentedCommand(comments: seq<string>, command: string)
    requires forall k :: 0 <= k < |comments| ==> IsComment(comments[k])
    requires Kept(command + "\n") == [command]
    ensures KeepLines(comments + ["\n", command + "\n"]) == [command]
  {
    var blank, last := "\n", command + "\n";
    AllCommentsDropped(comments);
    KeepLinesAppend(comments, [blank, last]);
    assert RStrip(blank) == "" by {
      assert blank[..0] == "";
    }
    assert [blank, last][1..] == [last];
    assert KeepLines([last]) == [command];
    assert KeepLines([blank, last]) == [command];
  }

  lemma NotComment(s: string)
    requires s != "" && s[0] != '#'
    ensures !IsComment(s)
  {
    assert s[..1][0] == s[0];
  }

  lemma {:induction false} AllCommentsDropped(lines: seq<string>)
    requires forall k :: 0 <= k < |lines| ==> IsComment(lines[k])
    ensures KeepLines(lines) == []
  {
    if |lines| > 0 {
      AllCommentsDropped(lines[1..]);
    }
  }

  /** Reading the template gives back exactly the one command it holds. */
  lemma TemplateRoundTrip()
    ensures ReadSetup(Template) == "setup-hscpipe"
  {
    var comments := TemplateLines[..5];
    assert TemplateLines == comments + ["\n", "setup-hscpipe" + "\n"] by {
      assert "setup-hscpipe" + "\n" == "setup-hscpipe\n";
    }
    TemplateComments();
    CommentedCommandRoundTrip(comments, "setup-hscpipe");
  }

  /** The five comment lines of the template. */
  lemma TemplateComments()
    ensures forall k :: 0 <= k < 5 ==> IsLine(TemplateLines[k]) && IsComment(TemplateLines[k])
  {
    TemplateFirstComment();
    CommentLine("# setup-hscpipe", "", "");
    CommentLine("# or ", "", "");
    TemplateSourceComment();
    CommentLine("# setup hscPipe 8.4", "", "");
    assert "# setup-hscpipe" + "" + "" + "\n" == TemplateLines[1];
    assert "# or " + "" + "" + "\n" == TemplateLines[2];
    assert "# setup hscPipe 8.4" + "" + "" + "\n" == TemplateLines[4];
  }

  lemma TemplateFirstComment()
    ensures IsLine(TemplateLines[0]) && IsComment(TemplateLines[0])
  {
    CommentLine("# Write your hscPipe", " setup configuration", " here, e.g.");
  }

  lemma TemplateSourceComment()
    ensures IsLine(TemplateLines[3]) && IsComment(TemplateLines[3])
  {
    CommentLine("# source /some/dir", "ectory/hscpipe/8.4/", "loadLSST.bash");
  }

  /** A comment written in three newline-free pieces is one comment line. */
  lemma CommentLine(a: string, b: string, c: string)
    requires a != "" && a[0] == '#' && '\n' !in a && '\n' !in b && '\n' !in c
    ensures IsLine(a + b + c + "\n") && IsComment(a + b + c + "\n")
  {
    var line := a + b + c + "\n";
    assert line[..|line| - 1] == a + b + c;
    assert line[..1][0] == a[0];
  }
}

=== FILE: text.dfy ===
/** Python string operations the scripts rely on, over `string` (a `seq<char>`). */
module Text {

  /**
   * The characters Python's `str.isspace` accepts and `str.rstrip()` removes:
   * `\t` to `\r`, the separators 0x1c-0x1f, the blank, U+0085, U+00A0,
   * U+1680, U+2000-U+200A, U+2028, U+2029, U+202F, U+205F and U+3000.
   */
  predicate IsSpace(c: char) {
    || c == ' ' || ('\t' <= c <= '\r') || ('\U{1C}' <= c <= '\U{1F}')
    || c == '\U{85}' || c == '\U{A0}' || c == '\U{1680}'
    || ('\U{2000}' <= c <= '\U{200A}') || c == '\U{2028}' || c == '\U{2029}'
    || c == '\U{202F}' || c == '\U{205F}' || c == '\U{3000}'
  }

  /** `s.startswith(prefix)`. */
  predicate StartsWith(s: string, prefix: string) {
    |prefix| <= |s| && s[..|prefix|] == prefix
  }

  /** One line of a text file: a single newline, and it is the last character. */
  predicate IsLine(s: string) {
    |s| > 0 && s[|s| - 1] == '\n' && '\n' !in s[..|s| - 1]
  }

  /** `s.rstrip()`: the longest prefix of `s` that does not end in whitespace. */
  function RStrip(s: string): (r: string)
    ensures |r| <= |s| && r == s[..|r|]
    ensures r == [] || !IsSpace(r[|r| - 1])
    ensures forall i :: |r| <= i < |s| ==> IsSpace(s[i])
  {
    if |s| == 0 || !IsSpace(s[|s| - 1]) then s else RStrip(s[..|s| - 1])
  }

  /** `s.find(c)`, except that a missing `c` gives `|s|` rather than -1. */
  function IndexOf(s: string, c: char): (i: nat)
    ensures i <= |s|
    ensures i < |s| ==> s[i] == c
    ensures forall j :: 0 <= j < i ==> s[j] != c
  {
    if |s| == 0 then 0 else if s[0] == c then 0 else 1 + IndexOf(s[1..], c)
  }

  /** The concatenation of all pieces, `''.join(pieces)`. */
  function Concat(pieces: seq<string>): string
  {
    if |pieces| == 0 then "" else pieces[0] + Concat(pieces[1..])
  }

  /** `sep.join(items)`. */
  function Join(items: seq<string>, sep: string): string
  {
    if |items| == 0 then ""
    else if |items| == 1 then items[0]
    else items[0] + sep + Join(items[1..], sep)
  }

  /** `s.split(c)` for a one-character separator: never empty, and no piece holds `c`. */
  function Split(s: string, c: char): (r: seq<string>)
    ensures |r| >= 1
    ensures forall k :: 0 <= k < |r| ==> c !in r[k]
    decreases |s|
  {
    var i := IndexOf(s, c);
    if i == |s| then [s] else [s[..i]] + Split(s[i + 1..], c)
  }

  /** `s.count(c)`. */
  function Count(s: string, c: char): nat
  {
    if |s| == 0 then 0 else (if s[0] == c then 1 else 0) + Count(s[1..], c)
  }

  /** The lines a Python text file yields when iterated: each keeps its newline; only the last may lack one. */
  function Lines(text: string): (r: seq<string>)
    ensures Concat(r) == text
    ensures forall k :: 0 <= k < |r| - 1 ==> IsLine(r[k])
    ensures |r| > 0 ==> r[|r| - 1] != "" && '\n' !in r[|r| - 1][..|r[|r| - 1]| - 1]
    decreases |text|
  {
    if |text| == 0 then []
    else
      var i := IndexOf(text, '\n');
      if i == |text| then
        assert text[..|text| - 1] <= text;
        [text]
      else
        var line, rest := text[..i + 1], text[i + 1..];
        assert line[..|line| - 1] == text[..i];
        assert text == line + rest;
        [line] + Lines(rest)
  }

  lemma {:induction false} CountConcat(a: string, b: string, c: char)
    ensures Count(a + b, c) == Count(a, c) + Count(b, c)
  {
    if |a| == 0 {
      assert a + b == b;
    } else {
      assert (a + b)[1..] == a[1..] + b;
      CountConcat(a[1..], b, c);
    }
  }

  lemma {:induction false} CountAbsent(s: string, c: char)
    requires c !in s
    ensures Count(s, c) == 0
  {
    if |s| > 0 {
      assert c !in s[1..] by {
        forall j | 0 <= j < |s[1..]| ensures s[1..][j] != c {
          assert s[1..][j] == s[j + 1];
        }
      }
      CountAbsent(s[1..], c);
    }
  }

  /** Joining k pieces that do not contain `c` with `c` puts exactly k - 1 copies of `c` in the result. */
  lemma {:induction false} JoinCount(items: seq<string>, c: char)
    requires |items| >= 1
    requires forall k :: 0 <= k < |items| ==> c !in items[k]
    ensures Count(Join(items, [c]), c) == |items| - 1
  {
    if |items| == 1 {
      CountAbsent(items[0], c);
    } else {
      var rest := Join(items[1..], [c]);
      JoinCount(items[1..], c);
      CountAbsent(items[0], c);
      CountConcat(items[0], [c], c);
      CountConcat(items[0] + [c], rest, c);
      assert Count([c], c) == 1 by {
        assert [c][1..] == [];
      }
    }
  }

  /** Splitting on `c` undoes joining with `c`, as long as no piece contains `c` and there is a piece. */
  lemma {:induction false} SplitJoin(items: seq<string>, c: char)
    requires |items| >= 1
    requires forall k :: 0 <= k < |items| ==> c !in items[k]
    ensures Split(Join(items, [c]), c) == items
  {
    var x := items[0];
    if |items| == 1 {
      assert IndexOf(x, c) == |x|;
    } else {
      var rest := Join(items[1..], [c]);
      var s := x + [c] + rest;
      assert Join(items, [c]) == s;
      assert s[|x|] == c;
      assert forall j :: 0 <= j < |x| ==> s[j] == x[j];
      assert IndexOf(s, c) == |x|;
      assert s[..|x|] == x;
      assert s[|x| + 1..] == rest;
      assert items == [x] + items[1..];
      SplitJoin(items[1..], c);
    }
  }

  /** `sep.join(items)` ends with the last item. */
  lemma {:induction false} JoinEndsWithLast(items: seq<string>, sep: string)
    requires |items| >= 1
    ensures var j, last := Join(items, sep), items[|items| - 1];
      |last| <= |j| && j[|j| - |last|..] == last
  {
    if |items| > 1 {
      JoinEndsWithLast(items[1..], sep);
      var rest := Join(items[1..], sep);
      var j := Join(items, sep);
      assert j == (items[0] + sep) + rest;
      assert j[|j| - |rest|..] == rest;
    }
  }

  /** A text that starts with a complete line yields that line first. */
  lemma LinesCons(line: string, rest: string)
    requires IsLine(line)
    ensures Lines(line + rest) == [line] + Lines(rest)
  {
    var text := line + rest;
    var n := |line| - 1;
    assert forall j :: 0 <= j < n ==> text[j] == line[..n][j];
    assert text[n] == '\n';
    assert IndexOf(text, '\n') == n;
    assert text[..n + 1] == line;
    assert text[n + 1..] == rest;
  }

  /** Complete lines written one after another are read back as those lines. */
  lemma {:induction false} LinesOfLines(ls: seq<string>)
    requires forall k :: 0 <= k < |ls| ==> IsLine(ls[k])
    ensures Lines(Concat(ls)) == ls
  {
    if |ls| > 0 {
      LinesOfLines(ls[1..]);
      LinesCons(ls[0], Concat(ls[1..]));
    }
  }

  /** A non-empty text without a newline is a single, unterminated line. */
  lemma LinesLast(s: string)
    requires s != "" && '\n' !in s
    ensures Lines(s) == [s]
  {
    assert IndexOf(s, '\n') == |s|;
  }
}
